=== FILE: README.md ===
# Announcements add-on for ClientXCMS: a Dafny model

This project models the core rules of the ClientXCMS announcements add-on, a Laravel
extension that publishes news items on a customer site and in an admin panel. Its parts are:

- **Announcements.** An announcement is a draft, published, scheduled or archived row. It has
  an optional publication date, a unique slug, counters of views and likes, and soft
  deletion.
- **Categories.** Categories are rows with a unique slug, a colour, a position and an
  `is_active` flag.
- **Engagement.** A public page records a view at most once per visitor per time window. A
  like button toggles one like per visitor.
- **Statistics.** The statistics service produces daily series, distinct visitors, the top
  referers, site-wide figures and a CSV export.
- **Maintenance.** A console command promotes scheduled items whose date has come.
- **Admin and API.** The admin and JSON API controllers create, edit, duplicate, reorder,
  publish and delete announcements and categories. A settings screen validates and stores the
  add-on's options.

How the model is built:

- **The database.** All four tables live in one object, `Schema.Database`. It holds the
  announcements, categories, view rows and like rows as sequences in insertion order, plus the
  next auto-increment ids. Its invariant is that every stored id lies below the next one.
- **Operations that change rows.** These are methods that `modify` that object. Each one
  states the whole new table contents as a function of the old ones.
- **Pure rules.** Query scopes, predicates, accessors, date rules and statistics are
  functions. Lemmas state the properties they keep.
- **Time.** Timestamps are integers counting minutes, and a calendar day is `t / 1440`.
- **Opaque services.** `Str::slug`, the storage URL, the `Y-m-d` formatting of a day, the
  LIKE search and the integer parser of the settings screen are function parameters.
  Hashing is an injective constructor `Sha256(preimage)`.

The modules follow the repository's structure:

| Module | What it covers |
|---|---|
| `Support` | Shared helpers. |
| `Slugs` | Slug and colour patterns, and the unique-slug loop. |
| `Schema` | The tables. |
| `Sorting` | `orderBy` and `limit`. |
| `AnnouncementModel` | `Announcement.php`. |
| `Engagement` | `recordView`, `hasLiked` and `toggleLike`. |
| `Stats` | The statistics service. |
| `CategoryModel` | `AnnouncementCategory.php`. |
| `CategoryRequest` | The category form request. |
| `AnnouncementRequest` | The announcement form request. |
| `AdminAnnouncements` | The admin announcement controller. |
| `AdminCategories` | The admin category controller. |
| `ApiAnnouncements` | The announcement API controller. |
| `ApiCategories` | The category API controller. |
| `FrontController` | The public controller. |
| `PublishCommand` | The console command. |
| `LatestComponent` | The "latest announcements" Blade component. |
| `Settings` | The settings controller. |

## Model

| member | source | states |
|---|---|---|
| AnnouncementModel.IsScheduled | addons/announcements/src/Models/Announcement.php:371-375 | Scheduled holds for every `scheduled` row and never together with `isPublished`. |
| AnnouncementModel.PublicationClassification | addons/announcements/src/Models/Announcement.php:363-375 | A row is neither visible nor scheduled exactly when it is a draft, archived, or published without a date. |
| AnnouncementModel.PublishedScope | addons/announcements/src/Models/Announcement.php:312-316 | `published()` keeps exactly the live rows that are published with a date no later than now. |
| AnnouncementModel.OrderFromSetting | addons/announcements/src/Models/Announcement.php:329-345 | `featured_position_date` and `position_date` select their own orders. Every other value, `date` and null included, sorts by date only. |
| AnnouncementModel.PrecedesTotal | addons/announcements/src/Models/Announcement.php:329-345 | Each of the three `scopeOrdered` orders compares any two rows. |
| AnnouncementModel.PrecedesTransitive | addons/announcements/src/Models/Announcement.php:329-345 | Each of the three orders is transitive. With null dates last, a total preorder results. |
| AnnouncementModel.Ordered | addons/announcements/src/Models/Announcement.php:329-345 | `ordered()` returns a permutation of its input, sorted by the chosen order. |
| AnnouncementModel.PublishedQuery | addons/announcements/src/Models/Announcement.php:312-345 | A published, filtered, ordered and limited query returns only matching published rows, in order and within the limit. A matching row is left out only when the limit is full. |
| AnnouncementModel.SeoTitle | addons/announcements/src/Models/Announcement.php:238-250 | A truthy `meta_title` is the SEO title as it stands. |
| AnnouncementModel.SeoTitleDefault | addons/announcements/src/Models/Announcement.php:238-250 | With the default template, the SEO title is "<title> - <site name>" for a title without a brace. |
| AnnouncementModel.CoverImageUrlAccessor | addons/announcements/src/Models/Announcement.php:287-295 | The `cover_image_url` accessor yields a URL exactly when a cover file is stored. |
| AnnouncementModel.CoverImageDisplayUrl | addons/announcements/src/Models/Announcement.php:185-197 | The intended display URL is a truthy manual URL first, then the stored file. It is null only when both are absent. |
| AnnouncementModel.CoverImageManualUrlIgnored | addons/announcements/src/Models/Announcement.php:185-197 | As written, the display URL equals the file accessor, so a manual URL without a file shows nothing. |
| AnnouncementModel.AuthorName | addons/announcements/src/Models/Announcement.php:300-307 | The author name is the author's username only when both the setting and the row allow it and the author exists. Otherwise it is the anonymous name. |
| AnnouncementModel.StatusBadgeClass | addons/announcements/src/Models/Announcement.php:473-482 | The grey badge belongs to drafts only. |
| AnnouncementModel.StatusBadgesDistinct | addons/announcements/src/Models/Announcement.php:473-482 | The four statuses have four different badge classes. |
| AnnouncementModel.Create | addons/announcements/src/Models/Announcement.php:110-125 | The `creating` hook keeps the row, takes the next id and appends it. The slug is `slug(title)` when empty, and otherwise the given one. The first free of `s`, `s-1`, `s-2`, … is taken among all rows, soft-deleted ones included. Unique ids and slugs are preserved. |
| AnnouncementModel.AppendKeepsKeys | addons/announcements/src/Models/Announcement.php:110-125 | Appending a row with a fresh id and a free slug keeps ids and slugs unique. |
| Slugs.SlugPatternIff | addons/announcements/src/Http/Requests/AnnouncementRequest.php:34 | The regex `^[a-z0-9]+(?:-[a-z0-9]+)*$` matches exactly the non-empty lower-case alphanumeric runs joined by single hyphens. |
| Slugs.AfterRunIff | addons/announcements/src/Http/Requests/AnnouncementRequest.php:34 | The regex's repeated `-run` group accepts exactly the texts that are empty or a hyphen followed by a well-formed slug. |
| Slugs.Candidate | addons/announcements/src/Models/Announcement.php:119-123 | Candidate 0 is the original slug. Candidate k ≥ 1 is `original-k`, which is strictly longer. |
| Slugs.CandidateInjective | addons/announcements/src/Models/Announcement.php:119-123 | Different counters give different candidates. |
| Slugs.TriedSize | addons/announcements/src/Models/Announcement.php:119-123 | The first n candidates are n distinct slugs. |
| Slugs.UniqueSlug | addons/announcements/src/Models/Announcement.php:119-123 | The `while (...exists())` loop ends on a free slug. That slug is the first free candidate, taken after at most as many attempts as there are taken slugs. It is the original slug when that is free. |
| Engagement.RefererColumnValue | addons/announcements/src/Models/Announcement.php:403 | The intended referer cell is null exactly when the header is absent. Otherwise it is a prefix of the header of at most 255 characters, and a short header is stored whole. |
| Engagement.RefererOverflowsAsWritten | addons/announcements/src/Models/Announcement.php:403 | As written, `Str::limit($referer, 255)` turns a 256-character referer into 258 characters, more than the 255-character column holds. |
| Engagement.NewView | addons/announcements/src/Models/Announcement.php:398-408 | Corrected (referer cell per `RefererColumnValue`, see Findings): a view row stores digests of the IP and user agent, never the raw text, along with the referer cell and the time. It matches the visitor who made it. |
| Engagement.ViewRecordedUnlessRecent | addons/announcements/src/Models/Announcement.php:380-409 | One call adds exactly one view row unless the same identity has a view at or after `now - window`, and then it adds none. |
| Engagement.RunSuppressed | addons/announcements/src/Models/Announcement.php:386-396 | After a matching view at time t, every call within `window` minutes of t adds nothing. |
| Engagement.ViewsInOneWindowCountOnce | addons/announcements/src/Models/Announcement.php:380-409 | Any run of calls by one visitor, in time order and within one window, adds at most one row. |
| Engagement.RecordView | addons/announcements/src/Models/Announcement.php:380-409 | Corrected (referer cell per `RefererColumnValue`, see Findings): `recordView` replaces the view table by the one-call result and raises `views_count` by the number of rows inserted. A counter equal to the number of rows stays equal. |
| Engagement.FirstLike | addons/announcements/src/Models/Announcement.php:436-443 | The `first()` query finds the first matching like in table order, or reports that none matches. |
| Engagement.HasLiked | addons/announcements/src/Models/Announcement.php:414-427 | `hasLiked` holds exactly when some like matches, with the same identity rule as the toggle. |
| Engagement.CountLikesAppend | addons/announcements/src/Models/Announcement.php:432-460 | Like rows of an announcement add up over concatenation. |
| Engagement.LikeCountAfterToggle | addons/announcements/src/Models/Announcement.php:432-460 | The toggle moves the number of likes of the announcement by +1 when it returns true and by -1 when it returns false. |
| Engagement.ToggleTwiceRestores | addons/announcements/src/Models/Announcement.php:432-460 | From "not liked", two toggles return true and then false and restore the like table exactly. |
| Engagement.HasLikedAfterToggle | addons/announcements/src/Models/Announcement.php:414-460 | With at most one like per visitor, the toggle keeps that property, and `hasLiked` afterwards equals the toggle's result. |
| Engagement.ToggleTwiceFromLiked | addons/announcements/src/Models/Announcement.php:432-460 | From "liked once", two toggles return false and then true and restore the number of likes. |
| Engagement.ToggleLike | addons/announcements/src/Models/Announcement.php:432-460 | `toggleLike` replaces the like table, returns the toggle's result and moves `likes_count` by one in that direction. A counter equal to the number of rows stays equal. |
| Stats.PeriodDays | addons/announcements/src/Services/AnnouncementStatsService.php:42-58 | `7d`, `90d` and `1y` reach back 7, 90 and 365 days. Every other code, `30d` included, reaches back 30 days. |
| Stats.PeriodDates | addons/announcements/src/Services/AnnouncementStatsService.php:42-58 | The period runs from the start of the day n days back to the end of today. It contains now and spans n + 1 calendar days. |
| Stats.Series | addons/announcements/src/Services/AnnouncementStatsService.php:74-129 | Entry i of a series is day `start + i`, with the number of rows on that day, or 0. |
| Stats.DailyCounts | addons/announcements/src/Services/AnnouncementStatsService.php:86-96 | The cursor loop builds exactly the zero-filled series with one entry per day from start to end. |
| Stats.SeriesSum | addons/announcements/src/Services/AnnouncementStatsService.php:76-96 | For a period starting at midnight, the counts of the series add up to the number of rows in the period. |
| Stats.UniqueViews | addons/announcements/src/Services/AnnouncementStatsService.php:63-69 | The distinct count of non-null IP digests since the start is at most the number of views since the start. |
| Stats.UniqueViewsIgnoreRepeats | addons/announcements/src/Services/AnnouncementStatsService.php:63-69 | A further view from a counted IP, or one without an IP, does not change the distinct count. |
| Stats.TopReferers | addons/announcements/src/Services/AnnouncementStatsService.php:134-145 | There are at most 10 entries, with non-empty distinct referers and their exact counts, highest first. A referer left out ranks no higher than every listed one, and the list is then full. |
| Stats.TopReferersProps | addons/announcements/src/Services/AnnouncementStatsService.php:134-145 | Over the referers of the period, the same three facts hold for the ranked groups. |
| Stats.GetStats | addons/announcements/src/Services/AnnouncementStatsService.php:22-37 | The totals are the stored counters whatever the period. Both series have n + 1 entries for an n-day code, and there are at most 10 referers. |
| Stats.ViewsByDaySum | addons/announcements/src/Services/AnnouncementStatsService.php:22-37 | The views series and the likes series each add up to the rows inside the period. |
| Stats.GetGlobalStats | addons/announcements/src/Services/AnnouncementStatsService.php:150-168 | The totals are the live count, the published-scope count (at most the live count), the views since the period start and the sum of the live rows' likes. Each ranking holds the live published rows with the most views or likes, highest first, five of them or all when fewer. A published row is left out only when five are listed, each counting at least as many. |
| Stats.GlobalTotalsIgnorePeriod | addons/announcements/src/Services/AnnouncementStatsService.php:150-168 | Only the views figure depends on the period. The likes total and the counts do not. |
| Stats.CsvLikesLostAsWritten | addons/announcements/src/Services/AnnouncementStatsService.php:181-183 | As written, a day with one like exports a likes cell of 0, while the intended export writes 1. |
| Stats.CsvLineCount | addons/announcements/src/Services/AnnouncementStatsService.php:177-184 | With a date format that writes no newline, the body has one line per series entry. |
| Stats.WriteCsv | addons/announcements/src/Services/AnnouncementStatsService.php:177-186 | The `foreach` writes the header, then one line per `views_by_day` entry in order, each with that day's likes. |
| Stats.ExportToCsv | addons/announcements/src/Services/AnnouncementStatsService.php:173-187 | The export is the intended CSV of the period's statistics. |
| Stats.CsvNewlines | addons/announcements/src/Services/AnnouncementStatsService.php:173-187 | The export has one line per series entry plus the header. |
| CategoryModel.Create | addons/announcements/src/Models/AnnouncementCategory.php:48-72 | The `creating` hook applies the defaults (colour `#3b82f6`, position 0, active), takes `slug(name)` for an empty slug, and appends the first free `s`, `s-k`. |
| CategoryModel.FindBySlug | addons/announcements/src/View/Components/LatestAnnouncements.php:52-58 | The `where('slug')->first()` lookup finds a category with that slug exactly when one exists. |
| CategoryModel.PublishedCount | addons/announcements/src/Models/AnnouncementCategory.php:85-91 | `published_count` is at most the number of the category's rows. |
| CategoryModel.PublishedCountIsScope | addons/announcements/src/Models/AnnouncementCategory.php:85-91 | `published_count` is the length of the published scope restricted to the category. |
| CategoryModel.ActiveScope | addons/announcements/src/Models/AnnouncementCategory.php:96-99 | `active()` keeps exactly the active categories. |
| CategoryModel.OrderedCategories | addons/announcements/src/Models/AnnouncementCategory.php:104-107 | `ordered()` is a permutation sorted by position, then name. |
| CategoryModel.DeleteCategoryRow | addons/announcements/database/migrations/2024_12_01_000002_create_announcements_table.php:34 | Deleting a category removes exactly its row. Through `nullOnDelete`, its announcements lose the category and nothing else. |
| CategoryRequest.PreparedIsActive | addons/announcements/src/Http/Requests/CategoryRequest.php:64-69 | `is_active` becomes true exactly when the raw input is the string `'true'`. A JSON boolean true becomes false. |
| CategoryRequest.SlugRuleStructure | addons/announcements/src/Http/Requests/CategoryRequest.php:34-39 | A slug passes exactly when it is absent, or well formed, at most 255 characters, and held by no other category. |
| CategoryRequest.Validate | addons/announcements/src/Http/Requests/CategoryRequest.php:28-47 | The form is accepted exactly when every rule holds: name, slug, description ≤ 500, colour `^#[a-fA-F0-9]{6}$`, icon ≤ 50, position ≥ 0. The accepted fields are the validated ones. |
| AdminCategories.IsActiveRule | addons/announcements/src/Http/Controllers/Admin/CategoryController.php:52 | The controller's `is_active` is true exactly when the raw input was `'true'`. |
| AdminCategories.StoreBaseSlug | addons/announcements/src/Http/Controllers/Admin/CategoryController.php:48-50 | `store` fills an empty slug with `slug(name)`. |
| AdminCategories.CreateAsWritten | addons/announcements/src/Http/Controllers/Admin/CategoryController.php:54 | As written, an emptied colour or position reaches the insert as null, replacing the model default, and the NOT NULL column (addons/announcements/database/migrations/2024_12_01_000001_create_announcement_categories_table.php:26-28) refuses it. Otherwise the inserted row is the validated one. |
| AdminCategories.ClearedPositionFailsOnStoreAsWritten | addons/announcements/src/Http/Controllers/Admin/CategoryController.php:44-57 | A create form with the position emptied fails as written. The corrected store puts the default 0 in its place. |
| AdminCategories.Store | addons/announcements/src/Http/Controllers/Admin/CategoryController.php:44-57 | Corrected (an emptied colour or position takes the column default, see Findings): a rejected form changes nothing. An accepted one creates the category with the validated fields and a unique slug. |
| AdminCategories.ApplyUpdateAsWritten | addons/announcements/src/Http/Controllers/Admin/CategoryController.php:70-79 | As written, a form with the slug, colour or position cleared writes null into a NOT NULL column and fails. Otherwise every field takes its validated value. |
| AdminCategories.ApplyUpdate | addons/announcements/src/Http/Controllers/Admin/CategoryController.php:70-79 | The corrected update keeps the stored slug, colour or position when the field is emptied. It agrees with the written one whenever that succeeds. |
| AdminCategories.ClearedSlugFailsAsWritten | addons/announcements/src/Http/Controllers/Admin/CategoryController.php:70-79 | The edit form sent unchanged but for an emptied slug fails as written. The corrected update leaves the row as it was. |
| AdminCategories.ClearedPositionFailsAsWritten | addons/announcements/src/Http/Controllers/Admin/CategoryController.php:70-79 | The same holds for an emptied position. |
| AdminCategories.Update | addons/announcements/src/Http/Controllers/Admin/CategoryController.php:70-79 | A rejected form changes nothing. An accepted one replaces the category by the corrected update and touches no other table. |
| AdminCategories.Destroy | addons/announcements/src/Http/Controllers/Admin/CategoryController.php:84-94 | With live announcements in the category, nothing is deleted. Otherwise exactly that category is removed, and only soft-deleted announcements lose their category. |
| AdminCategories.EmptyCategoryHasOnlyTrashed | addons/announcements/src/Http/Controllers/Admin/CategoryController.php:87-91 | A category the guard lets through holds only soft-deleted announcements. |
| AdminCategories.UpdatePositions | addons/announcements/src/Http/Controllers/Admin/CategoryController.php:99-108 | Every listed category gets exactly its position. Every other row and table is unchanged. |
| ApiCategories.StoreBaseSlug | addons/announcements/src/Http/Controllers/Api/CategoryApiController.php:128-130 | The API `store` fills an empty slug with `slug(name)`. |
| ApiCategories.Store | addons/announcements/src/Http/Controllers/Api/CategoryApiController.php:116-140 | The request is accepted exactly when the rules hold (colour `^#[0-9A-Fa-f]{6}$`, slug unique). The category gets `#3B82F6` for an empty colour and a unique slug. |
| ApiCategories.ApplyPatch | addons/announcements/src/Http/Controllers/Api/CategoryApiController.php:198-212 | Only the fields present in the validated input change. An empty input changes nothing. |
| ApiCategories.ApplyPatchIdempotent | addons/announcements/src/Http/Controllers/Api/CategoryApiController.php:198-212 | Applying the same partial update twice equals applying it once. |
| ApiCategories.Update | addons/announcements/src/Http/Controllers/Api/CategoryApiController.php:198-212 | A rejected request changes nothing. An accepted one writes the patched category only. |
| ApiCategories.DetachLive | addons/announcements/src/Http/Controllers/Api/CategoryApiController.php:240 | `announcements()->update(['category_id' => null])` detaches exactly the category's live rows. |
| ApiCategories.Destroy | addons/announcements/src/Http/Controllers/Api/CategoryApiController.php:237-245 | Every announcement of the category ends without it, no announcement is removed, and exactly that category is deleted. |
| AnnouncementRequest.Checkbox | addons/announcements/src/Http/Requests/AnnouncementRequest.php:69-75 | `featured` and `show_author` become `'1'` exactly for the string `'true'` or boolean true, and `'0'` otherwise. |
| AnnouncementRequest.AcceptedSlugIsWellFormed | addons/announcements/src/Http/Requests/AnnouncementRequest.php:30-36 | A slug the rules accept is well formed and held by no other row the rule checks. |
| AnnouncementRequest.CoverPath | addons/announcements/src/Http/Requests/AnnouncementRequest.php:133-137 | An uploaded cover is stored under `announcements/covers/`, in a file name ending in `_cover.<ext>`. |
| AnnouncementRequest.CoverPathInjective | addons/announcements/src/Http/Requests/AnnouncementRequest.php:133-135 | The file name starts with the row's id, so two rows never share a cover path. Equal paths mean the same id and the same extension. |
| AnnouncementRequest.TrimmedUrl | addons/announcements/src/Http/Requests/AnnouncementRequest.php:155-156 | An empty or whitespace-only cover URL is stored as null, and so is one that trims to `"0"` (`!empty`, lines 125 and 177). Any other is stored trimmed. |
| AnnouncementRequest.StoreDates | addons/announcements/src/Http/Requests/AnnouncementRequest.php:113-121 | A given future date forces `scheduled`. With no date, `published` takes now. Otherwise date and status are kept as given. |
| AnnouncementRequest.UpdateDatesAsWritten | addons/announcements/src/Http/Requests/AnnouncementRequest.php:181-188 | As written, an emptied date field clears a stored date. |
| AnnouncementRequest.UpdateDates | addons/announcements/src/Http/Requests/AnnouncementRequest.php:181-188 | The corrected version keeps the stored date for an empty field. A published row then always has a date. |
| AnnouncementRequest.UpdateDatesAgree | addons/announcements/src/Http/Requests/AnnouncementRequest.php:181-188 | The two versions differ only where a stored date meets an empty field. |
| AnnouncementRequest.ClearedDateHidesAsWritten | addons/announcements/src/Http/Requests/AnnouncementRequest.php:166-191 | As written, saving a visible row with the date field emptied keeps it `published` without a date, so it leaves the public pages. The corrected version keeps it visible. |
| AnnouncementRequest.SlugsOfOthers | addons/announcements/src/Http/Requests/AnnouncementRequest.php:35 | The slugs the unique index guards are every other row's slug, soft-deleted rows included. |
| AnnouncementRequest.TrashedSlugPassesAsWritten | addons/announcements/src/Http/Requests/AnnouncementRequest.php:35 | As written, the edit rule accepts the slug of a soft-deleted row, which the unique index then rejects. |
| AnnouncementRequest.ReplaceKeepsKeys | addons/announcements/src/Http/Requests/AnnouncementRequest.php:191 | Replacing a row with one of the same id and a slug no other row holds keeps ids and slugs unique. |
| AnnouncementRequest.PositionAsWritten | addons/announcements/src/Http/Requests/AnnouncementRequest.php:92 | As written, `input('position', 0)` passes an emptied field's null through: the default serves only a request without the key. |
| AnnouncementRequest.EmptiedPositionFailsAsWritten | addons/announcements/src/Http/Requests/AnnouncementRequest.php:80-191 | A form saved with the position field emptied hands a null to the NOT NULL column (addons/announcements/database/migrations/2024_12_01_000002_create_announcements_table.php:32), so both writes fail as written. The corrected rows of `store` and `update` take the column default 0. |
| AnnouncementRequest.StoreRow | addons/announcements/src/Http/Requests/AnnouncementRequest.php:82-127 | Corrected (an emptied position is stored as 0, see Findings): `store` hands `create` these values: the given fields, the `StoreDates` dates, the admin as author, a trimmed cover URL or none, and zero counters. |
| AnnouncementRequest.FormSlug | addons/announcements/src/Http/Requests/AnnouncementRequest.php:104-111 | An empty slug becomes the first of `slug(title)`, `slug(title)-k` that no live row holds. A given slug is kept. |
| AnnouncementRequest.CreateWithCover | addons/announcements/src/Http/Requests/AnnouncementRequest.php:130-138 | `create`, then the cover path saved when a file was uploaded. |
| AnnouncementRequest.GivenSlugOfStore | addons/announcements/src/Http/Requests/AnnouncementRequest.php:104-111 | For a given slug, the hook keeps it when free, or suffixes it. |
| AnnouncementRequest.DerivedSlugOfStore | addons/announcements/src/Http/Requests/AnnouncementRequest.php:104-111 | For a derived slug, the form's suffix is followed by the hook's suffix, and the result is held by no row. |
| AnnouncementRequest.Store | addons/announcements/src/Http/Requests/AnnouncementRequest.php:80-139 | Corrected (an emptied position is stored as 0, see Findings): a rejected form changes nothing. An accepted one appends exactly one row with these dates, the slug described above, the cover path when uploaded, and the next id. |
| AnnouncementRequest.EditedRow | addons/announcements/src/Http/Requests/AnnouncementRequest.php:158-191 | Corrected (dates per `UpdateDates`, and an emptied position stored as 0, see Findings): the edited row keeps id, author and counters. An empty slug keeps the stored one. The dates follow `UpdateDates`. The checkboxes follow `'true'`, and the cover URL is trimmed. |
| AnnouncementRequest.EditedRowTakesFields | addons/announcements/src/Http/Requests/AnnouncementRequest.php:158-171 | The edited row takes the submitted title, category and meta title. It takes the submitted position, or 0 for an emptied one. |
| AnnouncementRequest.EditedSlugIsFree | addons/announcements/src/Http/Requests/AnnouncementRequest.php:35 | When the rule checks every other row, the slug `update` keeps is held by no other row. |
| AnnouncementRequest.Update | addons/announcements/src/Http/Requests/AnnouncementRequest.php:146-217 | Corrected (slug checked against every other row, soft-deleted ones included, dates per `UpdateDates`, and an emptied position stored as 0, see Findings): a rejected form changes nothing. An accepted one writes the edited row. An upload replaces the file and clears the URL, and `remove_cover_image == 'true'` leaves no file. Ids and slugs stay unique. |
| PublishCommand.Promote | addons/announcements/src/Console/Commands/PublishScheduledAnnouncementsCommand.php:37-42 | A due row (live, scheduled, date ≤ now) becomes published, visible and not scheduled. Every other row stays as it was. Only the status changes. |
| PublishCommand.Swept | addons/announcements/src/Console/Commands/PublishScheduledAnnouncementsCommand.php:36-43 | After the sweep, each row is its promotion. |
| PublishCommand.CountIsChanges | addons/announcements/src/Console/Commands/PublishScheduledAnnouncementsCommand.php:40-51 | The reported count equals the number of rows the sweep changed. |
| PublishCommand.NothingDueAfterSweep | addons/announcements/src/Console/Commands/PublishScheduledAnnouncementsCommand.php:36-43 | After a sweep, nothing is due. |
| PublishCommand.SweepIdempotent | addons/announcements/src/Console/Commands/PublishScheduledAnnouncementsCommand.php:36-43 | A second sweep at the same time changes nothing. |
| PublishCommand.Handle | addons/announcements/src/Console/Commands/PublishScheduledAnnouncementsCommand.php:34-54 | The loop leaves the swept table, reports the number of due rows and returns SUCCESS. |
| AdminAnnouncements.Toggled | addons/announcements/src/Http/Controllers/Admin/AnnouncementController.php:213-227 | A published row becomes a draft with its date kept. Any other row becomes published, keeping its date or taking now. A future date leaves it scheduled and not visible. |
| AdminAnnouncements.ToggleTwice | addons/announcements/src/Http/Controllers/Admin/AnnouncementController.php:213-227 | Two toggles restore a dated published row or draft. |
| AdminAnnouncements.TogglePublish | addons/announcements/src/Http/Controllers/Admin/AnnouncementController.php:213-227 | The action replaces exactly the row by its toggle. |
| AdminAnnouncements.CopyOf | addons/announcements/src/Http/Controllers/Admin/AnnouncementController.php:139-153 | The copy has title + " (Copy)", is a draft without a date, has zero counters and the admin as author, and keeps every other field. It is never visible or scheduled. |
| AdminAnnouncements.Duplicate | addons/announcements/src/Http/Controllers/Admin/AnnouncementController.php:139-153 | Exactly one row is appended: the copy with the next id and a free slug derived from the new title. The original row is unchanged. |
| AdminAnnouncements.PositionsApplied | addons/announcements/src/Http/Controllers/Admin/AnnouncementController.php:158-167 | Each listed live row has its position. Every other row is unchanged. |
| AdminAnnouncements.UpdatePositions | addons/announcements/src/Http/Controllers/Admin/AnnouncementController.php:158-167 | The loop leaves exactly the applied positions, for all listed ids. |
| AdminAnnouncements.ExportFilename | addons/announcements/src/Http/Controllers/Admin/AnnouncementController.php:189-197 | The file name is `stats-<slug>-<period>.csv`, from which the slug and the period can be read back. |
| AdminAnnouncements.ExportStats | addons/announcements/src/Http/Controllers/Admin/AnnouncementController.php:189-197 | Corrected (likes cell per `Stats.Csv`, see Findings): the period defaults to `30d` and selects both the file name and the CSV. |
| ApiAnnouncements.PublishedListing | addons/announcements/src/Http/Controllers/Api/AnnouncementApiController.php:164-175 | The listing holds exactly the published rows (of the category when one is given), ordered featured desc, position asc, date desc. |
| ApiAnnouncements.StoreDate | addons/announcements/src/Http/Controllers/Api/AnnouncementApiController.php:228-230 | A given date is kept. With no date, `published` takes now and other statuses stay undated. |
| ApiAnnouncements.FutureDateNotVisibleEitherWay | addons/announcements/src/Http/Controllers/Api/AnnouncementApiController.php:228-230 | A future date gives `scheduled` in the form and `published` but not yet visible in the API. Neither shows the row. |
| ApiAnnouncements.StoreRow | addons/announcements/src/Http/Controllers/Api/AnnouncementApiController.php:197-235 | The created row carries the validated fields, the defaults (not featured, author shown, position 0), the `StoreDate` date and zero counters. |
| ApiAnnouncements.Store | addons/announcements/src/Http/Controllers/Api/AnnouncementApiController.php:197-235 | The request is accepted exactly when the rules hold (slug unique among all rows). A rejected one changes nothing. An accepted one appends the row with `slug(title)` for an empty slug, made unique by the hook. |
| ApiAnnouncements.UpdateDatePatch | addons/announcements/src/Http/Controllers/Api/AnnouncementApiController.php:355-357 | A given date is written. An absent date keeps the stored one, and an explicit null clears it. Setting `published` on an undated row writes now. |
| ApiAnnouncements.EditedRow | addons/announcements/src/Http/Controllers/Api/AnnouncementApiController.php:332-362 | Only the submitted fields change, with the date of `UpdateDatePatch`. |
| ApiAnnouncements.EmptyUpdateKeepsRow | addons/announcements/src/Http/Controllers/Api/AnnouncementApiController.php:332-362 | An empty update leaves the row as it is. |
| ApiAnnouncements.UpdateIdempotent | addons/announcements/src/Http/Controllers/Api/AnnouncementApiController.php:332-362 | Repeating an update changes nothing further, except when `published` is sent with an explicit null date. |
| ApiAnnouncements.NullDatePublishAlternates | addons/announcements/src/Http/Controllers/Api/AnnouncementApiController.php:355-357 | `published` with an explicit null date on an undated row dates it now, and repeating it clears the date again. |
| ApiAnnouncements.Update | addons/announcements/src/Http/Controllers/Api/AnnouncementApiController.php:332-362 | A rejected request changes nothing. An accepted one writes exactly the edited row. |
| ApiAnnouncements.PublishNow | addons/announcements/src/Http/Controllers/Api/AnnouncementApiController.php:421-429 | `publish` sets `published` and keeps the date, or takes now. A row with a past or present date becomes visible. |
| ApiAnnouncements.Unpublished | addons/announcements/src/Http/Controllers/Api/AnnouncementApiController.php:453-458 | `unpublish` sets `draft` and changes nothing else. The row is then neither visible nor scheduled. |
| ApiAnnouncements.PublishIdempotent | addons/announcements/src/Http/Controllers/Api/AnnouncementApiController.php:421-429 | Publishing twice is publishing once. |
| ApiAnnouncements.UnpublishThenPublish | addons/announcements/src/Http/Controllers/Api/AnnouncementApiController.php:421-458 | Unpublishing and then publishing a dated published row restores it. |
| ApiAnnouncements.ToggleIsPublishOrUnpublish | addons/announcements/src/Http/Controllers/Admin/AnnouncementController.php:213-227 | The admin toggle is `unpublish` on a published row and `publish` on any other. |
| ApiAnnouncements.Publish | addons/announcements/src/Http/Controllers/Api/AnnouncementApiController.php:421-429 | The action writes exactly the published row. |
| ApiAnnouncements.Unpublish | addons/announcements/src/Http/Controllers/Api/AnnouncementApiController.php:453-458 | The action writes exactly the unpublished row. |
| FrontController.LikesModeFromSetting | addons/announcements/src/Http/Controllers/Front/AnnouncementController.php:185-210 | `authenticated` and `ip` select their modes. Every other value behaves as `all`. |
| FrontController.ResolveIdentity | addons/announcements/src/Http/Controllers/Front/AnnouncementController.php:197-210 | `authenticated` gives (user, no IP), `ip` gives (no user, IP), and any other mode gives (user if logged in, IP). |
| FrontController.ResolvedIdentityMatching | addons/announcements/src/Http/Controllers/Front/AnnouncementController.php:197-210 | Likes are then matched by user in `authenticated` mode and by IP digest in `ip` mode. |
| FrontController.FindLive | addons/announcements/src/Http/Controllers/Front/AnnouncementController.php:182 | The slug lookup finds the first live row with that slug, or reports that none exists. |
| FrontController.LikeStatus | addons/announcements/src/Http/Controllers/Front/AnnouncementController.php:175-222 | Status 200 belongs exactly to a toggled like. |
| FrontController.ToggleLikeAction | addons/announcements/src/Http/Controllers/Front/AnnouncementController.php:172-223 | Likes disabled gives 403, an unknown slug gives 404, and a guest in `authenticated` mode gives 401, each with no change. Otherwise the toggle runs with the resolved identity, and `liked` and `likes_count` report its result and the counter after it. Only that row's like counter changes; the rest of the row, the other rows, views, categories and the next ids stay as they were. |
| FrontController.Previous | addons/announcements/src/Http/Controllers/Front/AnnouncementController.php:151-154 | `previous` is the published row with the greatest date strictly below the current one, or none. |
| FrontController.Next | addons/announcements/src/Http/Controllers/Front/AnnouncementController.php:156-159 | `next` is the published row with the least date strictly above the current one, or none. |
| FrontController.NeighboursAsWritten | addons/announcements/src/Http/Controllers/Front/AnnouncementController.php:151-159 | As written, the two queries fail exactly when the current row has no date. |
| FrontController.PageNeighbours | addons/announcements/src/Http/Controllers/Front/AnnouncementController.php:151-159 | The corrected neighbours agree with the written ones when the current row is dated. An undated current row has none. |
| FrontController.UndatedPreviewFailsAsWritten | addons/announcements/src/Http/Controllers/Front/AnnouncementController.php:125-159 | An undated draft that an administrator opens makes the written queries fail. |
| FrontController.NeighboursAdjacent | addons/announcements/src/Http/Controllers/Front/AnnouncementController.php:151-159 | No published row lies strictly between the current row and either neighbour. |
| FrontController.Related | addons/announcements/src/Http/Controllers/Front/AnnouncementController.php:141-148 | There are at most 3 published rows, none of them the current one, from its category when it has one, ordered. A row is left out only when the list is full and each row shown may come before it. |
| FrontController.PageOf | addons/announcements/src/Http/Controllers/Front/AnnouncementController.php:141-166 | The page shows the row, at most 3 related rows that exclude it, and its neighbours. |
| FrontController.Gate | addons/announcements/src/Http/Controllers/Front/AnnouncementController.php:117-130 | A row is shown exactly when the module is enabled, a live row has the slug, and it is published or the viewer is an admin. |
| FrontController.Show | addons/announcements/src/Http/Controllers/Front/AnnouncementController.php:115-138 | A refused page changes nothing. A shown page records exactly one `recordView`: the view table and that row's counter change, and likes, categories and the next ids stay as they were. |
| FrontController.Search | addons/announcements/src/Http/Controllers/Front/AnnouncementController.php:71-110 | The result is empty when the module is disabled. Otherwise it holds at most 10 published rows matching a truthy query, of the category when it exists, ordered. A qualifying row is left out only when 10 are shown and each may come before it. |
| LatestComponent.CategoryFilter | addons/announcements/src/View/Components/LatestAnnouncements.php:52-58 | A category slug filters only when a category has it. An unknown slug is ignored. |
| LatestComponent.Latest | addons/announcements/src/View/Components/LatestAnnouncements.php:44-62 | The component lists only published rows that qualify (featured-only, category), ordered and within the limit. A qualifying row is left out only when the limit is reached and each row shown may come before it. |
| Settings.Validate | addons/announcements/src/Http/Controllers/Admin/SettingsController.php:47-65 | A request is accepted exactly when every submitted known key meets its rule (choice lists, integer ranges 1-100 and 1-1440, length limits, `^[a-z0-9-]+$`). The validated data are the submitted known keys and their values. |
| Settings.Normalised | addons/announcements/src/Http/Controllers/Admin/SettingsController.php:68-85 | A checkbox key becomes `'1'` exactly when it is in the request, and `'0'` otherwise. Any other key becomes its value, or `''` for null. |
| Settings.SettingsOf | addons/announcements/src/Http/Controllers/Admin/SettingsController.php:78-85 | The loop's result has exactly the validated keys. |
| Settings.CheckboxesAreOn | addons/announcements/src/Http/Controllers/Admin/SettingsController.php:78-85 | Since only submitted keys are validated, every checkbox written is `'1'`. |
| Settings.WrittenKeysAreKnown | addons/announcements/src/Http/Controllers/Admin/SettingsController.php:78-88 | Only known keys are written, each with the value submitted. |
| Settings.UntickedStaysOnAsWritten | addons/announcements/src/Http/Controllers/Admin/SettingsController.php:78-88 | As written, a checkbox setting stored as `'1'` is still `'1'` after any accepted save. |
| Settings.CorrectedSettingsOf | addons/announcements/src/Http/Controllers/Admin/SettingsController.php:78-85 | The corrected map writes every checkbox, `'1'` exactly when its box was ticked, and every other validated key as `SettingsOf` does. |
| Settings.CorrectedCheckboxesFollowTheForm | addons/announcements/src/Http/Controllers/Admin/SettingsController.php:78-88 | With the correction, a checkbox setting is on after the save exactly when its box was ticked, whatever was stored. |
| Settings.Update | addons/announcements/src/Http/Controllers/Admin/SettingsController.php:41-91 | Without permission the result is 403 and nothing changes. An invalid request changes nothing. Otherwise the normalised settings are written over the stored ones. |
| Sorting.SortBy | addons/announcements/src/Models/Announcement.php:335-343 | `orderBy` returns a sorted permutation of its input. |
| Sorting.TopByScore | addons/announcements/src/Services/AnnouncementStatsService.php:160-165 | `orderByDesc(...)->limit(k)` gives the k highest rows, highest first, from the input. Every row left out scores no more than every listed one. |
| Sorting.Limit | addons/announcements/src/Http/Controllers/Front/AnnouncementController.php:92 | `limit(n)` keeps the first n rows. A row is left out only when n rows were kept. |
| Support.HashOf | addons/announcements/src/Models/Announcement.php:383-384 | The digest is null exactly when the input is null, empty or `'0'`. Otherwise it is the digest of that input. |
| Support.Trim | addons/announcements/src/Http/Requests/AnnouncementRequest.php:124 | `trim` removes exactly the leading and trailing runs of whitespace: the result is a slice of the input with only trim characters around it, and no trim character at either end. It is empty exactly when the input is all whitespace. |
| Support.StrLimit | addons/announcements/src/Models/Announcement.php:403 | `Str::limit(s, n)` is s when it fits, and otherwise its first n characters with trailing whitespace removed, followed by "...". Only whitespace is dropped from the cut, and the kept part ends in a non-whitespace character. |

## Left out

- AdminAnnouncements.UpdatePositions and AdminCategories.UpdatePositions take a map from ids to integer positions. The source validates nothing (addons/announcements/src/Http/Controllers/Admin/AnnouncementController.php:160-164, addons/announcements/src/Http/Controllers/Admin/CategoryController.php:101-105), so a null or non-integer position would reach `update`. The reorder page only sends integer indexes.
- Engagement.FirstLike: `first()` without `orderBy` is modelled as the first match in table order, which is the order the `(announcement_id, ip_hash)` index gives in practice. SQL itself does not guarantee it.
- Rendering is not modelled: views, Blade templates, translations, RSS, HTML sanitising and markdown conversion.
- Pagination is not modelled, nor the Spatie query-builder filters and sorts of the API `index`, `show` and `showBySlug`, nor the admin index filters.
- Deleting an announcement is not modelled: the admin and API `destroy` actions, and `removeCoverImage`. These actions soft-delete a row and remove files, and the model has no file store.
- Announcement content fields are not modelled: content, excerpt, editor mode, meta description and keywords, canonical URL, robots, and the Open Graph image and its accessors.
- AnnouncementRequest.Passes: over-accepts, because it leaves out the rules on the unmodelled fields. These are `editor_mode` required and `markdown` or `html`, excerpt ≤ 500, meta description ≤ 160, meta keywords ≤ 255, canonical URL ≤ 255, robots ≤ 50, and the cover upload an image of the listed types up to 5120 KB (addons/announcements/src/Http/Requests/AnnouncementRequest.php:37-53). A form the source rejects for one of them is accepted by the model.
- ApiAnnouncements.StoreAccepted: over-accepts in the same way. It leaves out `editor_mode` required, excerpt ≤ 500, meta description ≤ 160, meta keywords ≤ 255, robots ≤ 50, and `canonical_url` a URL of at most 255 (addons/announcements/src/Http/Controllers/Api/AnnouncementApiController.php:202-216).
- ApiAnnouncements.UpdateAccepted: over-accepts on the same fields when present (addons/announcements/src/Http/Controllers/Api/AnnouncementApiController.php:337-350).
- Storage is not modelled: uploading, storing and deleting files, and `Storage::url`. A stored cover is its path, and a URL is a function parameter.
- Concurrency is not modelled. Each action runs alone, so the unique index never races the slug loop.
- A date that Carbon cannot parse, and time zones, are not modelled. Dates are minutes, and a year in the statistics is 365 days.
- The search, `Str::slug` and the settings parser are parameters: the LIKE search is the `matches` parameter, `Str::slug` is the `slugify` parameter, and the integer parser of the settings rules is `integerValue`.
- Authentication and permissions are booleans or optional ids: `auth('admin')->check()`, the settings permission and the API token user.
- `Setting::updateSettings` is a map merge. The settings store and its cache are not modelled.
- Stats.PeriodDates: `1y` is taken as 365 days back. `subYear()` follows the calendar, so a period that spans 29 February is one day longer than the model's.
- ApiAnnouncements.Store: an explicit JSON null for `featured`, `show_author` or `position` is treated like an absent key and gets the default. Laravel would pass the null on to the column.
- ApiCategories.Store: an explicit null colour or position is treated as unset.
- ApiCategories.Update: an explicit null colour or position, which the `nullable` rules let through and the NOT NULL columns refuse, cannot be expressed in the update body. The same holds for `ApiAnnouncements.Update` and a null `featured`, `show_author` or `position`.
- String equality is exact: slug lookups (`FrontController.FindLive`, `CategoryModel.FindBySlug`), the unique rules and the slug loops (`Schema.LiveSlugs`, `AnnouncementRequest.LiveSlugsOfOthers`, `AnnouncementRequest.SlugsOfOthers`, `Schema.AllSlugs`, `Schema.CategorySlugs`) and the referer grouping of `Stats.TopReferers` compare code points. MySQL's default `utf8mb4_unicode_ci` collation makes these comparisons, the unique indexes and `GROUP BY referer` ignore case and trailing spaces, so it treats as equal slugs and referers the model keeps apart.
- CategoryModel.OrderedCategories: names compare by code point. A database collation may order accented or mixed-case names differently.
- FrontController.Show: the error page of a refused request is `None`. The response body and the view rendering are not modelled.
- AdminAnnouncements.ExportStats: an empty `period` query value is treated as given. In the source, `request('period', '30d')` returns null for `?period=` (the empty string becomes null), and passing that null to the `string $period` parameter raises a TypeError.

## Findings

| source | as written | input that shows it | evidently intended | confidence | as-written member | corrected member |
|---|---|---|---|---|---|---|
| addons/announcements/src/Services/AnnouncementStatsService.php:181-182 | The likes cell reads `?->count` off an array taken from a collection and falls back to `?? 0`, so every cell is 0. | A day with one like and no view: the row is `<date>,0,0`. | Each row carries that day's likes: `<date>,0,1`. | medium, not executed | Stats.CsvLikesLostAsWritten | Stats.WriteCsv |
| addons/announcements/src/Models/Announcement.php:403 | The referer is cut with `Str::limit($referer, 255)`, which appends "..." to a cut text, so the cell can hold 258 characters. The column `addons/announcements/database/migrations/2024_12_01_000003_create_announcement_views_table.php:27` is VARCHAR(255). | A referer of 256 characters. | Store at most 255 characters. | high, not executed | Engagement.RefererOverflowsAsWritten | Engagement.RefererColumnValue |
| addons/announcements/src/Http/Requests/AnnouncementRequest.php:181-188 | Form `update` copies an empty `published_at` into the data, and fills in now only for a row that had no date. Saving the edit form with the date field emptied therefore clears a stored date: a published row stays `published` without a date and disappears from the public pages. | A published row dated last week, saved with an empty date field. | An empty field keeps the stored date, as an empty slug keeps the stored slug. | medium, not executed | AnnouncementRequest.ClearedDateHidesAsWritten | AnnouncementRequest.UpdateDates |
| addons/announcements/src/Models/Announcement.php:185-197 | `getCoverImageDisplayUrlAttribute` reads `$this->cover_image_url`, which the `getCoverImageUrlAttribute` accessor (lines 287-295) intercepts. The manual URL column is therefore never displayed. | A row with a manual cover URL and no uploaded file: the display URL is null. | Show the manual URL first, then the uploaded file. | high, not executed | AnnouncementModel.CoverImageManualUrlIgnored | AnnouncementModel.CoverImageDisplayUrl |
| addons/announcements/src/Http/Controllers/Front/AnnouncementController.php:151-159 | `where('published_at', '<', null)` raises "Illegal operator and value combination" when the current row has no date. That happens after the view has been recorded. | An administrator opens an undated draft. | An undated row has no previous or next. | high, not executed | FrontController.UndatedPreviewFailsAsWritten | FrontController.PageNeighbours |
| addons/announcements/src/Http/Controllers/Admin/CategoryController.php:70-79 | `update` writes the validated data as it is. A cleared slug, colour or position validates as null (addons/announcements/src/Http/Requests/CategoryRequest.php:34-44), and the NOT NULL columns (addons/announcements/database/migrations/2024_12_01_000001_create_announcement_categories_table.php:24-28) reject it. | Editing a category with the slug field emptied, or the position field emptied. The colour field is `type=color`, so an emptied colour needs a hand-crafted request. | Keep the stored value when a field is emptied, as `store` fills an empty slug. | medium, not executed | AdminCategories.ClearedSlugFailsAsWritten | AdminCategories.ApplyUpdate |
| addons/announcements/src/Http/Controllers/Admin/CategoryController.php:44-57 | `store` hands the validated data to `create`. An emptied colour or position is a null that replaces the model's `$attributes` default (addons/announcements/src/Models/AnnouncementCategory.php:48-52), and the NOT NULL column rejects the insert. | Creating a category with the position field emptied. The colour field is `type=color`, so an emptied colour needs a hand-crafted request; only the position can be emptied from the form. | Take the column default, as the model's `$attributes` intend. | medium, not executed | AdminCategories.ClearedPositionFailsOnStoreAsWritten | AdminCategories.Store |
| addons/announcements/src/Http/Controllers/Admin/SettingsController.php:78-85 | Only submitted keys are validated, and a submitted checkbox is written `'1'`, so the `'0'` branch is never taken. An unticked box is either not sent, and so not written, or sent, and so written `'1'`. | An administrator unticks "enabled" and saves: the module stays enabled. | Write `'0'` for an unticked box. | high, not executed | Settings.UntickedStaysOnAsWritten | Settings.CorrectedSettingsOf |
| addons/announcements/src/Http/Requests/AnnouncementRequest.php:92 | `store` and `update` (line 168) fill `position` with `input('position', 0)`. The form always sends the field, so an emptied one is a present null, and the default is not used. The NOT NULL column (addons/announcements/database/migrations/2024_12_01_000002_create_announcements_table.php:32) rejects the null, and the request fails. | Creating or editing an announcement with the position field emptied. | Take the column default 0. | medium, not executed | AnnouncementRequest.EmptiedPositionFailsAsWritten | AnnouncementRequest.StoreRow |
| addons/announcements/src/Http/Requests/AnnouncementRequest.php:35 | The edit form's unique rule adds `whereNull('deleted_at')`, while the unique index `addons/announcements/database/migrations/2024_12_01_000002_create_announcements_table.php:24` covers soft-deleted rows too. | Editing a row to take the slug of a soft-deleted row: validation passes and the save fails. | Check the slug against every other row, as the index does. | medium, not executed | AnnouncementRequest.TrashedSlugPassesAsWritten | AnnouncementRequest.Update |

An observation that is not counted as a finding: through the API, `published` sent with an explicit null date on an undated row dates it now, and sending the same request again clears the date (`ApiAnnouncements.NullDatePublishAlternates`). The model keeps that behaviour as written.

=== FILE: admin_announcements.dfy ===
/** The admin `AnnouncementController` actions with rules of their own: the publish toggle,
    duplication, drag-and-drop positions and the name of the statistics export. Store and
    update go through the form request. */
module AdminAnnouncements {
  import opened Support
  import opened Schema
  import opened Slugs
  import opened AnnouncementModel
  import Stats

  // ---------------------------------------------------------------- publish toggle

  /** `togglePublish`: a published row goes back to draft with its date kept; any other row
      becomes published, keeping its date or taking `now`. A row given a future date comes
      out scheduled rather than visible. */
  function Toggled(a: Announcement, now: int): (b: Announcement)
    ensures b == a.(status := b.status, publishedAt := b.publishedAt)
    ensures a.status == Published ==> b.status == Draft && b.publishedAt == a.publishedAt
    ensures a.status != Published ==> b.status == Published && b.publishedAt.Some?
    ensures a.status != Published && a.publishedAt.Some? ==> b.publishedAt == a.publishedAt
    ensures a.status != Published && a.publishedAt.None? ==> IsPublished(b, now)
    ensures a.status != Published && a.publishedAt.Some? && a.publishedAt.value > now ==>
              IsScheduled(b, now) && !IsPublished(b, now)
  {
    if a.status == Published then a.(status := Draft)
    else a.(status := Published, publishedAt := if a.publishedAt.Some? then a.publishedAt else Some(now))
  }

  /** Toggling twice restores a dated row that was published or a draft. */
  lemma ToggleTwice(a: Announcement, now: int)
    requires (a.status == Published || a.status == Draft) && a.publishedAt.Some?
    ensures Toggled(Toggled(a, now), now) == a
  {
  }

  /** The action on the row `k` the route resolved (live rows only). */
  method TogglePublish(db: Database, k: nat, now: int)
    requires db.Valid() && k < |db.announcements| && !db.announcements[k].deleted
    modifies db
    ensures db.Valid()
    ensures db.announcements == old(db.announcements)[k := Toggled(old(db.announcements[k]), now)]
    ensures db.categories == old(db.categories) && db.views == old(db.views) && db.likes == old(db.likes)
    ensures db.nextAnnouncementId == old(db.nextAnnouncementId) && db.nextCategoryId == old(db.nextCategoryId)
  {
    var a := db.announcements[k];
    if a.status == Published {
      Save(db, k, a.(status := Draft));
    } else {
      Save(db, k, a.(status := Published, publishedAt := if a.publishedAt.Some? then a.publishedAt else Some(now)));
    }
  }

  // ---------------------------------------------------------------- duplicate

  const CopySuffix: string := " (Copy)"

  /** `replicate()` with the fields `duplicate` overrides: the title marked as a copy, a
      draft without a date, zero counters and the current admin as author. Everything else,
      category, flags, position and covers included, is copied. A copy is neither visible
      nor scheduled at any time. */
  function CopyOf(a: Announcement, adminId: Option<int>): (b: Announcement)
    ensures b.title == a.title + CopySuffix
    ensures b.status == Draft && b.publishedAt.None? && b.viewsCount == 0 && b.likesCount == 0
    ensures b.authorId == adminId
    ensures b.categoryId == a.categoryId && b.featured == a.featured && b.position == a.position
    ensures b.showAuthor == a.showAuthor && b.coverImage == a.coverImage && b.coverImageUrl == a.coverImageUrl
    ensures b.metaTitle == a.metaTitle && b.deleted == a.deleted
    ensures forall now :: !IsPublished(b, now) && !IsScheduled(b, now)
  {
    a.(title := a.title + CopySuffix, status := Draft, viewsCount := 0, likesCount := 0,
       publishedAt := None, authorId := adminId)
  }

  /** `duplicate` on the live row `k`: the copy takes `Str::slug` of its new title, which the
      `creating` hook then makes unique; the original row is left as it was. */
  method Duplicate(db: Database, k: nat, adminId: Option<int>, slugify: string -> string)
    returns (copy: Announcement)
    requires db.Valid() && k < |db.announcements| && !db.announcements[k].deleted
    modifies db
    ensures db.Valid()
    ensures db.announcements == old(db.announcements) + [copy]
    ensures copy == CopyOf(old(db.announcements[k]), adminId).(id := old(db.nextAnnouncementId), slug := copy.slug)
    ensures copy.slug !in AllSlugs(old(db.announcements))
    ensures exists n: nat :: copy.slug == Candidate(slugify(old(db.announcements[k].title) + CopySuffix), n)
    ensures Keyed(old(db.announcements)) ==> Keyed(db.announcements)
    ensures db.nextAnnouncementId == old(db.nextAnnouncementId) + 1
    ensures db.categories == old(db.categories) && db.views == old(db.views) && db.likes == old(db.likes)
    ensures db.nextCategoryId == old(db.nextCategoryId)
  {
    var draft := CopyOf(db.announcements[k], adminId);
    draft := draft.(slug := slugify(draft.title));
    assert BaseSlug(draft, slugify) == slugify(draft.title);
    copy := Create(db, draft, slugify);
  }

  // ---------------------------------------------------------------- positions

  /** `Announcement::where('id', $id)->update(['position' => $p])`: the default scope leaves
      soft-deleted rows out. */
  function Reposition(rows: seq<Announcement>, id: int, p: int): (r: seq<Announcement>)
    ensures |r| == |rows|
  {
    seq(|rows|, i requires 0 <= i < |rows| =>
      if rows[i].id == id && !rows[i].deleted then rows[i].(position := p) else rows[i])
  }

  /** The rows after the positions of the ids in `done` have been written. */
  function PositionsApplied(rows: seq<Announcement>, positions: map<int, int>, done: set<int>)
    : (r: seq<Announcement>)
    ensures |r| == |rows|
    ensures forall i :: 0 <= i < |rows| ==> r[i] == rows[i].(position := r[i].position)
    ensures forall i :: 0 <= i < |rows| && rows[i].id in done && rows[i].id in positions && !rows[i].deleted ==>
              r[i].position == positions[rows[i].id]
    ensures forall i :: 0 <= i < |rows| && (rows[i].id !in done || rows[i].id !in positions || rows[i].deleted) ==>
              r[i] == rows[i]
  {
    seq(|rows|, i requires 0 <= i < |rows| =>
      if rows[i].id in done && rows[i].id in positions && !rows[i].deleted
      then rows[i].(position := positions[rows[i].id]) else rows[i])
  }

  lemma RepositionStep(rows: seq<Announcement>, positions: map<int, int>, done: set<int>, id: int)
    requires id in positions
    ensures Reposition(PositionsApplied(rows, positions, done), id, positions[id])
            == PositionsApplied(rows, positions, done + {id})
  {
  }

  lemma RepositionKeepsIds(rows: seq<Announcement>, id: int, p: int, bound: int)
    requires forall a | a in rows :: a.id < bound
    ensures forall a | a in Reposition(rows, id, p) :: a.id < bound
  {
    var r := Reposition(rows, id, p);
    forall a | a in r ensures a.id < bound {
      var i :| 0 <= i < |r| && r[i] == a;
      assert a.id == rows[i].id;
    }
  }

  /** `updatePositions`: each listed id gets exactly its position; unlisted and soft-deleted
      rows keep theirs, and no other column changes. */
  method UpdatePositions(db: Database, positions: map<int, int>)
    requires db.Valid()
    modifies db
    ensures db.Valid()
    ensures db.announcements == PositionsApplied(old(db.announcements), positions, positions.Keys)
    ensures db.categories == old(db.categories) && db.views == old(db.views) && db.likes == old(db.likes)
    ensures db.nextAnnouncementId == old(db.nextAnnouncementId) && db.nextCategoryId == old(db.nextCategoryId)
  {
    var remaining := positions.Keys;
    while remaining != {}
      invariant remaining <= positions.Keys
      invariant db.Valid()
      invariant db.announcements == PositionsApplied(old(db.announcements), positions, positions.Keys - remaining)
      invariant db.categories == old(db.categories) && db.views == old(db.views) && db.likes == old(db.likes)
      invariant db.nextAnnouncementId == old(db.nextAnnouncementId) && db.nextCategoryId == old(db.nextCategoryId)
      decreases remaining
    {
      ghost var some := NonEmptyHasMember(remaining);
      var id :| id in remaining;
      RepositionStep(old(db.announcements), positions, positions.Keys - remaining, id);
      RepositionKeepsIds(db.announcements, id, positions[id], db.nextAnnouncementId);
      db.announcements := Reposition(db.announcements, id, positions[id]);
      remaining := remaining - {id};
      assert positions.Keys - remaining == (positions.Keys - (remaining + {id})) + {id};
    }
  }

  // ---------------------------------------------------------------- statistics export

  const DefaultPeriod: string := "30d"

  /** The `Content-Disposition` file name: `stats-<slug>-<period>.csv`. The slug and the
      period can be read back from it. */
  function ExportFilename(slug: string, period: string): (r: string)
    ensures |r| == |slug| + |period| + 11
    ensures r[..6] == "stats-" && r[|r| - 4..] == ".csv"
    ensures r[6..6 + |slug|] == slug && r[6 + |slug|] == '-'
    ensures r[7 + |slug|..|r| - 4] == period
  {
    "stats-" + slug + "-" + period + ".csv"
  }

  /** `exportStats`: the `period` query parameter, `30d` when absent, picks both the series of
      the CSV and the period in the file name. */
  method ExportStats(a: Announcement, views: seq<ViewRow>, likes: seq<LikeRow>, period: Option<string>, now: int,
                     formatDay: int -> string) returns (filename: string, csv: string)
    ensures period.None? ==> filename == ExportFilename(a.slug, DefaultPeriod)
    ensures period.Some? ==> filename == ExportFilename(a.slug, period.value)
    ensures csv == Stats.Csv(Stats.StatsOf(a, views, likes, OrDefault(period, DefaultPeriod), now), formatDay)
  {
    var p := OrDefault(period, DefaultPeriod);
    csv := Stats.ExportToCsv(a, views, likes, p, now, formatDay);
    filename := ExportFilename(a.slug, p);
  }
}

=== FILE: announcement_model.dfy ===
/** The announcement model's own rules: the publication predicates and the published scope,
    the three configurable orderings, the display fallbacks (SEO title, cover image, author
    name, status badge) and the `creating` hook that makes slugs unique. */
module AnnouncementModel {
  import opened Support
  import opened Schema
  import opened Slugs
  import Sorting

  // ---------------------------------------------------------------- publication predicates

  /** `isPublished()`: status published, a date set, and that date not in the future. */
  predicate IsPublished(a: Announcement, now: int)
  {
    a.status == Published && a.publishedAt.Some? && a.publishedAt.value <= now
  }

  /** `isScheduled()`: status scheduled, or published with a date still in the future. The
      two predicates never hold together. */
  function IsScheduled(a: Announcement, now: int): (r: bool)
    ensures r ==> !IsPublished(a, now)
    ensures a.status == Scheduled ==> r
  {
    a.status == Scheduled || (a.status == Published && a.publishedAt.Some? && a.publishedAt.value > now)
  }

  /** Every announcement is exactly one of: visible now, scheduled, or neither, and "neither"
      means draft, archived, or published without a date. */
  lemma PublicationClassification(a: Announcement, now: int)
    ensures !IsPublished(a, now) && !IsScheduled(a, now) <==>
              a.status == Draft || a.status == Archived || (a.status == Published && a.publishedAt.None?)
  {
  }

  /** `scopePublished` over the default (non-trashed) query: the rows, in table order, that are
      not soft-deleted and satisfy `isPublished`. */
  function PublishedScope(rows: seq<Announcement>, now: int): (r: seq<Announcement>)
    ensures forall a :: a in r <==> a in rows && !a.deleted && IsPublished(a, now)
    ensures |r| <= |rows|
    decreases |rows|
  {
    if rows == [] then []
    else
      var rest := PublishedScope(rows[1..], now);
      assert forall a :: a in rows <==> a == rows[0] || a in rows[1..];
      if !rows[0].deleted && IsPublished(rows[0], now) then [rows[0]] + rest else rest
  }

  /** `where('category_id', id)`: the rows of one category, in table order. */
  function InCategory(rows: seq<Announcement>, categoryId: int): (r: seq<Announcement>)
    ensures forall a :: a in r <==> a in rows && a.categoryId == Some(categoryId)
    ensures |r| <= |rows|
    decreases |rows|
  {
    if rows == [] then []
    else
      var rest := InCategory(rows[1..], categoryId);
      assert forall a :: a in rows <==> a == rows[0] || a in rows[1..];
      if rows[0].categoryId == Some(categoryId) then [rows[0]] + rest else rest
  }

  /** `where(...)` with an arbitrary row condition, in table order. */
  function Where(rows: seq<Announcement>, keep: Announcement -> bool): (r: seq<Announcement>)
    ensures forall a :: a in r <==> a in rows && keep(a)
    ensures |r| <= |rows|
    decreases |rows|
  {
    if rows == [] then []
    else
      var rest := Where(rows[1..], keep);
      assert forall a :: a in rows <==> a == rows[0] || a in rows[1..];
      if keep(rows[0]) then [rows[0]] + rest else rest
  }

  // ---------------------------------------------------------------- orderings

  /** The three values of `announcements_default_order`. */
  datatype Order = FeaturedPositionDate | PositionDate | ByDate

  /** The `switch` of `scopeOrdered`: any value other than the two named orders falls to the
      `date` / `default` branch. */
  function OrderFromSetting(s: string): (o: Order)
    ensures o == FeaturedPositionDate <==> s == "featured_position_date"
    ensures o == PositionDate <==> s == "position_date"
  {
    if s == "featured_position_date" then FeaturedPositionDate
    else if s == "position_date" then PositionDate
    else ByDate
  }

  /** `orderBy('published_at', 'desc')` may put `x` before `y`: later dates first, and null
      dates last (MySQL sorts NULL lowest). */
  predicate DateFirst(x: Option<int>, y: Option<int>)
  {
    match (x, y)
    case (Some(p), Some(q)) => p >= q
    case (Some(_), None) => true
    case (None, Some(_)) => false
    case (None, None) => true
  }

  predicate PositionThenDate(a: Announcement, b: Announcement)
  {
    a.position < b.position || (a.position == b.position && DateFirst(a.publishedAt, b.publishedAt))
  }

  /** `a` may come before `b` under the given order (ties allowed either way). */
  predicate Precedes(order: Order, a: Announcement, b: Announcement)
  {
    match order
    case FeaturedPositionDate =>
      (a.featured && !b.featured) || (a.featured == b.featured && PositionThenDate(a, b))
    case PositionDate => PositionThenDate(a, b)
    case ByDate => DateFirst(a.publishedAt, b.publishedAt)
  }

  lemma PrecedesTotal(order: Order, a: Announcement, b: Announcement)
    ensures Precedes(order, a, b) || Precedes(order, b, a)
  {
  }

  lemma PrecedesTransitive(order: Order, a: Announcement, b: Announcement, c: Announcement)
    requires Precedes(order, a, b) && Precedes(order, b, c)
    ensures Precedes(order, a, c)
  {
  }

  /** The chosen order as a comparison. */
  function OrderLe(order: Order): (Announcement, Announcement) -> bool
  {
    (a: Announcement, b: Announcement) => Precedes(order, a, b)
  }

  predicate InOrder(order: Order, xs: seq<Announcement>)
  {
    forall i, j :: 0 <= i < j < |xs| ==> Precedes(order, xs[i], xs[j])
  }

  /** `scopeOrdered`: the rows sorted by the chosen order, as a permutation of the input. */
  function Ordered(order: Order, xs: seq<Announcement>): (r: seq<Announcement>)
    ensures InOrder(order, r)
    ensures multiset(r) == multiset(xs)
    ensures |r| == |xs|
  {
    var le := OrderLe(order);
    assert Sorting.IsTotalPreorder(le) by {
      forall a, b ensures le(a, b) || le(b, a) { PrecedesTotal(order, a, b); }
      forall a, b, c | le(a, b) && le(b, c) ensures le(a, c) { PrecedesTransitive(order, a, b, c); }
    }
    Sorting.SortBy(xs, le)
  }

  /** `published()->where(keep)->ordered(order)->limit(n)`: every row returned is live,
      published and kept; the rows follow the order; at most `n` come back (a negative `n`
      sets no limit); and a qualifying row is missing only when the result is full and every
      row shown may come before it. */
  function PublishedQuery(rows: seq<Announcement>, now: int, keep: Announcement -> bool, order: Order, n: int)
    : (r: seq<Announcement>)
    ensures forall a :: a in r ==> a in rows && !a.deleted && IsPublished(a, now) && keep(a)
    ensures InOrder(order, r)
    ensures n >= 0 ==> |r| <= n
    ensures forall a | a in rows && a !in r :: !a.deleted && IsPublished(a, now) && keep(a) ==> |r| == n
    ensures forall a | a in rows && a !in r && !a.deleted && IsPublished(a, now) && keep(a) ::
              forall i :: 0 <= i < |r| ==> Precedes(order, r[i], a)
  {
    var pool := Where(PublishedScope(rows, now), keep);
    var sorted := Ordered(order, pool);
    assert forall a :: a in sorted <==> a in pool by {
      forall a ensures a in sorted <==> a in pool {
        assert a in sorted <==> a in multiset(sorted);
        assert a in pool <==> a in multiset(pool);
      }
    }
    var r := Sorting.Limit(sorted, n);
    LimitKeepsOrder(order, sorted, n);
    assert forall a :: a in r ==> a in sorted;
    r
  }

  /** A prefix of ordered rows is ordered, and each row past it may come after every row in it. */
  lemma LimitKeepsOrder(order: Order, sorted: seq<Announcement>, n: int)
    requires InOrder(order, sorted)
    ensures InOrder(order, Sorting.Limit(sorted, n))
    ensures var r := Sorting.Limit(sorted, n);
            forall a | a in sorted && a !in r :: forall i :: 0 <= i < |r| ==> Precedes(order, r[i], a)
  {
    var r := Sorting.Limit(sorted, n);
    forall i, j | 0 <= i < j < |r| ensures Precedes(order, r[i], r[j]) {
      assert r[i] == sorted[i] && r[j] == sorted[j];
    }
    forall a | a in sorted && a !in r
      ensures forall i :: 0 <= i < |r| ==> Precedes(order, r[i], a)
    {
      var p :| 0 <= p < |sorted| && sorted[p] == a;
      assert p >= |r|;
      forall i | 0 <= i < |r| ensures Precedes(order, r[i], a) {
        assert r[i] == sorted[i];
      }
    }
  }

  // ---------------------------------------------------------------- SEO title

  const DefaultSeoTemplate: string := "{title} - {site_name}"
  const TitleToken: string := "{title}"
  const SiteNameToken: string := "{site_name}"

  /** PHP `str_replace` for one search string: every non-overlapping occurrence, scanned
      left to right, is replaced. */
  function ReplaceAll(s: string, from: string, to: string): string
    requires from != []
    decreases |s|
  {
    if s == [] then []
    else if |from| <= |s| && s[..|from|] == from then to + ReplaceAll(s[|from|..], from, to)
    else [s[0]] + ReplaceAll(s[1..], from, to)
  }

  /** A prefix holding no copy of the search string's first character is left as it is. */
  lemma {:induction false} ReplaceSkipsPrefix(a: string, b: string, from: string, to: string)
    requires from != [] && from[0] !in a
    ensures ReplaceAll(a + b, from, to) == a + ReplaceAll(b, from, to)
    decreases |a|
  {
    if a != [] {
      assert (a + b)[0] == a[0] && a[0] != from[0];
      assert |from| <= |a + b| ==> (a + b)[..|from|][0] != from[0];
      assert (a + b)[1..] == a[1..] + b;
      assert from[0] !in a[1..];
      ReplaceSkipsPrefix(a[1..], b, from, to);
      assert ReplaceAll(a + b, from, to) == [a[0]] + ReplaceAll(a[1..] + b, from, to);
      assert [a[0]] + (a[1..] + ReplaceAll(b, from, to)) == ([a[0]] + a[1..]) + ReplaceAll(b, from, to);
      assert [a[0]] + a[1..] == a;
    } else {
      assert a + b == b;
    }
  }

  lemma ReplaceAtFront(b: string, from: string, to: string)
    requires from != []
    ensures ReplaceAll(from + b, from, to) == to + ReplaceAll(b, from, to)
  {
    assert (from + b)[..|from|] == from;
    assert (from + b)[|from|..] == b;
  }

  /** `getSeoTitleAttribute`: a truthy `meta_title` wins; otherwise `{title}` and then
      `{site_name}` are replaced in the template, in that order. */
  function SeoTitle(a: Announcement, template: string, siteName: string): (r: string)
    ensures Filled(a.metaTitle) ==> r == a.metaTitle.value
  {
    if Filled(a.metaTitle) then a.metaTitle.value
    else ReplaceAll(ReplaceAll(template, TitleToken, a.title), SiteNameToken, siteName)
  }

  /** With the default template the title reads "<title> - <site name>" (for titles without a
      brace, which would otherwise be open to the second replacement). */
  lemma {:induction false} SeoTitleDefault(a: Announcement, siteName: string)
    requires !Filled(a.metaTitle) && '{' !in a.title
    ensures SeoTitle(a, DefaultSeoTemplate, siteName) == a.title + " - " + siteName
  {
    TitlePass(a.title);
    SiteNamePass(a.title, siteName);
  }

  lemma {:induction false} TitlePass(t: string)
    ensures ReplaceAll(DefaultSeoTemplate, TitleToken, t) == t + (" - " + SiteNameToken)
  {
    assert DefaultSeoTemplate == TitleToken + (" - " + SiteNameToken);
    ReplaceAtFront(" - " + SiteNameToken, TitleToken, t);
    ReplaceSkipsPrefix(" - ", SiteNameToken, TitleToken, t);
    SiteNameTokenUntouched(t);
  }

  /** Where the text does not start with the search string, its first character is kept. */
  lemma ReplaceKeepsHead(s: string, from: string, to: string)
    requires from != [] && s != [] && !(|from| <= |s| && s[..|from|] == from)
    ensures ReplaceAll(s, from, to) == [s[0]] + ReplaceAll(s[1..], from, to)
  {
  }

  lemma {:induction false} SiteNameTokenUntouched(t: string)
    ensures ReplaceAll(SiteNameToken, TitleToken, t) == SiteNameToken
  {
    TokensDiffer();
    TokenTailHasNoBrace();
    NoMatchUntouched(SiteNameToken, TitleToken, t);
  }

  /** A text that does not start with the search string and holds no other copy of its
      first character is left as it is. */
  lemma NoMatchUntouched(s: string, from: string, to: string)
    requires from != [] && s != [] && !(|from| <= |s| && s[..|from|] == from) && from[0] !in s[1..]
    ensures ReplaceAll(s, from, to) == s
  {
    ReplaceKeepsHead(s, from, to);
    ReplaceSkipsPrefix(s[1..], [], from, to);
    assert s[1..] + [] == s[1..];
    assert [s[0]] + s[1..] == s;
  }

  /** `{site_name}` does not start with `{title}`. */
  lemma TokensDiffer()
    ensures !(|TitleToken| <= |SiteNameToken| && SiteNameToken[..|TitleToken|] == TitleToken)
  {
    assert SiteNameToken[1] == 's' && TitleToken[1] == 't';
  }

  /** After its opening brace, `{site_name}` holds no other brace. */
  lemma TokenTailHasNoBrace()
    ensures TitleToken[0] !in SiteNameToken[1..]
  {
    assert SiteNameToken[1..] == "site_name}";
  }

  lemma {:induction false} SiteNamePass(t: string, siteName: string)
    requires '{' !in t
    ensures ReplaceAll(t + (" - " + SiteNameToken), SiteNameToken, siteName) == t + " - " + siteName
  {
    assert t + (" - " + SiteNameToken) == (t + " - ") + (SiteNameToken + []);
    ReplaceSkipsPrefix(t + " - ", SiteNameToken + [], SiteNameToken, siteName);
    ReplaceAtFront([], SiteNameToken, siteName);
    assert siteName + [] == siteName;
  }

  // ---------------------------------------------------------------- cover image

  /** `getCoverImageUrlAttribute`: the storage URL of the uploaded file, or null. */
  function CoverImageUrlAccessor(a: Announcement, storageUrl: string -> string): (r: Option<string>)
    ensures r.Some? <==> Filled(a.coverImage)
  {
    if Filled(a.coverImage) then Some(storageUrl(a.coverImage.value)) else None
  }

  /** The display URL as intended: a non-empty manual URL first, then the uploaded file. */
  function CoverImageDisplayUrl(a: Announcement, storageUrl: string -> string): (r: Option<string>)
    ensures Filled(a.coverImageUrl) ==> r == a.coverImageUrl
    ensures !Filled(a.coverImageUrl) && Filled(a.coverImage) ==> r == Some(storageUrl(a.coverImage.value))
    ensures r.None? <==> !Filled(a.coverImageUrl) && !Filled(a.coverImage)
  {
    if Filled(a.coverImageUrl) then a.coverImageUrl
    else if Filled(a.coverImage) then Some(storageUrl(a.coverImage.value))
    else None
  }

  /** `getCoverImageDisplayUrlAttribute` as written: reading `cover_image_url` inside it goes
      through `getCoverImageUrlAttribute`, so the stored column is replaced by the accessor. */
  function CoverImageDisplayUrlAsWritten(a: Announcement, storageUrl: string -> string): Option<string>
  {
    CoverImageDisplayUrl(a.(coverImageUrl := CoverImageUrlAccessor(a, storageUrl)), storageUrl)
  }

  /** As written, the manual URL never reaches the page: the result depends on the uploaded
      file alone, and an announcement with only a manual URL shows no cover. */
  lemma CoverImageManualUrlIgnored(a: Announcement, storageUrl: string -> string)
    ensures CoverImageDisplayUrlAsWritten(a, storageUrl) == CoverImageUrlAccessor(a, storageUrl)
    ensures Filled(a.coverImageUrl) && !Filled(a.coverImage) ==>
              CoverImageDisplayUrlAsWritten(a, storageUrl).None? && CoverImageDisplayUrl(a, storageUrl) == a.coverImageUrl
  {
  }

  // ---------------------------------------------------------------- author, badge

  /** `getAuthorNameAttribute`: the author's username only when both the site setting and
      the announcement allow it and an author with a username exists; otherwise the anonymous
      name. `authorUsername` is `$this->author?->username`. */
  function AuthorName(a: Announcement, showAuthorSetting: bool, authorUsername: Option<string>,
                      anonymousName: string): (r: string)
    ensures r == anonymousName || (showAuthorSetting && a.showAuthor && authorUsername == Some(r))
    ensures showAuthorSetting && a.showAuthor && authorUsername.Some? ==> r == authorUsername.value
  {
    if !showAuthorSetting || !a.showAuthor then anonymousName
    else if authorUsername.Some? then authorUsername.value
    else anonymousName
  }

  const GreenBadge: string := "bg-green-100 text-green-800 dark:bg-green-900 dark:text-green-300"
  const GreyBadge: string := "bg-gray-100 text-gray-800 dark:bg-gray-900 dark:text-gray-300"
  const BlueBadge: string := "bg-blue-100 text-blue-800 dark:bg-blue-900 dark:text-blue-300"
  const YellowBadge: string := "bg-yellow-100 text-yellow-800 dark:bg-yellow-900 dark:text-yellow-300"

  /** `getStatusBadgeClassAttribute`: a distinct colour per status, grey for drafts (the
      `default` arm of the `match` is unreachable for the four stored statuses). */
  function StatusBadgeClass(s: Status): (r: string)
    ensures r == GreyBadge <==> s == Draft
  {
    match s
    case Published => GreenBadge
    case Draft => GreyBadge
    case Scheduled => BlueBadge
    case Archived => YellowBadge
  }

  lemma StatusBadgesDistinct(s: Status, t: Status)
    requires s != t
    ensures StatusBadgeClass(s) != StatusBadgeClass(t)
  {
  }

  // ---------------------------------------------------------------- creating hook

  /** The slug the hook starts from: the given one, or `Str::slug(title)` when it is empty. */
  function BaseSlug(a: Announcement, slugify: string -> string): string
  {
    if Filled(Some(a.slug)) then a.slug else slugify(a.title)
  }

  /** The table's keys: `id` is the primary key and `slug` carries a unique index, which
      covers soft-deleted rows too. */
  predicate Keyed(rows: seq<Announcement>)
  {
    forall i, j :: 0 <= i < j < |rows| ==> rows[i].id != rows[j].id && rows[i].slug != rows[j].slug
  }

  /** Appending a row with a new id and an unused slug keeps both keys. */
  lemma AppendKeepsKeys(rows: seq<Announcement>, a: Announcement)
    requires Keyed(rows)
    requires forall b | b in rows :: b.id < a.id
    requires a.slug !in AllSlugs(rows)
    ensures Keyed(rows + [a])
  {
    forall i, j | 0 <= i < j < |rows + [a]|
      ensures (rows + [a])[i].id != (rows + [a])[j].id && (rows + [a])[i].slug != (rows + [a])[j].slug
    {
      if j == |rows| {
        assert rows[i] in rows;
      }
    }
  }

  /** What the `creating` hook's loop settles on for `base`: the first of `base`, `base-1`,
      `base-2`, ... that no row holds, soft-deleted ones included. */
  ghost predicate HookSlug(rows: seq<Announcement>, base: string, s: string)
  {
    exists n: nat :: s == Candidate(base, n) && forall k :: 0 <= k < n ==> Candidate(base, k) in AllSlugs(rows)
  }

  /** `Announcement::create` with the `creating` hook: the slug is made unique against every
      stored announcement, soft-deleted ones included, by the `-1`, `-2`, ... loop; the row is
      appended with the next id. */
  method Create(db: Database, a: Announcement, slugify: string -> string) returns (created: Announcement)
    requires db.Valid()
    modifies db
    ensures db.Valid()
    ensures created == a.(id := old(db.nextAnnouncementId), slug := created.slug)
    ensures db.announcements == old(db.announcements) + [created]
    ensures created.slug !in AllSlugs(old(db.announcements))
    ensures HookSlug(old(db.announcements), BaseSlug(a, slugify), created.slug)
    ensures Keyed(old(db.announcements)) ==> Keyed(db.announcements)
    ensures db.nextAnnouncementId == old(db.nextAnnouncementId) + 1
    ensures db.categories == old(db.categories) && db.views == old(db.views) && db.likes == old(db.likes)
    ensures db.nextCategoryId == old(db.nextCategoryId)
  {
    var slug, attempts := UniqueSlug(AllSlugs(db.announcements), BaseSlug(a, slugify));
    created := a.(id := db.nextAnnouncementId, slug := slug);
    if Keyed(db.announcements) {
      AppendKeepsKeys(db.announcements, created);
    }
    db.announcements := db.announcements + [created];
    db.nextAnnouncementId := db.nextAnnouncementId + 1;
  }

  /** `$announcement->save()` on the stored row `k`: the row is rewritten in place under the
      same id and nothing else changes. */
  method Save(db: Database, k: nat, row: Announcement)
    requires db.Valid() && k < |db.announcements| && row.id == db.announcements[k].id
    modifies db
    ensures db.Valid()
    ensures db.announcements == old(db.announcements)[k := row]
    ensures db.categories == old(db.categories) && db.views == old(db.views) && db.likes == old(db.likes)
    ensures db.nextAnnouncementId == old(db.nextAnnouncementId) && db.nextCategoryId == old(db.nextCategoryId)
  {
    db.announcements := db.announcements[k := row];
    assert forall a | a in db.announcements :: a == row || a in old(db.announcements);
  }
}

=== FILE: announcement_request.dfy ===
/** `AnnouncementRequest`, the form request behind the admin create and edit screens: the
    checkbox normalisation of `prepareForValidation`, the validation rules, and the `store` and
    `update` methods that build the row (slug fill, automatic scheduling, `published_at`
    default, cover image handling) and write it. Values arrive after the framework's
    middleware, so an emptied field is already `None`; the form submits every field. */
module AnnouncementRequest {
  import opened Support
  import opened Schema
  import opened Slugs
  import opened AnnouncementModel
  import opened CategoryRequest

  /** PHP's loose `$value == 'true'`: a string must be exactly `'true'`, a boolean compares
      with the truthiness of `'true'` (so `true` passes), and null never passes. */
  predicate LooseTrue(raw: RawFlag)
  {
    match raw
    case Text(t) => t == "true"
    case Flag(b) => b
    case Absent => false
  }

  /** `prepareForValidation`: `featured` and `show_author` become `'1'` exactly when the raw
      value is loosely equal to `'true'`, and `'0'` in every other case, absent included. */
  function Checkbox(raw: RawFlag): (r: string)
    ensures r == "1" <==> raw == Text("true") || raw == Flag(true)
    ensures r == "1" || r == "0"
  {
    if LooseTrue(raw) then "1" else "0"
  }

  /** The form's fields. `status` is `None` when missing or outside the four values, and
      `publishedAt` is `None` when empty; a date that does not parse is a validation failure
      this model does not represent. `coverUpload` is the extension of a valid uploaded file. */
  datatype AnnouncementInput = AnnouncementInput(
    title: Option<string>,
    slug: Option<string>,
    status: Option<Status>,
    publishedAt: Option<int>,
    featured: RawFlag,
    showAuthor: RawFlag,
    position: Option<int>,
    categoryId: Option<int>,
    coverImageUrl: Option<string>,
    metaTitle: Option<string>,
    coverUpload: Option<string>,
    removeCoverImage: RawFlag)

  const TitleMax: nat := 255
  const CoverUrlMax: nat := 2000
  const MetaTitleMax: nat := 70

  function CategoryIds(categories: seq<Category>): set<int>
  {
    set c | c in categories :: c.id
  }

  /** `rules()`: a title of at most 255 characters, a slug that is well formed and not in
      `otherSlugs`, a status, a non-negative position, a cover URL of at most 2000 characters,
      an existing category and a meta title of at most 70. */
  predicate Passes(input: AnnouncementInput, otherSlugs: set<string>, categoryIds: set<int>)
  {
    && input.title.Some? && MaxLength(input.title, TitleMax)
    && SlugRule(input.slug, otherSlugs)
    && input.status.Some?
    && (input.position.None? || input.position.value >= 0)
    && MaxLength(input.coverImageUrl, CoverUrlMax)
    && (input.categoryId.None? || input.categoryId.value in categoryIds)
    && MaxLength(input.metaTitle, MetaTitleMax)
  }

  /** A slug the rules accept is made of lower-case alphanumeric runs joined by single
      hyphens, and no other row in `otherSlugs` has it. */
  lemma AcceptedSlugIsWellFormed(input: AnnouncementInput, otherSlugs: set<string>, categoryIds: set<int>)
    requires Passes(input, otherSlugs, categoryIds) && input.slug.Some?
    ensures IsWellFormedSlug(input.slug.value) && input.slug.value !in otherSlugs
  {
    SlugRuleStructure(input.slug, otherSlugs);
  }

  /** Where `store` files an uploaded cover: `announcements/covers/<id>_cover.<ext>`. */
  function CoverPath(id: int, extension: string): (p: string)
    ensures |p| > |"announcements/covers/"|
    ensures p[..|"announcements/covers/"|] == "announcements/covers/"
    ensures |p| >= |"_cover." + extension| && p[|p| - |"_cover." + extension|..] == "_cover." + extension
  {
    "announcements/covers/" + IntToString(id) + "_cover." + extension
  }

  /** The file name starts with the row's id, so two rows never share a cover path: equal
      paths mean the same id and the same extension. */
  lemma CoverPathInjective(id1: nat, ext1: string, id2: nat, ext2: string)
    requires CoverPath(id1, ext1) == CoverPath(id2, ext2)
    ensures id1 == id2 && ext1 == ext2
  {
    CoverPathParts(id1, ext1);
    CoverPathParts(id2, ext2);
    SamePrefixSameRest("announcements/covers/", NatToString(id1) + ("_cover." + ext1), NatToString(id2) + ("_cover." + ext2));
    DigitsEndAtUnderscore(NatToString(id1), NatToString(id2), "_cover." + ext1, "_cover." + ext2);
    NatToStringInjective(id1, id2);
    SamePrefixSameRest("_cover.", ext1, ext2);
  }

  /** `CoverPath` as the directory, the decimal id, then `_cover.` and the extension. */
  lemma CoverPathParts(id: nat, ext: string)
    ensures CoverPath(id, ext) == "announcements/covers/" + (NatToString(id) + ("_cover." + ext))
  {
  }

  /** Two digit strings each followed by an underscore cannot overlap unequally. */
  lemma DigitsEndAtUnderscore(d1: string, d2: string, t1: string, t2: string)
    requires forall i :: 0 <= i < |d1| ==> '0' <= d1[i] <= '9'
    requires forall i :: 0 <= i < |d2| ==> '0' <= d2[i] <= '9'
    requires |t1| > 0 && t1[0] == '_' && |t2| > 0 && t2[0] == '_'
    requires d1 + t1 == d2 + t2
    ensures d1 == d2 && t1 == t2
  {
    var q := d1 + t1;
    assert q[|d1|] == '_' && q[|d2|] == '_';
    assert d1 == q[..|d1|] == d2;
    assert t1 == q[|d1|..] == t2;
  }

  /** `trim($url)`, kept only when the trimmed text is truthy. */
  function TrimmedUrl(raw: Option<string>): (r: Option<string>)
    ensures r.Some? ==> raw.Some? && Filled(r) && |r.value| <= |raw.value|
    ensures r.Some? ==> !IsTrimChar(r.value[0]) && !IsTrimChar(r.value[|r.value| - 1])
    ensures raw.None? ==> r.None?
    ensures raw.Some? && (forall j :: 0 <= j < |raw.value| ==> IsTrimChar(raw.value[j])) ==> r.None?
    ensures raw.Some? && Trim(raw.value) == "0" ==> r.None?
    ensures raw.Some? && (exists j :: 0 <= j < |raw.value| && !IsTrimChar(raw.value[j])) && Trim(raw.value) != "0"
            ==> r == Some(Trim(raw.value))
  {
    var t := Trim(OrDefault(raw, ""));
    if Filled(Some(t)) then Some(t) else None
  }

  // ---------------------------------------------------------------- dates

  /** `store`'s date rules: a non-empty date is kept and, when it is in the future, forces
      `scheduled` whatever status was asked for; `published` without a date gets `now`.
      Either way a row stored as published is visible at once. */
  function StoreDates(status: Status, given: Option<int>, now: int): (r: (Status, Option<int>))
    ensures given.Some? ==> r.1 == given
    ensures given.Some? && given.value > now ==> r.0 == Scheduled
    ensures (given.None? || given.value <= now) ==> r.0 == status
    ensures given.None? ==> (r.1 == Some(now) <==> status == Published) && (r.1.None? <==> status != Published)
    ensures r.0 == Published ==> r.1.Some? && r.1.value <= now
  {
    if given.Some? then
      (if given.value > now then Scheduled else status, given)
    else if status == Published then (status, Some(now))
    else (status, None)
  }

  /** `update`'s date rules as written: the same scheduling, and `now` for a published row that
      had no date; but the submitted date is written in every case, so an empty field clears
      a stored date. */
  function UpdateDatesAsWritten(stored: Option<int>, status: Status, given: Option<int>, now: int)
    : (r: (Status, Option<int>))
    ensures given.None? && stored.Some? ==> r.1.None?
  {
    if given.Some? then
      (if given.value > now then Scheduled else status, given)
    else if status == Published && stored.None? then (status, Some(now))
    else (status, None)
  }

  /** `update`'s date rules with an empty field keeping the stored date: a submitted date
      behaves as in `store`; otherwise the stored date stays, and `published` without one
      gets `now`. A row saved as published always has a date. */
  function UpdateDates(stored: Option<int>, status: Status, given: Option<int>, now: int)
    : (r: (Status, Option<int>))
    ensures given.Some? ==> r == StoreDates(status, given, now)
    ensures given.None? ==> r.0 == status
    ensures given.None? && stored.Some? ==> r.1 == stored
    ensures given.None? && stored.None? ==> r == StoreDates(status, None, now)
    ensures r.0 == Published ==> r.1.Some?
  {
    if given.Some? then
      (if given.value > now then Scheduled else status, given)
    else if stored.Some? then (status, stored)
    else if status == Published then (status, Some(now))
    else (status, None)
  }

  /** The two versions differ only where a stored date meets an empty field. */
  lemma UpdateDatesAgree(stored: Option<int>, status: Status, given: Option<int>, now: int)
    requires given.Some? || stored.None?
    ensures UpdateDatesAsWritten(stored, status, given, now) == UpdateDates(stored, status, given, now)
  {
  }

  /** As written, saving a visible announcement with the date field emptied keeps it
      `published` but drops its date, so it leaves the public pages; the corrected rule keeps
      it visible. */
  lemma ClearedDateHidesAsWritten(a: Announcement, now: int)
    requires IsPublished(a, now)
    ensures var r := UpdateDatesAsWritten(a.publishedAt, Published, None, now);
            !IsPublished(a.(status := r.0, publishedAt := r.1), now)
    ensures var r := UpdateDates(a.publishedAt, Published, None, now);
            IsPublished(a.(status := r.0, publishedAt := r.1), now)
  {
  }

  // ---------------------------------------------------------------- slugs on update

  /** The slugs the edit form's rule checks as written: `ignore($id)->whereNull('deleted_at')`,
      so a soft-deleted row's slug looks free. */
  function LiveSlugsOfOthers(rows: seq<Announcement>, id: int): set<string>
  {
    set a | a in rows && !a.deleted && a.id != id :: a.slug
  }

  /** Every slug held by another row, soft-deleted ones included: the slugs the unique index
      refuses. */
  function SlugsOfOthers(rows: seq<Announcement>, id: int): (r: set<string>)
    ensures LiveSlugsOfOthers(rows, id) <= r
  {
    set a | a in rows && a.id != id :: a.slug
  }

  /** As written, the edit form accepts the slug of a soft-deleted row, which the unique index
      then refuses: with a live row 1 and a trashed row 2 holding `old`, the rule lets row 1
      take `old` and the table would hold it twice. */
  lemma TrashedSlugPassesAsWritten()
    ensures var live := Announcement(1, "News", "news", Draft, None, false, 0, None, None, true,
                                     None, None, None, 0, 0, false);
            var trashed := Announcement(2, "Old", "old", Draft, None, false, 0, None, None, true,
                                        None, None, None, 0, 0, true);
            var rows := [live, trashed];
            && Keyed(rows)
            && SlugRule(Some("old"), LiveSlugsOfOthers(rows, 1))
            && !SlugRule(Some("old"), SlugsOfOthers(rows, 1))
            && !Keyed(rows[0 := live.(slug := "old")])
  {
    var live := Announcement(1, "News", "news", Draft, None, false, 0, None, None, true,
                             None, None, None, 0, 0, false);
    var trashed := Announcement(2, "Old", "old", Draft, None, false, 0, None, None, true,
                                None, None, None, 0, 0, true);
    var rows := [live, trashed];
    assert forall a | a in rows :: a == live || a == trashed;
    assert "old" in SlugsOfOthers(rows, 1) by {
      assert trashed in rows;
    }
    assert MatchesSlugPattern("old") by {
      SlugPatternIff("old");
      assert IsWellFormedSlug("old");
    }
    var after := rows[0 := live.(slug := "old")];
    assert after[0].slug == after[1].slug;
  }

  /** Replacing a row by one with the same id and a slug no other row holds keeps both keys. */
  lemma ReplaceKeepsKeys(rows: seq<Announcement>, k: nat, a: Announcement)
    requires Keyed(rows) && k < |rows|
    requires a.id == rows[k].id
    requires a.slug !in SlugsOfOthers(rows, a.id)
    ensures Keyed(rows[k := a])
  {
    var after := rows[k := a];
    forall i, j | 0 <= i < j < |after|
      ensures after[i].id != after[j].id && after[i].slug != after[j].slug
    {
      if i == k {
        assert rows[j] in rows && rows[j].id != a.id;
      } else if j == k {
        assert rows[i] in rows && rows[i].id != a.id;
      }
    }
  }

  // ---------------------------------------------------------------- store

  /** The column default of `position`. */
  const DefaultPosition: int := 0

  /** `$this->input('position', 0)` as written, in `store` and in `update`: the default
      serves only a request without the key. The form always sends the field, so an emptied
      one is a null that reaches `create` or `update`, where the NOT NULL `position` column
      refuses it and the request fails (`None`). */
  function PositionAsWritten(input: AnnouncementInput): (r: Option<int>)
    ensures r.None? <==> input.position.None?
    ensures r.Some? ==> r.value == input.position.value
  {
    input.position
  }

  /** A form saved with the position field emptied: both writes fail as written, while the
      corrected rows of `store` and `update` take the column default. */
  lemma EmptiedPositionFailsAsWritten(a: Announcement, input: AnnouncementInput, slug: string,
                                      adminId: Option<int>, now: int)
    requires input.title.Some? && input.status.Some? && input.position.None?
    ensures PositionAsWritten(input).None?
    ensures StoreRow(input, slug, adminId, now).position == DefaultPosition
    ensures EditedRow(a, input, now).position == DefaultPosition
  {
  }

  /** The row `store` hands to `create`: the submitted fields with the dates of `StoreDates`,
      the prepared checkboxes, the trimmed cover URL, the admin as author and zero counters.
      A row it marks published is visible at once. */
  function StoreRow(input: AnnouncementInput, slug: string, adminId: Option<int>, now: int): (a: Announcement)
    requires input.title.Some? && input.status.Some?
    ensures (a.status, a.publishedAt) == StoreDates(input.status.value, input.publishedAt, now)
    ensures a.status == Published ==> IsPublished(a, now)
    ensures a.status != input.status.value ==> a.status == Scheduled && IsScheduled(a, now)
    ensures a.featured <==> LooseTrue(input.featured)
    ensures a.showAuthor <==> LooseTrue(input.showAuthor)
    ensures a.coverImageUrl == TrimmedUrl(input.coverImageUrl) && a.coverImage.None?
    ensures a.viewsCount == 0 && a.likesCount == 0 && !a.deleted
    ensures input.position.Some? ==> a.position == input.position.value
    ensures input.position.None? ==> a.position == DefaultPosition
  {
    var dates := StoreDates(input.status.value, input.publishedAt, now);
    Announcement(0, input.title.value, slug, dates.0, dates.1, Checkbox(input.featured) == "1",
                 OrDefault(input.position, DefaultPosition), input.categoryId, adminId,
                 Checkbox(input.showAuthor) == "1", None, TrimmedUrl(input.coverImageUrl),
                 input.metaTitle, 0, 0, false)
  }

  /** The slug `store` writes into `$data`: the submitted one, or the title's slug suffixed
      with `-1`, `-2`, ... until no live row holds it. */
  method FormSlug(rows: seq<Announcement>, input: AnnouncementInput, slugify: string -> string)
    returns (slug: string)
    requires input.title.Some?
    ensures Filled(input.slug) ==> slug == input.slug.value
    ensures !Filled(input.slug) ==> exists m: nat :: slug == Candidate(slugify(input.title.value), m)
                                                   && Candidate(slugify(input.title.value), m) !in LiveSlugs(rows)
  {
    if Filled(input.slug) {
      slug := input.slug.value;
    } else {
      var attempts;
      slug, attempts := UniqueSlug(LiveSlugs(rows), slugify(input.title.value));
    }
  }

  /** Where the slug `store` ends with comes from: a submitted slug, kept when no row holds it
      and suffixed otherwise; or the title's slug, suffixed first by the form against live
      rows and then by the hook against every row. */
  ghost predicate StoredSlug(rows: seq<Announcement>, input: AnnouncementInput, slugify: string -> string, s: string)
    requires input.title.Some?
  {
    && (Filled(input.slug) ==> exists n: nat :: s == Candidate(input.slug.value, n))
    && (Filled(input.slug) && input.slug.value !in AllSlugs(rows) ==> s == input.slug.value)
    && (!Filled(input.slug) ==>
          exists m: nat, n: nat :: Candidate(slugify(input.title.value), m) !in LiveSlugs(rows)
                                  && s == Candidate(Candidate(slugify(input.title.value), m), n))
  }

  /** `store()` behind the admin `store` action. A rejected request changes nothing. An
      accepted one appends `StoreRow` with the next id, its slug filled by `FormSlug` and then
      made unique against every row, soft-deleted ones included, by the `creating` hook; an
      uploaded cover's path is saved once the row has its id. */
  method Store(db: Database, input: AnnouncementInput, adminId: Option<int>, slugify: string -> string, now: int)
    returns (r: Option<Announcement>)
    requires db.Valid()
    modifies db
    ensures db.Valid()
    ensures r.Some? <==> Passes(input, LiveSlugs(old(db.announcements)), CategoryIds(old(db.categories)))
    ensures r.None? ==> unchanged(db)
    ensures r.Some? ==>
              && input.title.Some? && input.status.Some?
              && db.announcements == old(db.announcements) + [r.value]
              && r.value == StoreRow(input, r.value.slug, adminId, now).(
                              id := old(db.nextAnnouncementId),
                              coverImage := if input.coverUpload.Some?
                                            then Some(CoverPath(old(db.nextAnnouncementId), input.coverUpload.value))
                                            else None)
              && r.value.slug !in AllSlugs(old(db.announcements))
    ensures r.Some? ==> StoredSlug(old(db.announcements), input, slugify, r.value.slug)
    ensures Keyed(old(db.announcements)) ==> Keyed(db.announcements)
    ensures db.categories == old(db.categories) && db.views == old(db.views) && db.likes == old(db.likes)
    ensures db.nextCategoryId == old(db.nextCategoryId)
  {
    if !Passes(input, LiveSlugs(db.announcements), CategoryIds(db.categories)) {
      return None;
    }
    ghost var before := db.announcements;
    var slug := FormSlug(db.announcements, input, slugify);
    var data := StoreRow(input, slug, adminId, now);
    var created := CreateWithCover(db, data, input.coverUpload, slugify);
    if Filled(input.slug) {
      GivenSlugOfStore(before, input.slug.value, slugify, data, created);
    } else {
      DerivedSlugOfStore(before, input.title.value, slugify, slug, data, created);
    }
    r := Some(created);
  }

  /** `Announcement::create($data)` followed, when a cover was uploaded, by saving its path
      under the new id. */
  method CreateWithCover(db: Database, data: Announcement, upload: Option<string>, slugify: string -> string)
    returns (created: Announcement)
    requires db.Valid()
    modifies db
    ensures db.Valid()
    ensures created == data.(id := old(db.nextAnnouncementId), slug := created.slug,
                             coverImage := if upload.Some? then Some(CoverPath(old(db.nextAnnouncementId), upload.value))
                                           else data.coverImage)
    ensures db.announcements == old(db.announcements) + [created]
    ensures created.slug !in AllSlugs(old(db.announcements))
    ensures HookSlug(old(db.announcements), BaseSlug(data, slugify), created.slug)
    ensures Keyed(old(db.announcements)) ==> Keyed(db.announcements)
    ensures db.nextAnnouncementId == old(db.nextAnnouncementId) + 1
    ensures db.categories == old(db.categories) && db.views == old(db.views) && db.likes == old(db.likes)
    ensures db.nextCategoryId == old(db.nextCategoryId)
  {
    ghost var before := db.announcements;
    created := Create(db, data, slugify);
    if upload.Some? {
      ghost var hooked := created;
      created := created.(coverImage := Some(CoverPath(created.id, upload.value)));
      ReplaceLast(before, hooked, created);
      Save(db, |db.announcements| - 1, created);
      if Keyed(before) {
        AppendKeepsKeys(before, created);
      }
    }
  }

  lemma ReplaceLast(rows: seq<Announcement>, a: Announcement, b: Announcement)
    ensures (rows + [a])[|rows| := b] == rows + [b]
  {
  }

  /** What the hook leaves of a submitted slug: it is kept when no row holds it, and gets
      the first free numeric suffix otherwise. */
  lemma GivenSlugOfStore(rows: seq<Announcement>, given: string, slugify: string -> string,
                         data: Announcement, created: Announcement)
    requires Filled(Some(given)) && data.slug == given
    requires HookSlug(rows, BaseSlug(data, slugify), created.slug)
    ensures exists n: nat :: created.slug == Candidate(given, n)
    ensures given !in AllSlugs(rows) ==> created.slug == given
  {
    assert BaseSlug(data, slugify) == given;
    var n: nat :| created.slug == Candidate(given, n) && forall k :: 0 <= k < n ==> Candidate(given, k) in AllSlugs(rows);
    if n > 0 {
      assert Candidate(given, 0) in AllSlugs(rows);
    }
  }

  /** What the hook leaves of a slug the form derived from the title: the form's suffix,
      free among live rows, then the hook's own suffix against every row. */
  lemma DerivedSlugOfStore(rows: seq<Announcement>, title: string, slugify: string -> string, slug: string,
                           data: Announcement, created: Announcement)
    requires data.slug == slug && data.title == title
    requires exists m: nat :: slug == Candidate(slugify(title), m) && Candidate(slugify(title), m) !in LiveSlugs(rows)
    requires HookSlug(rows, BaseSlug(data, slugify), created.slug)
    ensures exists m: nat, n: nat :: Candidate(slugify(title), m) !in LiveSlugs(rows)
                                    && created.slug == Candidate(Candidate(slugify(title), m), n)
  {
    var n: nat :| created.slug == Candidate(BaseSlug(data, slugify), n);
    var m: nat :| slug == Candidate(slugify(title), m) && Candidate(slugify(title), m) !in LiveSlugs(rows);
    if !Filled(Some(slug)) {
      assert m == 0;
    }
    assert BaseSlug(data, slugify) == slug;
    assert created.slug == Candidate(Candidate(slugify(title), m), n);
  }

  // ---------------------------------------------------------------- update

  /** The row `$announcement->update($data)` leaves: the submitted fields over the stored row,
      an empty slug keeping the stored one, the dates of `UpdateDates` and the trimmed cover URL
      (an empty one clears it). Identity, author, counters and the cover file are untouched. */
  function EditedRow(a: Announcement, input: AnnouncementInput, now: int): (b: Announcement)
    requires input.title.Some? && input.status.Some?
    ensures b.id == a.id && b.authorId == a.authorId && b.deleted == a.deleted
    ensures b.viewsCount == a.viewsCount && b.likesCount == a.likesCount && b.coverImage == a.coverImage
    ensures Filled(input.slug) ==> b.slug == input.slug.value
    ensures !Filled(input.slug) ==> b.slug == a.slug
    ensures (b.status, b.publishedAt) == UpdateDates(a.publishedAt, input.status.value, input.publishedAt, now)
    ensures b.status == Published ==> b.publishedAt.Some?
    ensures b.featured <==> LooseTrue(input.featured)
    ensures b.showAuthor <==> LooseTrue(input.showAuthor)
    ensures b.coverImageUrl == TrimmedUrl(input.coverImageUrl)
  {
    var dates := UpdateDates(a.publishedAt, input.status.value, input.publishedAt, now);
    a.(title := input.title.value, slug := if Filled(input.slug) then input.slug.value else a.slug,
       status := dates.0, publishedAt := dates.1, featured := Checkbox(input.featured) == "1",
       position := OrDefault(input.position, DefaultPosition), categoryId := input.categoryId,
       showAuthor := Checkbox(input.showAuthor) == "1", metaTitle := input.metaTitle,
       coverImageUrl := TrimmedUrl(input.coverImageUrl))
  }

  /** The edited row takes the submitted title, category and meta title, and the submitted
      position or, for an emptied one, the column default. */
  lemma EditedRowTakesFields(a: Announcement, input: AnnouncementInput, now: int)
    requires input.title.Some? && input.status.Some?
    ensures EditedRow(a, input, now).title == input.title.value
    ensures EditedRow(a, input, now).categoryId == input.categoryId
    ensures EditedRow(a, input, now).metaTitle == input.metaTitle
    ensures input.position.Some? ==> EditedRow(a, input, now).position == input.position.value
    ensures input.position.None? ==> EditedRow(a, input, now).position == DefaultPosition
  {
    var b := EditedRow(a, input, now);
    assert (b.title, b.position, b.categoryId, b.metaTitle)
        == (input.title.value, OrDefault(input.position, DefaultPosition), input.categoryId, input.metaTitle);
  }

  /** The slug `update` keeps is held by no other row when the rule checked every other row
      and the table's keys held. */
  lemma EditedSlugIsFree(rows: seq<Announcement>, k: nat, input: AnnouncementInput, categoryIds: set<int>, now: int)
    requires Keyed(rows) && k < |rows|
    requires Passes(input, SlugsOfOthers(rows, rows[k].id), categoryIds)
    ensures EditedRow(rows[k], input, now).slug !in SlugsOfOthers(rows, rows[k].id)
  {
    if Filled(input.slug) {
      AcceptedSlugIsWellFormed(input, SlugsOfOthers(rows, rows[k].id), categoryIds);
    }
  }

  /** The edited row keeps the table's keys, whatever cover it ends with. */
  lemma EditKeepsKeys(rows: seq<Announcement>, k: nat, input: AnnouncementInput, categoryIds: set<int>, now: int,
                      row: Announcement)
    requires Keyed(rows) && k < |rows|
    requires Passes(input, SlugsOfOthers(rows, rows[k].id), categoryIds)
    requires row.id == rows[k].id && row.slug == EditedRow(rows[k], input, now).slug
    ensures Keyed(rows[k := row])
  {
    EditedSlugIsFree(rows, k, input, categoryIds, now);
    ReplaceKeepsKeys(rows, k, row);
  }

  /** `update()` behind the admin `update` action, on the live row `k` the route resolved.
      A rejected request changes nothing. An accepted one writes `EditedRow`; then an upload
      replaces the cover file and clears the cover URL, and `remove_cover_image` clears the
      file, each saved in turn. The slug is checked against every other row, soft-deleted
      ones included, so the table's keys survive. */
  method Update(db: Database, k: nat, input: AnnouncementInput, now: int) returns (ok: bool)
    requires db.Valid() && k < |db.announcements| && !db.announcements[k].deleted
    modifies db
    ensures db.Valid()
    ensures ok <==> Passes(input, SlugsOfOthers(old(db.announcements), old(db.announcements[k].id)),
                           CategoryIds(old(db.categories)))
    ensures !ok ==> unchanged(db)
    ensures ok ==>
              && input.title.Some? && input.status.Some?
              && |db.announcements| == |old(db.announcements)|
              && db.announcements == old(db.announcements)[k := db.announcements[k]]
              && db.announcements[k] == EditedRow(old(db.announcements[k]), input, now).(
                   coverImage := if LooseTrue(input.removeCoverImage) then None
                                 else if input.coverUpload.Some? then Some(CoverPath(old(db.announcements[k].id), input.coverUpload.value))
                                 else old(db.announcements[k].coverImage),
                   coverImageUrl := if input.coverUpload.Some? then None else TrimmedUrl(input.coverImageUrl))
    ensures Keyed(old(db.announcements)) ==> Keyed(db.announcements)
    ensures db.categories == old(db.categories) && db.views == old(db.views) && db.likes == old(db.likes)
    ensures db.nextAnnouncementId == old(db.nextAnnouncementId) && db.nextCategoryId == old(db.nextCategoryId)
  {
    var current := db.announcements[k];
    if !Passes(input, SlugsOfOthers(db.announcements, current.id), CategoryIds(db.categories)) {
      return false;
    }
    ghost var before := db.announcements;
    ghost var want := EditedRow(current, input, now).(
      coverImage := if LooseTrue(input.removeCoverImage) then None
                    else if input.coverUpload.Some? then Some(CoverPath(current.id, input.coverUpload.value))
                    else current.coverImage,
      coverImageUrl := if input.coverUpload.Some? then None else TrimmedUrl(input.coverImageUrl));
    var row := EditedRow(current, input, now);
    Save(db, k, row);
    if input.coverUpload.Some? {
      row := row.(coverImage := Some(CoverPath(current.id, input.coverUpload.value)), coverImageUrl := None);
      Save(db, k, row);
    }
    if LooseTrue(input.removeCoverImage) {
      row := row.(coverImage := None);
      Save(db, k, row);
    }
    assert row == want;
    assert db.announcements == before[k := row];
    if Keyed(before) {
      EditKeepsKeys(before, k, input, CategoryIds(db.categories), now, row);
    }
    ok := true;
  }
}

=== FILE: api_announcements.dfy ===
/** The REST `AnnouncementApiController`: the public listing, store and partial update with
    their `published_at` defaults, and the publish and unpublish actions. */
module ApiAnnouncements {
  import opened Support
  import opened Schema
  import opened Slugs
  import opened AnnouncementModel
  import AnnouncementRequest
  import AdminAnnouncements

  // ---------------------------------------------------------------- published listing

  /** `when($request->category_id, ...)`: the filter applies only to a truthy id. */
  predicate CategoryFilterApplies(categoryId: Option<int>)
  {
    categoryId.Some? && categoryId.value != 0
  }

  /** `published`: every published live row, of the requested category when one is given,
      ordered by featured first, then position, then latest date. Pagination is left to the
      caller, so nothing that qualifies is missing. */
  function PublishedListing(rows: seq<Announcement>, categoryId: Option<int>, now: int): (r: seq<Announcement>)
    ensures forall a :: a in r ==> a in rows && !a.deleted && IsPublished(a, now)
    ensures forall a :: a in r && CategoryFilterApplies(categoryId) ==> a.categoryId == categoryId
    ensures forall a | a in rows && !a.deleted && IsPublished(a, now) ::
              (!CategoryFilterApplies(categoryId) || a.categoryId == categoryId) ==> a in r
    ensures InOrder(FeaturedPositionDate, r)
  {
    PublishedQuery(rows, now, (a: Announcement) => !CategoryFilterApplies(categoryId) || a.categoryId == categoryId,
                   FeaturedPositionDate, -1)
  }

  // ---------------------------------------------------------------- store

  /** The JSON body of `store`; `None` is an absent or null field. */
  datatype StoreBody = StoreBody(
    title: Option<string>,
    slug: Option<string>,
    status: Option<Status>,
    publishedAt: Option<int>,
    featured: Option<bool>,
    position: Option<int>,
    categoryId: Option<int>,
    showAuthor: Option<bool>,
    metaTitle: Option<string>)

  /** The `store` rules: a title of at most 255 characters, a slug of at most 255 that no row
      holds (`unique:announcements,slug` looks at soft-deleted rows too), a status, a
      non-negative position, an existing category and a meta title of at most 70. There is no
      slug format rule here. */
  predicate StoreAccepted(b: StoreBody, slugs: set<string>, categoryIds: set<int>)
  {
    && b.title.Some? && |b.title.value| <= 255
    && (b.slug.Some? ==> |b.slug.value| <= 255 && b.slug.value !in slugs)
    && b.status.Some?
    && (b.position.Some? ==> b.position.value >= 0)
    && (b.categoryId.Some? ==> b.categoryId.value in categoryIds)
    && (b.metaTitle.Some? ==> |b.metaTitle.value| <= 70)
  }

  /** The date `store` writes: `published` without a date gets `now`; a given date is kept,
      and unlike the form a future one does not change the status. */
  function StoreDate(status: Status, given: Option<int>, now: int): (d: Option<int>)
    ensures given.Some? ==> d == given
    ensures given.None? ==> (d.Some? <==> status == Published)
    ensures given.None? && d.Some? ==> d.value == now
  {
    if status == Published && given.None? then Some(now) else given
  }

  /** A future date on a published item: the form stores it as scheduled, the API keeps it
      published; either way it is scheduled and not visible until its date. */
  lemma FutureDateNotVisibleEitherWay(a: Announcement, t: int, now: int)
    requires t > now
    ensures var form := AnnouncementRequest.StoreDates(Published, Some(t), now);
            form == (Scheduled, Some(t))
            && IsScheduled(a.(status := form.0, publishedAt := form.1), now)
            && !IsPublished(a.(status := form.0, publishedAt := form.1), now)
    ensures var api := a.(status := Published, publishedAt := StoreDate(Published, Some(t), now));
            api.status == Published && IsScheduled(api, now) && !IsPublished(api, now)
  {
  }

  /** The row `store` hands to `create`: the body with the model's defaults for absent
      fields (not featured, author shown, position 0) and zero counters. */
  function StoreRow(b: StoreBody, slug: string, authorId: Option<int>, now: int): (a: Announcement)
    requires b.title.Some? && b.status.Some?
    ensures a.title == b.title.value && a.slug == slug && a.status == b.status.value
    ensures a.publishedAt == StoreDate(b.status.value, b.publishedAt, now)
    ensures a.status == Published && (b.publishedAt.None? || b.publishedAt.value <= now) ==> IsPublished(a, now)
    ensures a.featured == OrDefault(b.featured, false) && a.showAuthor == OrDefault(b.showAuthor, true)
    ensures a.position == OrDefault(b.position, 0) && a.categoryId == b.categoryId && a.authorId == authorId
    ensures a.viewsCount == 0 && a.likesCount == 0 && !a.deleted && a.coverImage.None? && a.coverImageUrl.None?
  {
    Announcement(0, b.title.value, slug, b.status.value, StoreDate(b.status.value, b.publishedAt, now),
                 OrDefault(b.featured, false), OrDefault(b.position, 0), b.categoryId, authorId,
                 OrDefault(b.showAuthor, true), None, None, b.metaTitle, 0, 0, false)
  }

  /** `store`: a rejected body changes nothing (422). An accepted one is created with an empty
      slug replaced by `Str::slug(title)` and made unique by the `creating` hook, and the API
      token's user as author, or the signed-in admin when there is none. A slug the body gives
      is stored as it is. */
  method Store(db: Database, b: StoreBody, tokenUser: Option<int>, adminId: Option<int>,
               slugify: string -> string, now: int) returns (r: Option<Announcement>)
    requires db.Valid()
    modifies db
    ensures db.Valid()
    ensures r.Some? <==> StoreAccepted(b, AllSlugs(old(db.announcements)), AnnouncementRequest.CategoryIds(old(db.categories)))
    ensures r.None? ==> unchanged(db)
    ensures r.Some? ==>
              && b.title.Some? && b.status.Some?
              && db.announcements == old(db.announcements) + [r.value]
              && r.value == StoreRow(b, r.value.slug, if tokenUser.Some? then tokenUser else adminId, now).(
                              id := old(db.nextAnnouncementId))
              && r.value.slug !in AllSlugs(old(db.announcements))
              && (Filled(b.slug) ==> r.value.slug == b.slug.value)
              && (!Filled(b.slug) ==> exists n: nat :: r.value.slug == Candidate(slugify(b.title.value), n))
    ensures Keyed(old(db.announcements)) ==> Keyed(db.announcements)
    ensures db.categories == old(db.categories) && db.views == old(db.views) && db.likes == old(db.likes)
    ensures db.nextCategoryId == old(db.nextCategoryId)
  {
    if !StoreAccepted(b, AllSlugs(db.announcements), AnnouncementRequest.CategoryIds(db.categories)) {
      return None;
    }
    var slug := if Filled(b.slug) then b.slug.value else slugify(b.title.value);
    var author := if tokenUser.Some? then tokenUser else adminId;
    var data := StoreRow(b, slug, author, now);
    assert BaseSlug(data, slugify) == (if Filled(b.slug) then b.slug.value else slugify(b.title.value));
    ghost var before := db.announcements;
    var created := Create(db, data, slugify);
    assert Filled(b.slug) ==> Candidate(b.slug.value, 0) !in AllSlugs(before);
    r := Some(created);
  }

  // ---------------------------------------------------------------- update

  /** The JSON body of `update`: each field is left alone when its key is absent. */
  datatype UpdateBody = UpdateBody(
    title: Patch<string>,
    slug: Patch<string>,
    status: Patch<Status>,
    publishedAt: Patch<Option<int>>,
    featured: Patch<bool>,
    position: Patch<int>,
    categoryId: Patch<Option<int>>,
    showAuthor: Patch<bool>,
    metaTitle: Patch<Option<string>>)

  /** The `update` rules on the fields present: a title of at most 255, a slug of at most 255
      that no other row holds (soft-deleted ones included), a non-negative position, an
      existing category and a meta title of at most 70. An empty title or slug arrives as
      null, which their `string` rule refuses. */
  predicate UpdateAccepted(b: UpdateBody, otherSlugs: set<string>, categoryIds: set<int>)
  {
    && (b.title.Put? ==> b.title.value != "" && |b.title.value| <= 255)
    && (b.slug.Put? ==> b.slug.value != "" && |b.slug.value| <= 255 && b.slug.value !in otherSlugs)
    && (b.position.Put? ==> b.position.value >= 0)
    && (b.categoryId.Put? && b.categoryId.value.Some? ==> b.categoryId.value.value in categoryIds)
    && (b.metaTitle.Put? && b.metaTitle.value.Some? ==> |b.metaTitle.value.value| <= 70)
  }

  /** The `published_at` patch `update` applies: `now` when the body sets `published` without
      a date and the row has none; otherwise the body's own. A date is kept unless the body
      sends one; an explicit null clears a stored date even when the body publishes. */
  function UpdateDatePatch(stored: Option<int>, status: Patch<Status>, given: Patch<Option<int>>, now: int)
    : (p: Patch<Option<int>>)
    ensures given.Put? && given.value.Some? ==> p == given
    ensures given.Keep? && stored.Some? ==> Patched(p, stored) == stored
    ensures status == Put(Published) && (given.Keep? || stored.None?) ==> Patched(p, stored).Some?
    ensures given == Put(None) && stored.Some? ==> Patched(p, stored).None?
    ensures status != Put(Published) ==> p == given
  {
    if status == Put(Published) && (given.Keep? || given.value.None?) && stored.None? then Put(Some(now))
    else given
  }

  /** The row after `$announcement->update($validated)`: each present field replaces the
      stored one, with the date of `UpdateDatePatch`; identity, author, counters and covers
      are untouched. */
  function EditedRow(a: Announcement, b: UpdateBody, now: int): (r: Announcement)
    ensures r.id == a.id && r.authorId == a.authorId && r.deleted == a.deleted
    ensures r.viewsCount == a.viewsCount && r.likesCount == a.likesCount
    ensures r.coverImage == a.coverImage && r.coverImageUrl == a.coverImageUrl
    ensures r.title == Patched(b.title, a.title) && r.slug == Patched(b.slug, a.slug)
    ensures r.status == Patched(b.status, a.status)
    ensures r.publishedAt == Patched(UpdateDatePatch(a.publishedAt, b.status, b.publishedAt, now), a.publishedAt)
    ensures r.featured == Patched(b.featured, a.featured) && r.position == Patched(b.position, a.position)
    ensures r.categoryId == Patched(b.categoryId, a.categoryId) && r.showAuthor == Patched(b.showAuthor, a.showAuthor)
    ensures r.metaTitle == Patched(b.metaTitle, a.metaTitle)
  {
    a.(title := Patched(b.title, a.title), slug := Patched(b.slug, a.slug), status := Patched(b.status, a.status),
       publishedAt := Patched(UpdateDatePatch(a.publishedAt, b.status, b.publishedAt, now), a.publishedAt),
       featured := Patched(b.featured, a.featured), position := Patched(b.position, a.position),
       categoryId := Patched(b.categoryId, a.categoryId), showAuthor := Patched(b.showAuthor, a.showAuthor),
       metaTitle := Patched(b.metaTitle, a.metaTitle))
  }

  /** An empty body changes nothing. */
  lemma EmptyUpdateKeepsRow(a: Announcement, now: int)
    ensures EditedRow(a, UpdateBody(Keep, Keep, Keep, Keep, Keep, Keep, Keep, Keep, Keep), now) == a
  {
  }

  /** Applying the same body twice is applying it once, unless it publishes with an explicit
      null date. */
  lemma UpdateIdempotent(a: Announcement, b: UpdateBody, now: int)
    requires !(b.status == Put(Published) && b.publishedAt == Put(None))
    ensures EditedRow(EditedRow(a, b, now), b, now) == EditedRow(a, b, now)
  {
  }

  /** A body that publishes with an explicit null date alternates: it dates an undated row
      and clears the date of a dated one. */
  lemma NullDatePublishAlternates(a: Announcement, now: int)
    requires a.publishedAt.None?
    ensures var b := UpdateBody(Keep, Keep, Put(Published), Put(None), Keep, Keep, Keep, Keep, Keep);
            EditedRow(a, b, now).publishedAt == Some(now)
            && EditedRow(EditedRow(a, b, now), b, now).publishedAt.None?
  {
  }

  /** `update` on the live row `k` the route resolved: a rejected body changes nothing; an
      accepted one rewrites the row as `EditedRow`, and the table's keys survive. */
  method Update(db: Database, k: nat, b: UpdateBody, now: int) returns (ok: bool)
    requires db.Valid() && k < |db.announcements| && !db.announcements[k].deleted
    modifies db
    ensures db.Valid()
    ensures ok <==> UpdateAccepted(b, AnnouncementRequest.SlugsOfOthers(old(db.announcements), old(db.announcements[k].id)),
                                   AnnouncementRequest.CategoryIds(old(db.categories)))
    ensures !ok ==> unchanged(db)
    ensures ok ==> db.announcements == old(db.announcements)[k := EditedRow(old(db.announcements[k]), b, now)]
    ensures Keyed(old(db.announcements)) ==> Keyed(db.announcements)
    ensures db.categories == old(db.categories) && db.views == old(db.views) && db.likes == old(db.likes)
    ensures db.nextAnnouncementId == old(db.nextAnnouncementId) && db.nextCategoryId == old(db.nextCategoryId)
  {
    var current := db.announcements[k];
    if !UpdateAccepted(b, AnnouncementRequest.SlugsOfOthers(db.announcements, current.id),
                       AnnouncementRequest.CategoryIds(db.categories)) {
      return false;
    }
    var row := EditedRow(current, b, now);
    if Keyed(db.announcements) {
      AnnouncementRequest.ReplaceKeepsKeys(db.announcements, k, row);
    }
    Save(db, k, row);
    ok := true;
  }

  // ---------------------------------------------------------------- publish, unpublish

  /** `publish`: status published, the stored date kept or `now`. Publishing twice is
      publishing once, and an undated or past-dated row becomes visible. */
  function PublishNow(a: Announcement, now: int): (b: Announcement)
    ensures b == a.(status := Published, publishedAt := b.publishedAt)
    ensures a.publishedAt.Some? ==> b.publishedAt == a.publishedAt
    ensures a.publishedAt.None? ==> b.publishedAt == Some(now)
    ensures a.publishedAt.None? || a.publishedAt.value <= now ==> IsPublished(b, now)
  {
    a.(status := Published, publishedAt := if a.publishedAt.Some? then a.publishedAt else Some(now))
  }

  /** `unpublish`: status draft and nothing else, so the row is neither visible nor scheduled. */
  function Unpublished(a: Announcement): (b: Announcement)
    ensures b == a.(status := Draft)
    ensures forall now :: !IsPublished(b, now) && !IsScheduled(b, now)
  {
    a.(status := Draft)
  }

  lemma PublishIdempotent(a: Announcement, now: int)
    ensures PublishNow(PublishNow(a, now), now) == PublishNow(a, now)
  {
  }

  /** Unpublishing and publishing again restores a dated published row. */
  lemma UnpublishThenPublish(a: Announcement, now: int)
    requires a.status == Published && a.publishedAt.Some?
    ensures PublishNow(Unpublished(a), now) == a
  {
  }

  /** The admin toggle is `unpublish` on a published row and `publish` on any other. */
  lemma ToggleIsPublishOrUnpublish(a: Announcement, now: int)
    ensures a.status == Published ==> AdminAnnouncements.Toggled(a, now) == Unpublished(a)
    ensures a.status != Published ==> AdminAnnouncements.Toggled(a, now) == PublishNow(a, now)
  {
  }

  method Publish(db: Database, k: nat, now: int)
    requires db.Valid() && k < |db.announcements| && !db.announcements[k].deleted
    modifies db
    ensures db.Valid()
    ensures db.announcements == old(db.announcements)[k := PublishNow(old(db.announcements[k]), now)]
    ensures db.categories == old(db.categories) && db.views == old(db.views) && db.likes == old(db.likes)
    ensures db.nextAnnouncementId == old(db.nextAnnouncementId) && db.nextCategoryId == old(db.nextCategoryId)
  {
    var a := db.announcements[k];
    Save(db, k, a.(status := Published, publishedAt := if a.publishedAt.Some? then a.publishedAt else Some(now)));
  }

  method Unpublish(db: Database, k: nat)
    requires db.Valid() && k < |db.announcements| && !db.announcements[k].deleted
    modifies db
    ensures db.Valid()
    ensures db.announcements == old(db.announcements)[k := Unpublished(old(db.announcements[k]))]
    ensures db.categories == old(db.categories) && db.views == old(db.views) && db.likes == old(db.likes)
    ensures db.nextAnnouncementId == old(db.nextAnnouncementId) && db.nextCategoryId == old(db.nextCategoryId)
  {
    Save(db, k, db.announcements[k].(status := Draft));
  }
}

=== FILE: categories_admin.dfy ===
/** The admin `CategoryController`: store and update through the form request, the guarded
    delete, and the drag-and-drop position update. */
module AdminCategories {
  import opened Support
  import opened Schema
  import opened Slugs
  import opened CategoryModel
  import opened CategoryRequest

  /** `=== 'true' || === true` on the value `prepareForValidation` left in the request. */
  predicate ControllerIsActive(v: RawFlag)
  {
    v == Text("true") || v == Flag(true)
  }

  /** The request has already replaced `is_active` by a boolean, so the controller's test
      holds exactly when the raw value was the string `'true'`; a JSON `true` ends up false. */
  lemma IsActiveRule(raw: RawFlag)
    ensures ControllerIsActive(Flag(PreparedIsActive(raw))) <==> raw == Text("true")
  {
  }

  /** The slug `store` hands to `create`: the submitted one, or `Str::slug(name)`. The hook
      then starts from the same string. */
  function StoreBaseSlug(input: CategoryInput, slugify: string -> string): (s: string)
    requires input.name.Some?
    ensures Filled(input.slug) ==> s == input.slug.value
    ensures !Filled(input.slug) ==> s == slugify(input.name.value)
  {
    if Filled(input.slug) then input.slug.value else slugify(input.name.value)
  }

  /** `AnnouncementCategory::create($validated)` as written, for the row id and the slug the
      hook settles on: an emptied colour or position reaches the insert as null, which
      replaces the model's `$attributes` default and which the NOT NULL column refuses, so
      the insert fails (`None`). Otherwise the row is the one the corrected store inserts. */
  function CreateAsWritten(f: CategoryFields, id: int, slug: string): (r: Option<Category>)
    ensures r.None? <==> f.color.None? || f.position.None?
    ensures r.Some? ==> r.value == NewCategory(f, id, slug) && r.value.color == f.color.value
                        && r.value.position == f.position.value
  {
    if f.color.None? || f.position.None? then None else Some(NewCategory(f, id, slug))
  }

  /** The create form submitted with the position field emptied: the insert fails as
      written, while the corrected store puts the column default in its place. */
  lemma ClearedPositionFailsOnStoreAsWritten(f: CategoryFields, id: int, slug: string)
    requires f.position.None?
    ensures CreateAsWritten(f, id, slug).None?
    ensures NewCategory(f, id, slug).position == DefaultPosition
    ensures f.color.Some? ==> NewCategory(f, id, slug).color == f.color.value
  {
  }

  /** `store`, corrected: a rejected request changes nothing; otherwise the category is
      created with its slug filled and made unique, `is_active` set by the rule above, and an
      emptied colour or position given the column default where `CreateAsWritten` fails. */
  method Store(db: Database, input: CategoryInput, slugify: string -> string) returns (r: Option<Category>)
    requires db.Valid()
    modifies db
    ensures db.Valid()
    ensures Validate(input, CategorySlugs(old(db.categories))).None? ==>
              r.None? && db.categories == old(db.categories) && db.nextCategoryId == old(db.nextCategoryId)
    ensures r.Some? ==>
              && input.name.Some?
              && r.value.name == input.name.value
              && r.value.isActive == (input.isActive == Text("true"))
              && r.value.color == OrDefault(input.color, DefaultColor)
              && r.value.position == OrDefault(input.position, DefaultPosition)
              && r.value.slug !in CategorySlugs(old(db.categories))
              && (exists n: nat :: r.value.slug == Candidate(StoreBaseSlug(input, slugify), n))
              && db.categories == old(db.categories) + [r.value]
    ensures Validate(input, CategorySlugs(old(db.categories))).Some? ==> r.Some?
    ensures db.announcements == old(db.announcements) && db.views == old(db.views) && db.likes == old(db.likes)
    ensures db.nextAnnouncementId == old(db.nextAnnouncementId)
  {
    var validated := Validate(input, CategorySlugs(db.categories));
    if validated.None? {
      return None;
    }
    var f := validated.value;
    if !Filled(f.slug) {
      f := f.(slug := Some(slugify(f.name)));
    }
    f := f.(isActive := Some(ControllerIsActive(Flag(PreparedIsActive(input.isActive)))));
    assert BaseSlug(f, slugify) == StoreBaseSlug(input, slugify);
    var c := Create(db, f, slugify);
    r := Some(c);
  }

  /** `$category->update($validated)` as written: a cleared slug, colour or position reaches
      the update as null, which the NOT NULL column refuses (`None` here). Every other field
      takes the validated value. */
  function ApplyUpdateAsWritten(c: Category, f: CategoryFields): (r: Option<Category>)
    ensures r.None? <==> f.slug.None? || f.color.None? || f.position.None?
    ensures r.Some? ==> r.value == c.(name := f.name, slug := f.slug.value, description := f.description,
                                      color := f.color.value, icon := f.icon, position := f.position.value,
                                      isActive := r.value.isActive)
    ensures r.Some? && f.isActive.Some? ==> r.value.isActive == f.isActive.value
  {
    if f.slug.None? || f.color.None? || f.position.None? then None
    else Some(c.(name := f.name, slug := f.slug.value, description := f.description,
                 color := f.color.value, icon := f.icon,
                 position := f.position.value, isActive := OrDefault(f.isActive, c.isActive)))
  }

  /** The corrected update: a cleared slug, colour or position keeps the stored value, as the
      announcement form does for its slug. It agrees with the written one whenever that
      succeeds. */
  function ApplyUpdate(c: Category, f: CategoryFields): (r: Category)
    ensures r.id == c.id
    ensures r.slug == (if f.slug.Some? then f.slug.value else c.slug)
    ensures r.color == (if f.color.Some? then f.color.value else c.color)
    ensures r.position == (if f.position.Some? then f.position.value else c.position)
    ensures ApplyUpdateAsWritten(c, f).Some? ==> ApplyUpdateAsWritten(c, f).value == r
  {
    c.(name := f.name, slug := OrDefault(f.slug, c.slug), description := f.description,
       color := OrDefault(f.color, c.color), icon := f.icon,
       position := OrDefault(f.position, c.position), isActive := OrDefault(f.isActive, c.isActive))
  }

  /** The edit form submitted unchanged but for the slug field emptied: it fails as written,
      and the corrected update leaves the row as it was. */
  lemma ClearedSlugFailsAsWritten(c: Category)
    ensures var f := CategoryFields(c.name, None, c.description, Some(c.color), c.icon, Some(c.position), Some(c.isActive));
            ApplyUpdateAsWritten(c, f).None? && ApplyUpdate(c, f) == c
  {
  }

  /** The same with the position field emptied instead. */
  lemma ClearedPositionFailsAsWritten(c: Category)
    ensures var f := CategoryFields(c.name, Some(c.slug), c.description, Some(c.color), c.icon, None, Some(c.isActive));
            ApplyUpdateAsWritten(c, f).None? && ApplyUpdate(c, f) == c
  {
  }

  /** `update`: validated against the other categories' slugs; the row at `k` is rewritten by
      `ApplyUpdate` and nothing else changes. */
  method Update(db: Database, k: nat, input: CategoryInput) returns (ok: bool)
    requires db.Valid() && k < |db.categories|
    modifies db
    ensures db.Valid()
    ensures ok <==> Validate(input, OtherSlugs(old(db.categories), old(db.categories[k].id))).Some?
    ensures !ok ==> db.categories == old(db.categories)
    ensures ok ==>
              var f := Validate(input, OtherSlugs(old(db.categories), old(db.categories[k].id))).value;
              && db.categories == old(db.categories)[k := ApplyUpdate(old(db.categories[k]), f)]
              && db.categories[k].isActive == (input.isActive == Text("true"))
              && (input.slug.Some? ==> db.categories[k].slug !in OtherSlugs(old(db.categories), old(db.categories[k].id)))
    ensures db.announcements == old(db.announcements) && db.views == old(db.views) && db.likes == old(db.likes)
    ensures db.nextAnnouncementId == old(db.nextAnnouncementId) && db.nextCategoryId == old(db.nextCategoryId)
  {
    var validated := Validate(input, OtherSlugs(db.categories, db.categories[k].id));
    if validated.None? {
      return false;
    }
    var f := validated.value.(isActive := Some(ControllerIsActive(Flag(PreparedIsActive(input.isActive)))));
    assert f == validated.value;
    var updated := ApplyUpdate(db.categories[k], f);
    db.categories := db.categories[k := updated];
    ok := true;
  }

  /** `destroy`: refused while the category still has (non-trashed) announcements; otherwise
      the row is deleted, and trashed announcements lose their category through the foreign
      key. */
  method Destroy(db: Database, k: nat) returns (deleted: bool)
    requires db.Valid() && k < |db.categories|
    modifies db
    ensures db.Valid()
    ensures deleted <==> CountInCategory(old(db.announcements), old(db.categories[k].id)) == 0
    ensures !deleted ==> db.categories == old(db.categories) && db.announcements == old(db.announcements)
    ensures deleted ==> db.categories == old(db.categories[..k] + db.categories[k + 1..])
    ensures deleted ==> forall a :: a in db.announcements ==> a.categoryId != Some(old(db.categories[k].id))
    ensures |db.announcements| == |old(db.announcements)|
    ensures forall i :: 0 <= i < |db.announcements| ==>
              db.announcements[i] == old(db.announcements[i]) || old(db.announcements[i].deleted)
    ensures db.views == old(db.views) && db.likes == old(db.likes)
    ensures db.nextAnnouncementId == old(db.nextAnnouncementId) && db.nextCategoryId == old(db.nextCategoryId)
  {
    if CountInCategory(db.announcements, db.categories[k].id) > 0 {
      return false;
    }
    ghost var id := db.categories[k].id;
    ghost var before := db.announcements;
    EmptyCategoryHasOnlyTrashed(before, id);
    DeleteCategoryRow(db, k);
    deleted := true;
  }

  /** No live announcement of a category whose count is zero. */
  lemma {:induction false} EmptyCategoryHasOnlyTrashed(rows: seq<Announcement>, id: int)
    requires CountInCategory(rows, id) == 0
    ensures forall i :: 0 <= i < |rows| && rows[i].categoryId == Some(id) ==> rows[i].deleted
  {
    if rows != [] {
      EmptyCategoryHasOnlyTrashed(rows[1..], id);
      assert forall i :: 1 <= i < |rows| ==> rows[i] == rows[1..][i - 1];
    }
  }

  /** The rows after the positions of the ids in `done` have been written. */
  function PositionsApplied(rows: seq<Category>, positions: map<int, int>, done: set<int>): (r: seq<Category>)
    ensures |r| == |rows|
  {
    seq(|rows|, i requires 0 <= i < |rows| =>
      if rows[i].id in done && rows[i].id in positions then rows[i].(position := positions[rows[i].id]) else rows[i])
  }

  lemma RepositionStep(rows: seq<Category>, positions: map<int, int>, done: set<int>, id: int)
    requires id in positions
    ensures Reposition(PositionsApplied(rows, positions, done), id, positions[id])
            == PositionsApplied(rows, positions, done + {id})
  {
  }

  lemma RepositionKeepsIds(rows: seq<Category>, id: int, p: int, bound: int)
    requires forall c | c in rows :: c.id < bound
    ensures forall c | c in Reposition(rows, id, p) :: c.id < bound
  {
    var r := Reposition(rows, id, p);
    forall c | c in r ensures c.id < bound {
      var i :| 0 <= i < |r| && r[i] == c;
      assert c.id == rows[i].id;
    }
  }

  /** `updatePositions`: each listed id gets its position; every other row keeps its own. */
  method UpdatePositions(db: Database, positions: map<int, int>)
    requires db.Valid()
    modifies db
    ensures db.Valid()
    ensures db.categories == PositionsApplied(old(db.categories), positions, positions.Keys)
    ensures db.announcements == old(db.announcements) && db.views == old(db.views) && db.likes == old(db.likes)
    ensures db.nextAnnouncementId == old(db.nextAnnouncementId) && db.nextCategoryId == old(db.nextCategoryId)
  {
    var remaining := positions.Keys;
    while remaining != {}
      invariant remaining <= positions.Keys
      invariant db.Valid()
      invariant db.categories == PositionsApplied(old(db.categories), positions, positions.Keys - remaining)
      invariant db.announcements == old(db.announcements) && db.views == old(db.views) && db.likes == old(db.likes)
      invariant db.nextAnnouncementId == old(db.nextAnnouncementId) && db.nextCategoryId == old(db.nextCategoryId)
      decreases remaining
    {
      ghost var some := NonEmptyHasMember(remaining);
      var id :| id in remaining;
      RepositionStep(old(db.categories), positions, positions.Keys - remaining, id);
      RepositionKeepsIds(db.categories, id, positions[id], db.nextCategoryId);
      db.categories := Reposition(db.categories, id, positions[id]);
      remaining := remaining - {id};
      assert positions.Keys - remaining == (positions.Keys - (remaining + {id})) + {id};
    }
  }
}

=== FILE: categories_api.dfy ===
/** The REST `CategoryApiController`: store with slug and colour defaults, partial update,
    and the delete that first detaches the category's announcements. */
module ApiCategories {
  import opened Support
  import opened Schema
  import opened Slugs
  import opened CategoryModel

  /** The colour `store` fills in; the model's own default is the same colour in lower case. */
  const ApiDefaultColor: string := "#3B82F6"

  /** The JSON body of `store`. */
  datatype StoreBody = StoreBody(
    name: Option<string>,
    slug: Option<string>,
    description: Option<string>,
    color: Option<string>,
    icon: Option<string>,
    position: Option<int>)

  /** The `store` rules: `name` required and at most 255 characters; `slug` at most 255 and
      unused (no format rule here, unlike the form request); `color` `#` and six hex digits;
      `icon` at most 50; `position` at least 0. */
  predicate StoreAccepted(b: StoreBody, slugs: set<string>)
  {
    && b.name.Some? && |b.name.value| <= 255
    && (b.slug.Some? ==> |b.slug.value| <= 255 && b.slug.value !in slugs)
    && (b.color.Some? ==> IsHexColour(b.color.value))
    && (b.icon.Some? ==> |b.icon.value| <= 50)
    && (b.position.Some? ==> b.position.value >= 0)
  }

  /** The slug `store` hands to `create`: the given one, or `Str::slug(name)`. */
  function StoreBaseSlug(b: StoreBody, slugify: string -> string): (s: string)
    requires b.name.Some?
    ensures Filled(b.slug) ==> s == b.slug.value
    ensures !Filled(b.slug) ==> s == slugify(b.name.value)
  {
    if Filled(b.slug) then b.slug.value else slugify(b.name.value)
  }

  /** `store`: a rejected body changes nothing (422); otherwise the category is created with
      the slug filled from the name, an empty colour replaced by `#3B82F6`, and `is_active`
      left to its default. */
  method Store(db: Database, b: StoreBody, slugify: string -> string) returns (r: Option<Category>)
    requires db.Valid()
    modifies db
    ensures db.Valid()
    ensures r.Some? <==> StoreAccepted(b, CategorySlugs(old(db.categories)))
    ensures r.None? ==> db.categories == old(db.categories) && db.nextCategoryId == old(db.nextCategoryId)
    ensures r.Some? ==>
              && b.name.Some?
              && r.value.name == b.name.value
              && r.value.color == (if Filled(b.color) then b.color.value else ApiDefaultColor)
              && IsHexColour(r.value.color)
              && r.value.isActive == DefaultIsActive
              && r.value.position == OrDefault(b.position, DefaultPosition)
              && r.value.slug !in CategorySlugs(old(db.categories))
              && (exists n: nat :: r.value.slug == Candidate(StoreBaseSlug(b, slugify), n))
              && db.categories == old(db.categories) + [r.value]
    ensures db.announcements == old(db.announcements) && db.views == old(db.views) && db.likes == old(db.likes)
    ensures db.nextAnnouncementId == old(db.nextAnnouncementId)
  {
    if !StoreAccepted(b, CategorySlugs(db.categories)) {
      return None;
    }
    var slug := if Filled(b.slug) then b.slug else Some(slugify(b.name.value));
    var color := if Filled(b.color) then b.color else Some(ApiDefaultColor);
    var f := CategoryFields(b.name.value, slug, b.description, color, b.icon, b.position, None);
    assert BaseSlug(f, slugify) == StoreBaseSlug(b, slugify);
    var c := Create(db, f, slugify);
    r := Some(c);
  }

  /** The JSON body of `update`: every key optional (`sometimes`); `description` and `icon`
      may be sent as null to clear them. The middleware turns an empty string into null,
      which the `string` rule of `name` and `slug` refuses, so an empty name or slug is
      rejected. */
  datatype UpdateBody = UpdateBody(
    name: Patch<string>,
    slug: Patch<string>,
    description: Patch<Option<string>>,
    color: Patch<string>,
    icon: Patch<Option<string>>,
    position: Patch<int>)

  /** The `update` rules; the slug must be unused by every other category. */
  predicate UpdateAccepted(b: UpdateBody, otherSlugs: set<string>)
  {
    && (b.name.Put? ==> b.name.value != "" && |b.name.value| <= 255)
    && (b.slug.Put? ==> b.slug.value != "" && |b.slug.value| <= 255 && b.slug.value !in otherSlugs)
    && (b.color.Put? ==> IsHexColour(b.color.value))
    && (b.icon.Put? && b.icon.value.Some? ==> |b.icon.value.value| <= 50)
    && (b.position.Put? ==> b.position.value >= 0)
  }

  /** `$category->update($validated)`: the keys present are written, every other column keeps
      its value. */
  function ApplyPatch(c: Category, b: UpdateBody): (r: Category)
    ensures r.id == c.id && r.isActive == c.isActive
    ensures b == UpdateBody(Keep, Keep, Keep, Keep, Keep, Keep) ==> r == c
    ensures b.name.Keep? ==> r.name == c.name
    ensures b.slug.Keep? ==> r.slug == c.slug
    ensures b.description.Keep? ==> r.description == c.description
    ensures b.color.Keep? ==> r.color == c.color
    ensures b.icon.Keep? ==> r.icon == c.icon
    ensures b.position.Keep? ==> r.position == c.position
  {
    c.(name := Patched(b.name, c.name), slug := Patched(b.slug, c.slug),
       description := Patched(b.description, c.description), color := Patched(b.color, c.color),
       icon := Patched(b.icon, c.icon), position := Patched(b.position, c.position))
  }

  /** Writing a body and then the same body again leaves the row as after the first. */
  lemma ApplyPatchIdempotent(c: Category, b: UpdateBody)
    ensures ApplyPatch(ApplyPatch(c, b), b) == ApplyPatch(c, b)
  {
  }

  /** `update`: a rejected body changes nothing; otherwise only row `k` changes, by
      `ApplyPatch`. */
  method Update(db: Database, k: nat, b: UpdateBody) returns (ok: bool)
    requires db.Valid() && k < |db.categories|
    modifies db
    ensures db.Valid()
    ensures ok <==> UpdateAccepted(b, OtherSlugs(old(db.categories), old(db.categories[k].id)))
    ensures db.categories == if ok then old(db.categories)[k := ApplyPatch(old(db.categories[k]), b)] else old(db.categories)
    ensures db.announcements == old(db.announcements) && db.views == old(db.views) && db.likes == old(db.likes)
    ensures db.nextAnnouncementId == old(db.nextAnnouncementId) && db.nextCategoryId == old(db.nextCategoryId)
  {
    ok := UpdateAccepted(b, OtherSlugs(db.categories, db.categories[k].id));
    if ok {
      db.categories := db.categories[k := ApplyPatch(db.categories[k], b)];
    }
  }

  /** `$category->announcements()->update(['category_id' => null])`: the relation runs under
      the default scope, so only non-trashed rows are written. */
  function DetachLive(rows: seq<Announcement>, id: int): (r: seq<Announcement>)
    ensures |r| == |rows|
    ensures forall i :: 0 <= i < |r| ==>
              r[i] == (if !rows[i].deleted && rows[i].categoryId == Some(id) then rows[i].(categoryId := None) else rows[i])
  {
    seq(|rows|, i requires 0 <= i < |rows| =>
      if !rows[i].deleted && rows[i].categoryId == Some(id) then rows[i].(categoryId := None) else rows[i])
  }

  /** `destroy`: no announcement is removed, none keeps the category, every other field of
      every announcement is unchanged, and the category row is gone. */
  method Destroy(db: Database, k: nat)
    requires db.Valid() && k < |db.categories|
    modifies db
    ensures db.Valid()
    ensures db.categories == old(db.categories[..k] + db.categories[k + 1..])
    ensures |db.announcements| == |old(db.announcements)|
    ensures forall i :: 0 <= i < |db.announcements| ==>
              db.announcements[i] == (if old(db.announcements[i].categoryId) == Some(old(db.categories[k].id))
                                      then old(db.announcements[i]).(categoryId := None)
                                      else old(db.announcements[i]))
    ensures forall a :: a in db.announcements ==> a.categoryId != Some(old(db.categories[k].id))
    ensures db.views == old(db.views) && db.likes == old(db.likes)
    ensures db.nextAnnouncementId == old(db.nextAnnouncementId) && db.nextCategoryId == old(db.nextCategoryId)
  {
    db.announcements := DetachLive(db.announcements, db.categories[k].id);
    DeleteCategoryRow(db, k);
  }
}

=== FILE: category_model.dfy ===
/** `AnnouncementCategory`: the column defaults, the `creating` hook that makes slugs unique,
    the published count, the two scopes, and what the `category_id` foreign key does when a
    category row is deleted. */
module CategoryModel {
  import opened Support
  import opened Schema
  import opened Slugs
  import Sorting
  import AnnouncementModel

  /** `$attributes`, which match the column defaults of the table. */
  const DefaultColor: string := "#3b82f6"
  const DefaultPosition: int := 0
  const DefaultIsActive: bool := true

  /** The attributes handed to `create`; `None` is an attribute the caller did not set. */
  datatype CategoryFields = CategoryFields(
    name: string,
    slug: Option<string>,
    description: Option<string>,
    color: Option<string>,
    icon: Option<string>,
    position: Option<int>,
    isActive: Option<bool>)

  /** The slug the hook starts from: the given one, or `Str::slug(name)` when it is empty. */
  function BaseSlug(f: CategoryFields, slugify: string -> string): string
  {
    if Filled(f.slug) then f.slug.value else slugify(f.name)
  }

  /** The row inserted for `f` under `id` and `slug`: the attributes not set take their defaults. */
  function NewCategory(f: CategoryFields, id: int, slug: string): Category
  {
    Category(id, f.name, slug, f.description, OrDefault(f.color, DefaultColor), f.icon,
             OrDefault(f.position, DefaultPosition), OrDefault(f.isActive, DefaultIsActive))
  }

  /** `AnnouncementCategory::create` with the `creating` hook: unset attributes take their
      defaults, and the slug is made unique against every stored category by the `-1`, `-2`,
      ... loop. */
  method Create(db: Database, f: CategoryFields, slugify: string -> string) returns (created: Category)
    requires db.Valid()
    modifies db
    ensures db.Valid()
    ensures created.id == old(db.nextCategoryId) && created.name == f.name
    ensures created.description == f.description && created.icon == f.icon
    ensures created.color == OrDefault(f.color, DefaultColor)
    ensures created.position == OrDefault(f.position, DefaultPosition)
    ensures created.isActive == OrDefault(f.isActive, DefaultIsActive)
    ensures created.slug !in CategorySlugs(old(db.categories))
    ensures exists n: nat :: created.slug == Candidate(BaseSlug(f, slugify), n)
              && forall k :: 0 <= k < n ==> Candidate(BaseSlug(f, slugify), k) in CategorySlugs(old(db.categories))
    ensures db.categories == old(db.categories) + [created]
    ensures db.nextCategoryId == old(db.nextCategoryId) + 1
    ensures db.announcements == old(db.announcements) && db.views == old(db.views) && db.likes == old(db.likes)
    ensures db.nextAnnouncementId == old(db.nextAnnouncementId)
  {
    var slug, attempts := UniqueSlug(CategorySlugs(db.categories), BaseSlug(f, slugify));
    created := NewCategory(f, db.nextCategoryId, slug);
    db.categories := db.categories + [created];
    db.nextCategoryId := db.nextCategoryId + 1;
  }

  /** The slugs of every category but `id`: what `unique(...)->ignore(id)` checks against. */
  function OtherSlugs(rows: seq<Category>, id: int): (r: set<string>)
    ensures r <= CategorySlugs(rows)
  {
    set c | c in rows && c.id != id :: c.slug
  }

  /** `where('id', id)->update(['position' => p])`. */
  function Reposition(rows: seq<Category>, id: int, p: int): (r: seq<Category>)
    ensures |r| == |rows|
    ensures forall i :: 0 <= i < |r| ==> r[i] == (if rows[i].id == id then rows[i].(position := p) else rows[i])
  {
    seq(|rows|, i requires 0 <= i < |rows| => if rows[i].id == id then rows[i].(position := p) else rows[i])
  }

  /** `where('slug', slug)->first()`: the first category in table order with that slug. */
  function FindBySlug(rows: seq<Category>, slug: string): (r: Option<Category>)
    ensures r.Some? ==> r.value in rows && r.value.slug == slug
    ensures r.None? <==> slug !in CategorySlugs(rows)
    decreases |rows|
  {
    if rows == [] then None
    else if rows[0].slug == slug then Some(rows[0])
    else
      var r := FindBySlug(rows[1..], slug);
      assert forall c :: c in rows <==> c == rows[0] || c in rows[1..];
      r
  }

  // ---------------------------------------------------------------- published count

  /** `announcements()->count()`: the category's announcements, trashed ones excluded by the
      default scope. */
  function CountInCategory(rows: seq<Announcement>, categoryId: int): (n: nat)
    ensures n <= |rows|
  {
    if rows == [] then 0
    else (if !rows[0].deleted && rows[0].categoryId == Some(categoryId) then 1 else 0)
         + CountInCategory(rows[1..], categoryId)
  }

  /** `published_count`: the category's announcements (trashed ones excluded by the default
      scope) with status published and a date not after `now`. */
  function PublishedCount(rows: seq<Announcement>, categoryId: int, now: int): (n: nat)
    ensures n <= CountInCategory(rows, categoryId)
  {
    if rows == [] then 0
    else
      var a := rows[0];
      (if !a.deleted && a.categoryId == Some(categoryId) && a.status == Published
          && a.publishedAt.Some? && a.publishedAt.value <= now then 1 else 0)
      + PublishedCount(rows[1..], categoryId, now)
  }

  /** The count is the length of the published scope restricted to the category. */
  lemma {:induction false} PublishedCountIsScope(rows: seq<Announcement>, categoryId: int, now: int)
    ensures PublishedCount(rows, categoryId, now)
            == |AnnouncementModel.InCategory(AnnouncementModel.PublishedScope(rows, now), categoryId)|
  {
    if rows != [] {
      PublishedCountIsScope(rows[1..], categoryId, now);
    }
  }

  // ---------------------------------------------------------------- scopes

  /** `scopeActive`: exactly the active categories, in table order. */
  function ActiveScope(rows: seq<Category>): (r: seq<Category>)
    ensures forall c :: c in r <==> c in rows && c.isActive
    ensures |r| <= |rows|
    decreases |rows|
  {
    if rows == [] then []
    else
      var rest := ActiveScope(rows[1..]);
      assert forall c :: c in rows <==> c == rows[0] || c in rows[1..];
      if rows[0].isActive then [rows[0]] + rest else rest
  }

  /** `orderBy('position', 'asc')->orderBy('name', 'asc')`. */
  predicate CategoryPrecedes(a: Category, b: Category)
  {
    a.position < b.position || (a.position == b.position && Sorting.LexLe(a.name, b.name))
  }

  function CategoryLe(): (Category, Category) -> bool
  {
    (a: Category, b: Category) => CategoryPrecedes(a, b)
  }

  /** `scopeOrdered`: position ascending, then name ascending, as a permutation of the
      input. */
  function OrderedCategories(rows: seq<Category>): (r: seq<Category>)
    ensures forall i, j :: 0 <= i < j < |r| ==> CategoryPrecedes(r[i], r[j])
    ensures multiset(r) == multiset(rows)
  {
    var le := CategoryLe();
    assert Sorting.IsTotalPreorder(le) by {
      forall a, b ensures le(a, b) || le(b, a) { Sorting.LexLeTotal(a.name, b.name); }
      forall a, b, c | le(a, b) && le(b, c) ensures le(a, c) {
        if a.position == b.position == c.position {
          Sorting.LexLeTransitive(a.name, b.name, c.name);
        }
      }
    }
    Sorting.SortBy(rows, le)
  }

  // ---------------------------------------------------------------- deletion

  /** Deleting the row at `k`: `category_id` is `nullOnDelete`, so every announcement that
      pointed at it, trashed or not, is left without a category. Nothing else changes. */
  method DeleteCategoryRow(db: Database, k: nat)
    requires db.Valid() && k < |db.categories|
    modifies db
    ensures db.Valid()
    ensures db.categories == old(db.categories[..k] + db.categories[k + 1..])
    ensures |db.announcements| == |old(db.announcements)|
    ensures forall i :: 0 <= i < |db.announcements| ==>
              db.announcements[i] == (if old(db.announcements[i].categoryId) == Some(old(db.categories[k].id))
                                      then old(db.announcements[i]).(categoryId := None)
                                      else old(db.announcements[i]))
    ensures db.views == old(db.views) && db.likes == old(db.likes)
    ensures db.nextAnnouncementId == old(db.nextAnnouncementId) && db.nextCategoryId == old(db.nextCategoryId)
  {
    var id := db.categories[k].id;
    var rows := db.announcements;
    db.announcements := seq(|rows|, i requires 0 <= i < |rows| =>
      if rows[i].categoryId == Some(id) then rows[i].(categoryId := None) else rows[i]);
    db.categories := db.categories[..k] + db.categories[k + 1..];
  }
}

=== FILE: category_request.dfy ===
/** `CategoryRequest`, the form request of the admin category screens: the `is_active`
    normalisation of `prepareForValidation` and the validation rules. The admin form submits
    every field, so every key is present; values arrive after the framework's middleware, so
    an emptied field is already `None`, the null the validated array then carries. */
module CategoryRequest {
  import opened Support
  import opened Slugs
  import CategoryModel

  /** A raw request value for a flag: absent, a string, or a JSON boolean. */
  datatype RawFlag = Absent | Text(text: string) | Flag(flag: bool)

  /** `prepareForValidation`: `is_active` is replaced by a boolean, true only when the key is
      present and holds the string `'true'`. */
  function PreparedIsActive(raw: RawFlag): (b: bool)
    ensures b <==> raw == Text("true")
    ensures raw == Flag(true) ==> !b
  {
    match raw
    case Text(t) => t == "true"
    case _ => false
  }

  /** The request's fields. `position` is an integer already; text that is not one is a
      validation failure this model does not represent. */
  datatype CategoryInput = CategoryInput(
    name: Option<string>,
    slug: Option<string>,
    description: Option<string>,
    color: Option<string>,
    icon: Option<string>,
    position: Option<int>,
    isActive: RawFlag)

  const NameMax: nat := 255
  const SlugMax: nat := 255
  const DescriptionMax: nat := 500
  const IconMax: nat := 50

  predicate MaxLength(s: Option<string>, max: nat)
  {
    s.None? || |s.value| <= max
  }

  /** `slug`: nullable, at most 255 characters, the pattern `^[a-z0-9]+(?:-[a-z0-9]+)*$`, and
      unused by every other category. */
  predicate SlugRule(slug: Option<string>, otherSlugs: set<string>)
  {
    slug.None? || (MaxLength(slug, SlugMax) && MatchesSlugPattern(slug.value) && slug.value !in otherSlugs)
  }

  /** The pattern half of the rule, stated structurally. */
  lemma SlugRuleStructure(slug: Option<string>, otherSlugs: set<string>)
    ensures SlugRule(slug, otherSlugs) <==>
              (slug.Some? ==> |slug.value| <= SlugMax && IsWellFormedSlug(slug.value) && slug.value !in otherSlugs)
  {
    if slug.Some? {
      SlugPatternIff(slug.value);
    }
  }

  /** `rules()` applied to the prepared input: the validated attributes, or `None` for a
      rejected request. `otherSlugs` are the slugs of every category except the one being
      edited (`Rule::unique(...)->ignore($categoryId)`). Accepted slugs are the hyphen-joined
      lower-case alphanumeric runs, and accepted colours are `#` and six hex digits. */
  function Validate(input: CategoryInput, otherSlugs: set<string>): (r: Option<CategoryModel.CategoryFields>)
    ensures r.Some? <==>
              && input.name.Some? && |input.name.value| <= NameMax
              && (input.slug.Some? ==> |input.slug.value| <= SlugMax && IsWellFormedSlug(input.slug.value)
                                        && input.slug.value !in otherSlugs)
              && (input.description.Some? ==> |input.description.value| <= DescriptionMax)
              && (input.color.Some? ==> IsHexColour(input.color.value))
              && (input.icon.Some? ==> |input.icon.value| <= IconMax)
              && (input.position.Some? ==> input.position.value >= 0)
    ensures r.Some? ==> r.value == CategoryModel.CategoryFields(
              input.name.value, input.slug, input.description, input.color, input.icon,
              input.position, Some(input.isActive == Text("true")))
  {
    SlugRuleStructure(input.slug, otherSlugs);
    if && input.name.Some? && MaxLength(input.name, NameMax)
       && SlugRule(input.slug, otherSlugs)
       && MaxLength(input.description, DescriptionMax)
       && (input.color.None? || IsHexColour(input.color.value))
       && MaxLength(input.icon, IconMax)
       && (input.position.None? || input.position.value >= 0)
    then
      Some(CategoryModel.CategoryFields(
        input.name.value, input.slug, input.description, input.color, input.icon,
        input.position, Some(PreparedIsActive(input.isActive))))
    else
      None
  }
}

=== FILE: engagement.dfy ===
/** The engagement recorder of the announcement model: `recordView`, which inserts a view row
    unless the same visitor already viewed inside a rolling window, and `toggleLike` /
    `hasLiked`, which keep a like table and the denormalised `likes_count` counter. */
module Engagement {
  import opened Support
  import opened Schema

  /** Default of the `announcements_view_window` setting, in minutes. */
  const DefaultViewWindow: int := 30

  /** `announcement_views.referer` is a `string` column: VARCHAR(255). */
  const RefererColumnWidth: nat := 255

  /** Who a view or like belongs to: the user id when one is given, else the IP digest
      (which may be null, and then matches rows with a null digest, as `where(col, null)`
      becomes `whereNull`). */
  datatype Identity = ByUser(user: UserId) | ByIp(ipHash: Option<Digest>)

  function IdentityOf(userId: Option<UserId>, ip: Option<string>): Identity
  {
    if userId.Some? then ByUser(userId.value) else ByIp(HashOf(ip))
  }

  predicate ViewMatches(v: ViewRow, id: int, who: Identity)
  {
    v.announcementId == id &&
    match who
    case ByUser(u) => v.userId == Some(u)
    case ByIp(h) => v.ipHash == h
  }

  predicate LikeMatches(l: LikeRow, id: int, who: Identity)
  {
    l.announcementId == id &&
    match who
    case ByUser(u) => l.userId == Some(u)
    case ByIp(h) => l.ipHash == h
  }

  // ---------------------------------------------------------------- views

  /** The `exists()` query: a view of this announcement by this identity at or after `since`. */
  predicate HasRecentView(views: seq<ViewRow>, id: int, who: Identity, since: int)
  {
    exists k :: 0 <= k < |views| && ViewMatches(views[k], id, who) && views[k].viewedAt >= since
  }

  /** The referer cell as written: `Str::limit($referer, 255)`, which appends "..." to a cut
      string and so can be three characters wider than the column. */
  function RefererAsWritten(referer: Option<string>): Option<string>
  {
    if Filled(referer) then Some(StrLimit(referer.value, RefererColumnWidth)) else None
  }

  /** A 256-character referer produces a 258-character cell for a 255-character column. */
  lemma RefererOverflowsAsWritten()
    ensures var r := seq(256, _ => 'a');
            RefererAsWritten(Some(r)).Some? && |RefererAsWritten(Some(r)).value| == 258
  {
    var r := seq(256, _ => 'a');
    var cut := r[..RefererColumnWidth];
    assert !IsTrimChar(cut[|cut| - 1]);
    assert RTrim(cut) == cut;
  }

  /** The referer cell as intended: absent (null, "" or "0") gives null, anything else is
      kept and cut to the column width. */
  function RefererColumnValue(referer: Option<string>): (r: Option<string>)
    ensures r.Some? <==> Filled(referer)
    ensures r.Some? ==> |r.value| <= RefererColumnWidth && |r.value| <= |referer.value|
    ensures r.Some? ==> r.value == referer.value[..|r.value|]
    ensures r.Some? && |referer.value| <= RefererColumnWidth ==> r == referer
  {
    if !Filled(referer) then None
    else if |referer.value| <= RefererColumnWidth then referer
    else Some(referer.value[..RefererColumnWidth])
  }

  /** The row `recordView` inserts: digests of the IP and user agent, never the raw text. */
  function NewView(id: int, userId: Option<UserId>, ip: Option<string>, userAgent: Option<string>,
                   referer: Option<string>, now: int): (v: ViewRow)
    ensures ViewMatches(v, id, IdentityOf(userId, ip))
    ensures v.ipHash == HashOf(ip) && v.userAgentHash == HashOf(userAgent)
    ensures v.referer == RefererColumnValue(referer) && v.viewedAt == now
  {
    ViewRow(id, userId, HashOf(ip), HashOf(userAgent), RefererColumnValue(referer), now)
  }

  /** The views table after one `recordView` call at time `now`. */
  function ViewsAfter(views: seq<ViewRow>, id: int, userId: Option<UserId>, ip: Option<string>,
                      userAgent: Option<string>, referer: Option<string>, now: int, window: int): seq<ViewRow>
  {
    if HasRecentView(views, id, IdentityOf(userId, ip), now - window) then views
    else views + [NewView(id, userId, ip, userAgent, referer, now)]
  }

  /** Number of view rows of announcement `id`. */
  function CountViews(views: seq<ViewRow>, id: int): nat
  {
    if views == [] then 0
    else CountViews(views[..|views| - 1], id) + (if views[|views| - 1].announcementId == id then 1 else 0)
  }

  /** One call adds one row for this announcement exactly when no recent view by the same
      identity exists (the window's lower end is inclusive), and none otherwise. */
  lemma ViewRecordedUnlessRecent(views: seq<ViewRow>, id: int, userId: Option<UserId>, ip: Option<string>,
                                 userAgent: Option<string>, referer: Option<string>, now: int, window: int)
    ensures var after := ViewsAfter(views, id, userId, ip, userAgent, referer, now, window);
            CountViews(after, id) == CountViews(views, id) +
              (if HasRecentView(views, id, IdentityOf(userId, ip), now - window) then 0 else 1)
  {
    var after := ViewsAfter(views, id, userId, ip, userAgent, referer, now, window);
    if !HasRecentView(views, id, IdentityOf(userId, ip), now - window) {
      assert after[..|after| - 1] == views;
    }
  }

  /** The views table after a run of calls by the same visitor at the given times. */
  function ViewRun(views: seq<ViewRow>, id: int, userId: Option<UserId>, ip: Option<string>,
                   userAgent: Option<string>, referer: Option<string>, times: seq<int>, window: int): seq<ViewRow>
    decreases |times|
  {
    if times == [] then views
    else ViewRun(ViewsAfter(views, id, userId, ip, userAgent, referer, times[0], window),
                 id, userId, ip, userAgent, referer, times[1..], window)
  }

  /** Once a matching view at time `t` is stored, every call within `window` minutes after
      it is suppressed. */
  lemma {:induction false} RunSuppressed(views: seq<ViewRow>, id: int, userId: Option<UserId>, ip: Option<string>,
                                         userAgent: Option<string>, referer: Option<string>, times: seq<int>,
                                         window: int, k: nat)
    requires k < |views| && ViewMatches(views[k], id, IdentityOf(userId, ip))
    requires forall i :: 0 <= i < |times| ==> views[k].viewedAt <= times[i] <= views[k].viewedAt + window
    ensures ViewRun(views, id, userId, ip, userAgent, referer, times, window) == views
    decreases |times|
  {
    if times != [] {
      assert HasRecentView(views, id, IdentityOf(userId, ip), times[0] - window);
      RunSuppressed(views, id, userId, ip, userAgent, referer, times[1..], window, k);
    }
  }

  /** At most once per window: any number of calls by one visitor, in time order, all within
      `window` minutes of the first, add at most one view row. */
  lemma {:induction false} ViewsInOneWindowCountOnce(views: seq<ViewRow>, id: int, userId: Option<UserId>,
                                                      ip: Option<string>, userAgent: Option<string>,
                                                      referer: Option<string>, times: seq<int>, window: int)
    requires forall i, j :: 0 <= i < j < |times| ==> times[i] <= times[j]
    requires forall i :: 0 <= i < |times| ==> times[i] <= times[0] + window
    ensures |ViewRun(views, id, userId, ip, userAgent, referer, times, window)| <= |views| + 1
    decreases |times|
  {
    if times != [] {
      var once := ViewsAfter(views, id, userId, ip, userAgent, referer, times[0], window);
      if once == views {
        ViewsInOneWindowCountOnce(views, id, userId, ip, userAgent, referer, times[1..], window);
      } else {
        var k := |views|;
        assert once[k] == NewView(id, userId, ip, userAgent, referer, times[0]);
        RunSuppressed(once, id, userId, ip, userAgent, referer, times[1..], window, k);
      }
    }
  }

  /** `recordView` on the `k`-th announcement: the views table becomes `ViewsAfter`, and
      `views_count` grows by one exactly when a row was inserted. */
  method RecordView(db: Database, k: nat, userId: Option<UserId>, ip: Option<string>,
                    userAgent: Option<string>, referer: Option<string>, now: int, window: int)
    requires db.Valid() && k < |db.announcements|
    modifies db
    ensures db.Valid()
    ensures var id := old(db.announcements[k].id);
            db.views == ViewsAfter(old(db.views), id, userId, ip, userAgent, referer, now, window)
    ensures var a := old(db.announcements[k]);
            db.announcements == old(db.announcements)[k := a.(viewsCount := a.viewsCount + (|db.views| - |old(db.views)|))]
    ensures var id := old(db.announcements[k].id);
            old(db.announcements[k].viewsCount) == CountViews(old(db.views), id) ==>
              db.announcements[k].viewsCount == CountViews(db.views, id)
    ensures db.likes == old(db.likes) && db.categories == old(db.categories)
    ensures db.nextAnnouncementId == old(db.nextAnnouncementId) && db.nextCategoryId == old(db.nextCategoryId)
  {
    var a := db.announcements[k];
    ViewRecordedUnlessRecent(db.views, a.id, userId, ip, userAgent, referer, now, window);
    if !HasRecentView(db.views, a.id, IdentityOf(userId, ip), now - window) {
      db.views := db.views + [NewView(a.id, userId, ip, userAgent, referer, now)];
      db.announcements := db.announcements[k := a.(viewsCount := a.viewsCount + 1)];
    }
  }

  // ---------------------------------------------------------------- likes

  /** The `first()` query: the earliest like of this announcement by this identity. */
  function FirstLike(likes: seq<LikeRow>, id: int, who: Identity): (r: Option<nat>)
    ensures r.Some? ==> r.value < |likes| && LikeMatches(likes[r.value], id, who)
    ensures r.Some? ==> forall j :: 0 <= j < r.value ==> !LikeMatches(likes[j], id, who)
    ensures r.None? <==> forall j :: 0 <= j < |likes| ==> !LikeMatches(likes[j], id, who)
    decreases |likes|
  {
    if likes == [] then None
    else if LikeMatches(likes[0], id, who) then Some(0)
    else match FirstLike(likes[1..], id, who)
      case None => None
      case Some(j) => Some(j + 1)
  }

  /** `hasLiked`: some like of this announcement matches the identity. */
  function HasLiked(likes: seq<LikeRow>, id: int, userId: Option<UserId>, ip: Option<string>): (r: bool)
    ensures r <==> FirstLike(likes, id, IdentityOf(userId, ip)).Some?
  {
    exists j :: 0 <= j < |likes| && LikeMatches(likes[j], id, IdentityOf(userId, ip))
  }

  datatype Toggled = Toggled(likes: seq<LikeRow>, liked: bool)

  /** `toggleLike`: delete the first matching like and report false, or insert one and
      report true. */
  function ToggleLikes(likes: seq<LikeRow>, id: int, userId: Option<UserId>, ip: Option<string>,
                       cookieId: Option<string>, now: int): Toggled
  {
    match FirstLike(likes, id, IdentityOf(userId, ip))
    case Some(j) => Toggled(likes[..j] + likes[j + 1..], false)
    case None => Toggled(likes + [LikeRow(id, userId, HashOf(ip), cookieId, now)], true)
  }

  /** Number of like rows of announcement `id`. */
  function CountLikes(likes: seq<LikeRow>, id: int): nat
  {
    if likes == [] then 0
    else CountLikes(likes[..|likes| - 1], id) + (if likes[|likes| - 1].announcementId == id then 1 else 0)
  }

  lemma {:induction false} CountLikesAppend(a: seq<LikeRow>, b: seq<LikeRow>, id: int)
    ensures CountLikes(a + b, id) == CountLikes(a, id) + CountLikes(b, id)
    decreases |b|
  {
    if b == [] {
      assert a + b == a;
    } else {
      assert (a + b)[..|a + b| - 1] == a + b[..|b| - 1];
      CountLikesAppend(a, b[..|b| - 1], id);
    }
  }

  /** The toggle moves the number of like rows of the announcement by exactly one, in the
      direction of its result. */
  lemma LikeCountAfterToggle(likes: seq<LikeRow>, id: int, userId: Option<UserId>, ip: Option<string>,
                             cookieId: Option<string>, now: int)
    ensures var t := ToggleLikes(likes, id, userId, ip, cookieId, now);
            CountLikes(t.likes, id) == CountLikes(likes, id) + (if t.liked then 1 else -1)
  {
    match FirstLike(likes, id, IdentityOf(userId, ip))
    case Some(j) =>
      assert likes == likes[..j] + ([likes[j]] + likes[j + 1..]);
      CountLikesAppend(likes[..j], [likes[j]] + likes[j + 1..], id);
      CountLikesAppend([likes[j]], likes[j + 1..], id);
      CountLikesAppend(likes[..j], likes[j + 1..], id);
      assert [likes[j]][..0] == [];
    case None =>
      var row := LikeRow(id, userId, HashOf(ip), cookieId, now);
      assert (likes + [row])[..|likes|] == likes;
  }

  /** Two toggles from "not liked" restore the like table exactly. */
  lemma ToggleTwiceRestores(likes: seq<LikeRow>, id: int, userId: Option<UserId>, ip: Option<string>,
                            cookieId: Option<string>, now: int, later: int)
    requires !HasLiked(likes, id, userId, ip)
    ensures var first := ToggleLikes(likes, id, userId, ip, cookieId, now);
            var second := ToggleLikes(first.likes, id, userId, ip, cookieId, later);
            first.liked && !second.liked && second.likes == likes
  {
    var who := IdentityOf(userId, ip);
    var row := LikeRow(id, userId, HashOf(ip), cookieId, now);
    var once := likes + [row];
    assert LikeMatches(once[|likes|], id, who);
    assert forall j :: 0 <= j < |likes| ==> once[j] == likes[j];
    assert FirstLike(once, id, who) == Some(|likes|);
    assert once[..|likes|] + once[|likes| + 1..] == likes;
  }

  /** The like table holds at most one like per announcement and identity; for users the
      unique (announcement_id, user_id) index guarantees it. */
  predicate AtMostOneLike(likes: seq<LikeRow>, id: int, who: Identity)
  {
    forall i, j | 0 <= i < |likes| && 0 <= j < |likes| && LikeMatches(likes[i], id, who)
                  && LikeMatches(likes[j], id, who) :: i == j
  }

  /** The toggle keeps "at most one like", and then `hasLiked` right after it agrees with
      the value it returned. */
  lemma HasLikedAfterToggle(likes: seq<LikeRow>, id: int, userId: Option<UserId>, ip: Option<string>,
                            cookieId: Option<string>, now: int)
    requires AtMostOneLike(likes, id, IdentityOf(userId, ip))
    ensures var t := ToggleLikes(likes, id, userId, ip, cookieId, now);
            AtMostOneLike(t.likes, id, IdentityOf(userId, ip)) && HasLiked(t.likes, id, userId, ip) == t.liked
  {
    var who := IdentityOf(userId, ip);
    var t := ToggleLikes(likes, id, userId, ip, cookieId, now);
    match FirstLike(likes, id, who)
    case Some(j) =>
      forall i | 0 <= i < |t.likes| ensures !LikeMatches(t.likes[i], id, who) {
        if i < j { assert t.likes[i] == likes[i]; }
        else { assert t.likes[i] == likes[i + 1]; }
      }
    case None =>
      assert LikeMatches(t.likes[|likes|], id, who);
      assert forall j :: 0 <= j < |likes| ==> t.likes[j] == likes[j];
  }

  /** Two toggles from "liked once" give false then true and restore the announcement's
      like count (the new row carries the new cookie and time). */
  lemma ToggleTwiceFromLiked(likes: seq<LikeRow>, id: int, userId: Option<UserId>, ip: Option<string>,
                             cookieId: Option<string>, now: int, later: int)
    requires AtMostOneLike(likes, id, IdentityOf(userId, ip)) && HasLiked(likes, id, userId, ip)
    ensures var first := ToggleLikes(likes, id, userId, ip, cookieId, now);
            var second := ToggleLikes(first.likes, id, userId, ip, cookieId, later);
            !first.liked && second.liked && CountLikes(second.likes, id) == CountLikes(likes, id)
  {
    var first := ToggleLikes(likes, id, userId, ip, cookieId, now);
    HasLikedAfterToggle(likes, id, userId, ip, cookieId, now);
    LikeCountAfterToggle(likes, id, userId, ip, cookieId, now);
    LikeCountAfterToggle(first.likes, id, userId, ip, cookieId, later);
  }

  /** `toggleLike` on the `k`-th announcement: the like table becomes `ToggleLikes`, the
      counter moves by one in the direction of the result, and a counter that matched the
      number of like rows still does. */
  method ToggleLike(db: Database, k: nat, userId: Option<UserId>, ip: Option<string>,
                    cookieId: Option<string>, now: int) returns (liked: bool)
    requires db.Valid() && k < |db.announcements|
    modifies db
    ensures db.Valid()
    ensures var t := ToggleLikes(old(db.likes), old(db.announcements[k].id), userId, ip, cookieId, now);
            db.likes == t.likes && liked == t.liked
    ensures var a := old(db.announcements[k]);
            db.announcements == old(db.announcements)[k := a.(likesCount := a.likesCount + (if liked then 1 else -1))]
    ensures var id := old(db.announcements[k].id);
            old(db.announcements[k].likesCount) == CountLikes(old(db.likes), id) ==>
              db.announcements[k].likesCount == CountLikes(db.likes, id)
    ensures db.views == old(db.views) && db.categories == old(db.categories)
    ensures db.nextAnnouncementId == old(db.nextAnnouncementId) && db.nextCategoryId == old(db.nextCategoryId)
  {
    var a := db.announcements[k];
    LikeCountAfterToggle(db.likes, a.id, userId, ip, cookieId, now);
    var existing := FirstLike(db.likes, a.id, IdentityOf(userId, ip));
    if existing.Some? {
      var j := existing.value;
      db.likes := db.likes[..j] + db.likes[j + 1..];
      db.announcements := db.announcements[k := a.(likesCount := a.likesCount - 1)];
      return false;
    }
    db.likes := db.likes + [LikeRow(a.id, userId, HashOf(ip), cookieId, now)];
    db.announcements := db.announcements[k := a.(likesCount := a.likesCount + 1)];
    return true;
  }
}

=== FILE: front.dfy ===
/** The public `AnnouncementController`: the like endpoint with its policy checks and
    identity resolution, the detail page (visibility gate, one recorded view, related items,
    previous and next), and the AJAX search. */
module FrontController {
  import opened Support
  import opened Schema
  import opened AnnouncementModel
  import opened Engagement
  import CategoryModel

  /** `announcements_likes_mode`. */
  datatype LikesMode = AllVisitors | AuthenticatedOnly | IpOnly

  function LikesModeFromSetting(s: string): (m: LikesMode)
    ensures m == AuthenticatedOnly <==> s == "authenticated"
    ensures m == IpOnly <==> s == "ip"
  {
    if s == "authenticated" then AuthenticatedOnly
    else if s == "ip" then IpOnly
    else AllVisitors
  }

  /** The `(user id, ip)` pair handed to `toggleLike`. */
  datatype Requester = Requester(userId: Option<UserId>, ip: Option<string>)

  /** The identity rule of `toggleLike`: `authenticated` keeps only the user, `ip` only the address, and any other
      mode both. */
  function ResolveIdentity(mode: LikesMode, authId: Option<UserId>, ip: Option<string>): (r: Requester)
    ensures mode == AuthenticatedOnly ==> r.ip.None?
    ensures mode == IpOnly ==> r.userId.None?
    ensures mode != IpOnly ==> r.userId == authId
    ensures mode != AuthenticatedOnly ==> r.ip == ip
  {
    match mode
    case AuthenticatedOnly => Requester(authId, None)
    case IpOnly => Requester(None, ip)
    case AllVisitors => Requester(authId, ip)
  }

  /** Whom a like is matched against: the user in `authenticated` mode, the address digest in
      `ip` mode even for a signed-in visitor, and in `all` mode the user when signed in. */
  lemma ResolvedIdentityMatching(mode: LikesMode, authId: Option<UserId>, ip: Option<string>)
    ensures var r := ResolveIdentity(mode, authId, ip);
            && (mode == AuthenticatedOnly && authId.Some? ==> IdentityOf(r.userId, r.ip) == ByUser(authId.value))
            && (mode == IpOnly ==> IdentityOf(r.userId, r.ip) == ByIp(HashOf(ip)))
            && (mode == AllVisitors ==> IdentityOf(r.userId, r.ip) == IdentityOf(authId, ip))
  {
  }

  /** `where('slug', slug)->first()` under the default scope: the first live row. */
  function FindLive(rows: seq<Announcement>, slug: string): (r: Option<nat>)
    ensures r.Some? ==> r.value < |rows| && !rows[r.value].deleted && rows[r.value].slug == slug
    ensures r.Some? ==> forall j :: 0 <= j < r.value ==> rows[j].deleted || rows[j].slug != slug
    ensures r.None? <==> forall a :: a in rows ==> a.deleted || a.slug != slug
    decreases |rows|
  {
    if rows == [] then None
    else if !rows[0].deleted && rows[0].slug == slug then Some(0)
    else
      var rest := FindLive(rows[1..], slug);
      assert forall a :: a in rows <==> a == rows[0] || a in rows[1..];
      if rest.Some? then Some(rest.value + 1) else None
  }

  // ---------------------------------------------------------------- like endpoint

  datatype LikeResponse = LikesDisabled | LikeNotFound | AuthRequired | LikeToggled(liked: bool, likesCount: int)

  function LikeStatus(r: LikeResponse): (code: int)
    ensures code == 200 <==> r.LikeToggled?
  {
    match r
    case LikesDisabled => 403
    case LikeNotFound => 404
    case AuthRequired => 401
    case LikeToggled(_, _) => 200
  }

  /** `toggleLike`: refused when likes are disabled (403), when no live row has the slug
      (404), or when the mode is `authenticated` and the visitor is a guest (401), each time
      with no change. Otherwise the like table is toggled for the resolved identity, and the
      response carries the toggle's result and the counter after it. The row's status is not
      checked. */
  method ToggleLikeAction(db: Database, likesEnabled: bool, modeSetting: string, slug: string,
                          authId: Option<UserId>, ip: Option<string>, cookieId: Option<string>, now: int)
    returns (resp: LikeResponse)
    requires db.Valid()
    modifies db
    ensures db.Valid()
    ensures !likesEnabled ==> resp == LikesDisabled
    ensures likesEnabled && FindLive(old(db.announcements), slug).None? ==> resp == LikeNotFound
    ensures (likesEnabled && FindLive(old(db.announcements), slug).Some?
             && LikesModeFromSetting(modeSetting) == AuthenticatedOnly && authId.None?) ==> resp == AuthRequired
    ensures !resp.LikeToggled? ==> unchanged(db)
    ensures resp.LikeToggled? ==>
              && likesEnabled && FindLive(old(db.announcements), slug).Some?
              && var k := FindLive(old(db.announcements), slug).value;
                 var who := ResolveIdentity(LikesModeFromSetting(modeSetting), authId, ip);
                 var t := ToggleLikes(old(db.likes), old(db.announcements[k].id), who.userId, who.ip, cookieId, now);
                 && db.likes == t.likes && resp.liked == t.liked
                 && db.announcements == old(db.announcements)[k := old(db.announcements[k]).(
                      likesCount := old(db.announcements[k].likesCount) + (if t.liked then 1 else -1))]
                 && resp.likesCount == db.announcements[k].likesCount
    ensures db.views == old(db.views) && db.categories == old(db.categories)
    ensures db.nextAnnouncementId == old(db.nextAnnouncementId) && db.nextCategoryId == old(db.nextCategoryId)
  {
    if !likesEnabled {
      return LikesDisabled;
    }
    var found := FindLive(db.announcements, slug);
    if found.None? {
      return LikeNotFound;
    }
    var mode := LikesModeFromSetting(modeSetting);
    if mode == AuthenticatedOnly && authId.None? {
      return AuthRequired;
    }
    var k := found.value;
    var who := ResolveIdentity(mode, authId, ip);
    var liked := ToggleLike(db, k, who.userId, who.ip, cookieId, now);
    resp := LikeToggled(liked, db.announcements[k].likesCount);
  }

  // ---------------------------------------------------------------- previous and next

  predicate Dated(a: Announcement)
  {
    a.publishedAt.Some?
  }

  /** A live published row dated strictly before `t`. */
  predicate Earlier(a: Announcement, t: int, now: int)
  {
    !a.deleted && IsPublished(a, now) && a.publishedAt.value < t
  }

  predicate Later(a: Announcement, t: int, now: int)
  {
    !a.deleted && IsPublished(a, now) && a.publishedAt.value > t
  }

  /** `where('published_at', '<', t)->orderBy('published_at', 'desc')->first()`: the latest
      earlier row (the first in table order among equal dates). */
  function Previous(rows: seq<Announcement>, t: int, now: int): (r: Option<Announcement>)
    ensures r.Some? ==> r.value in rows && Earlier(r.value, t, now)
    ensures r.Some? ==> forall b :: b in rows && Earlier(b, t, now) ==> b.publishedAt.value <= r.value.publishedAt.value
    ensures r.None? <==> forall b :: b in rows ==> !Earlier(b, t, now)
    decreases |rows|
  {
    if rows == [] then None
    else
      var rest := Previous(rows[1..], t, now);
      assert forall b :: b in rows <==> b == rows[0] || b in rows[1..];
      if Earlier(rows[0], t, now) && (rest.None? || rest.value.publishedAt.value <= rows[0].publishedAt.value)
      then Some(rows[0])
      else rest
  }

  /** `where('published_at', '>', t)->orderBy('published_at', 'asc')->first()`: the earliest
      later row. */
  function Next(rows: seq<Announcement>, t: int, now: int): (r: Option<Announcement>)
    ensures r.Some? ==> r.value in rows && Later(r.value, t, now)
    ensures r.Some? ==> forall b :: b in rows && Later(b, t, now) ==> r.value.publishedAt.value <= b.publishedAt.value
    ensures r.None? <==> forall b :: b in rows ==> !Later(b, t, now)
    decreases |rows|
  {
    if rows == [] then None
    else
      var rest := Next(rows[1..], t, now);
      assert forall b :: b in rows <==> b == rows[0] || b in rows[1..];
      if Later(rows[0], t, now) && (rest.None? || rows[0].publishedAt.value <= rest.value.publishedAt.value)
      then Some(rows[0])
      else rest
  }

  datatype Neighbours = Neighbours(previous: Option<Announcement>, next: Option<Announcement>)

  /** The two queries as written. Comparing with a null `published_at` makes the query builder
      throw before any SQL runs (`None`): an administrator previewing an undated draft gets an
      error page, after the view has been recorded. */
  function NeighboursAsWritten(rows: seq<Announcement>, current: Announcement, now: int): (r: Option<Neighbours>)
    ensures r.None? <==> !Dated(current)
  {
    if !Dated(current) then None
    else Some(Neighbours(Previous(rows, current.publishedAt.value, now), Next(rows, current.publishedAt.value, now)))
  }

  /** The neighbours with an undated current row having neither. */
  function PageNeighbours(rows: seq<Announcement>, current: Announcement, now: int): (r: Neighbours)
    ensures !Dated(current) ==> r == Neighbours(None, None)
    ensures NeighboursAsWritten(rows, current, now).Some? ==> NeighboursAsWritten(rows, current, now).value == r
    ensures r.previous.Some? ==>
              (r.previous.value in rows && !r.previous.value.deleted && IsPublished(r.previous.value, now)
               && r.previous.value.publishedAt.value < current.publishedAt.value)
    ensures r.next.Some? ==>
              (r.next.value in rows && !r.next.value.deleted && IsPublished(r.next.value, now)
               && r.next.value.publishedAt.value > current.publishedAt.value)
  {
    if !Dated(current) then Neighbours(None, None)
    else Neighbours(Previous(rows, current.publishedAt.value, now), Next(rows, current.publishedAt.value, now))
  }

  /** An undated draft reached by an administrator: the queries as written fail. */
  lemma UndatedPreviewFailsAsWritten(rows: seq<Announcement>, current: Announcement, now: int)
    requires current.status == Draft && current.publishedAt.None?
    ensures !IsPublished(current, now)
    ensures NeighboursAsWritten(rows, current, now).None?
    ensures PageNeighbours(rows, current, now) == Neighbours(None, None)
  {
  }

  /** No published row lies strictly between the current one and its previous, nor between it
      and its next. */
  lemma NeighboursAdjacent(rows: seq<Announcement>, current: Announcement, now: int, b: Announcement)
    requires Dated(current) && b in rows && !b.deleted && IsPublished(b, now)
    ensures var n := PageNeighbours(rows, current, now);
            && (n.previous.Some? && b.publishedAt.value < current.publishedAt.value ==>
                  b.publishedAt.value <= n.previous.value.publishedAt.value)
            && (n.next.Some? && b.publishedAt.value > current.publishedAt.value ==>
                  n.next.value.publishedAt.value <= b.publishedAt.value)
            && (n.previous.None? ==> b.publishedAt.value >= current.publishedAt.value)
            && (n.next.None? ==> b.publishedAt.value <= current.publishedAt.value)
  {
    assert Earlier(b, current.publishedAt.value, now) <==> b.publishedAt.value < current.publishedAt.value;
    assert Later(b, current.publishedAt.value, now) <==> b.publishedAt.value > current.publishedAt.value;
  }

  // ---------------------------------------------------------------- related

  /** PHP truthiness of a nullable id (`when($announcement->category_id)`). */
  predicate IdTruthy(id: Option<int>)
  {
    id.Some? && id.value != 0
  }

  const RelatedLimit: int := 3

  /** The related block: up to three published rows other than the current one, from its
      category when it has one, in the configured order. */
  function Related(rows: seq<Announcement>, current: Announcement, order: Order, now: int): (r: seq<Announcement>)
    ensures |r| <= RelatedLimit
    ensures forall a :: a in r ==> a in rows && !a.deleted && IsPublished(a, now) && a.id != current.id
    ensures IdTruthy(current.categoryId) ==> forall a :: a in r ==> a.categoryId == current.categoryId
    ensures InOrder(order, r)
    ensures forall a | a in rows && a !in r && !a.deleted && IsPublished(a, now) && a.id != current.id ::
              (IdTruthy(current.categoryId) ==> a.categoryId == current.categoryId) ==>
                |r| == RelatedLimit && forall i :: 0 <= i < |r| ==> Precedes(order, r[i], a)
  {
    PublishedQuery(rows, now,
      (a: Announcement) => a.id != current.id && (IdTruthy(current.categoryId) ==> a.categoryId == current.categoryId),
      order, RelatedLimit)
  }

  // ---------------------------------------------------------------- detail page

  datatype ShowPage = ShowPage(announcement: Announcement, related: seq<Announcement>, neighbours: Neighbours)

  /** The data of the page for row `k`: the row, its related rows and its
      neighbours. */
  function PageOf(rows: seq<Announcement>, k: nat, order: Order, now: int): (p: ShowPage)
    requires k < |rows|
    ensures p.announcement == rows[k]
    ensures |p.related| <= RelatedLimit && rows[k] !in p.related
  {
    ShowPage(rows[k], Related(rows, rows[k], order, now), PageNeighbours(rows, rows[k], now))
  }

  /** The visibility gate of `show`: the row to show, or `None` for a 404. A row that is
      not published is shown to administrators only. */
  function Gate(rows: seq<Announcement>, enabled: bool, slug: string, isAdmin: bool, now: int): (r: Option<nat>)
    ensures r.Some? <==> enabled && FindLive(rows, slug).Some?
                         && (IsPublished(rows[FindLive(rows, slug).value], now) || isAdmin)
    ensures r.Some? ==> r == FindLive(rows, slug)
  {
    if !enabled then None
    else
      var found := FindLive(rows, slug);
      if found.None? then None
      else if !IsPublished(rows[found.value], now) && !isAdmin then None
      else found
  }

  /** `show`: the gate, then exactly one `recordView` for the row it lets
      through; a refused page (404) records nothing. The page itself is `PageOf` on the table
      as it stands after the call. */
  method Show(db: Database, enabled: bool, slug: string, isAdmin: bool,
              userId: Option<UserId>, ip: Option<string>, userAgent: Option<string>, referer: Option<string>,
              now: int, window: int)
    returns (shown: Option<nat>)
    requires db.Valid()
    modifies db
    ensures db.Valid()
    ensures shown == Gate(old(db.announcements), enabled, slug, isAdmin, now)
    ensures shown.None? ==> unchanged(db)
    ensures shown.Some? ==>
              var k := shown.value;
              var a := old(db.announcements[k]);
              && k < |db.announcements|
              && db.views == ViewsAfter(old(db.views), a.id, userId, ip, userAgent, referer, now, window)
              && db.announcements == old(db.announcements)[k := a.(viewsCount := a.viewsCount + (|db.views| - |old(db.views)|))]
    ensures db.likes == old(db.likes) && db.categories == old(db.categories)
    ensures db.nextAnnouncementId == old(db.nextAnnouncementId) && db.nextCategoryId == old(db.nextCategoryId)
  {
    shown := Gate(db.announcements, enabled, slug, isAdmin, now);
    if shown.Some? {
      RecordView(db, shown.value, userId, ip, userAgent, referer, now, window);
    }
  }

  // ---------------------------------------------------------------- search

  const SearchLimit: int := 10

  /** The AJAX search: nothing when the module is disabled; otherwise published rows matching
      a truthy query (title, excerpt or content `LIKE`, given as `matches`), from the named
      category when it exists, in the configured order, at most ten. A qualifying row is
      missing only when ten are shown and each of them may come before it. */
  function Search(rows: seq<Announcement>, categories: seq<Category>, enabled: bool, q: Option<string>,
                  categorySlug: Option<string>, order: Order, now: int, matches: (Announcement, string) -> bool)
    : (r: seq<Announcement>)
    ensures !enabled ==> r == []
    ensures |r| <= SearchLimit
    ensures forall a :: a in r ==> a in rows && !a.deleted && IsPublished(a, now)
    ensures Filled(q) ==> forall a :: a in r ==> matches(a, q.value)
    ensures Filled(categorySlug) && CategoryModel.FindBySlug(categories, categorySlug.value).Some? ==>
              forall a :: a in r ==> a.categoryId == Some(CategoryModel.FindBySlug(categories, categorySlug.value).value.id)
    ensures InOrder(order, r)
    ensures enabled ==>
              forall a | a in rows && a !in r && !a.deleted && IsPublished(a, now) ::
                (Filled(q) ==> matches(a, q.value)) ==>
                (Filled(categorySlug) && CategoryModel.FindBySlug(categories, categorySlug.value).Some? ==>
                   a.categoryId == Some(CategoryModel.FindBySlug(categories, categorySlug.value).value.id)) ==>
                |r| == SearchLimit && forall i :: 0 <= i < |r| ==> Precedes(order, r[i], a)
  {
    if !enabled then []
    else
      var filter := if Filled(categorySlug) then CategoryModel.FindBySlug(categories, categorySlug.value) else None;
      PublishedQuery(rows, now,
        (a: Announcement) => (Filled(q) ==> matches(a, q.value)) && (filter.Some? ==> a.categoryId == Some(filter.value.id)),
        order, SearchLimit)
  }
}

=== FILE: latest.dfy ===
/** The `LatestAnnouncements` view component: published rows in the configured order,
    optionally only featured ones or one category's, cut to a limit. */
module LatestComponent {
  import opened Support
  import opened Schema
  import opened AnnouncementModel
  import CategoryModel

  /** The component's arguments: limit, category slug, featured only. */
  datatype Options = Options(limit: int, category: Option<string>, featuredOnly: bool)

  /** The constructor's defaults. */
  const DefaultOptions: Options := Options(5, None, false)

  /** The category filter that applies: a truthy slug naming an existing category. */
  function CategoryFilter(categories: seq<Category>, category: Option<string>): (r: Option<Category>)
    ensures r.Some? ==> Filled(category) && r.value in categories && r.value.slug == category.value
    ensures r.None? && Filled(category) ==> category.value !in CategorySlugs(categories)
  {
    if Filled(category) then CategoryModel.FindBySlug(categories, category.value) else None
  }

  /** A row the query lets through before ordering and limiting. */
  predicate Qualifies(a: Announcement, filter: Option<Category>, featuredOnly: bool, now: int)
  {
    && !a.deleted && IsPublished(a, now)
    && (featuredOnly ==> a.featured)
    && (filter.Some? ==> a.categoryId == Some(filter.value.id))
  }

  /** `getAnnouncements`: every row returned qualifies, the rows follow the chosen order, at
      most `limit` come back (a negative limit sets none), and a qualifying row is missing
      only when the result is full. */
  function Latest(rows: seq<Announcement>, categories: seq<Category>, opts: Options, order: Order, now: int)
    : (r: seq<Announcement>)
    ensures forall a :: a in r ==> a in rows && Qualifies(a, CategoryFilter(categories, opts.category), opts.featuredOnly, now)
    ensures InOrder(order, r)
    ensures opts.limit >= 0 ==> |r| <= opts.limit
    ensures forall a | a in rows && a !in r ::
              Qualifies(a, CategoryFilter(categories, opts.category), opts.featuredOnly, now) ==>
                |r| == opts.limit && forall i :: 0 <= i < |r| ==> Precedes(order, r[i], a)
  {
    var filter := CategoryFilter(categories, opts.category);
    PublishedQuery(rows, now,
      (a: Announcement) => (opts.featuredOnly ==> a.featured) && (filter.Some? ==> a.categoryId == Some(filter.value.id)),
      order, opts.limit)
  }
}

=== FILE: publish_command.dfy ===
/** The `announcements:publish-scheduled` console command, run once a minute: every live
    announcement that is scheduled and whose date has come is switched to published. */
module PublishCommand {
  import opened Support
  import opened Schema
  import opened AnnouncementModel

  /** `Command::SUCCESS` */
  const Success: int := 0

  /** The query of `handle`: live (default scope), scheduled, and dated no later than now; a
      null date fails the SQL comparison. */
  predicate Due(a: Announcement, now: int)
  {
    !a.deleted && a.status == Scheduled && a.publishedAt.Some? && a.publishedAt.value <= now
  }

  /** `update(['status' => 'published'])` on a due row. */
  function Promote(a: Announcement, now: int): (b: Announcement)
    ensures b == a.(status := b.status)
    ensures Due(a, now) ==> IsPublished(b, now) && !IsScheduled(b, now)
    ensures !Due(a, now) ==> b == a
    ensures !Due(b, now)
  {
    if Due(a, now) then a.(status := Published) else a
  }

  /** The table after a sweep: every due row promoted, every other row as it was. */
  function Swept(rows: seq<Announcement>, now: int): (r: seq<Announcement>)
    ensures |r| == |rows|
    ensures forall i :: 0 <= i < |r| ==> r[i] == Promote(rows[i], now)
  {
    seq(|rows|, i requires 0 <= i < |rows| => Promote(rows[i], now))
  }

  /** How many rows the query returns. */
  function DueCount(rows: seq<Announcement>, now: int): (n: nat)
    ensures n <= |rows|
  {
    if rows == [] then 0
    else DueCount(rows[..|rows| - 1], now) + (if Due(rows[|rows| - 1], now) then 1 else 0)
  }

  /** How many positions two tables of the same length differ at. */
  function Changed(before: seq<Announcement>, after: seq<Announcement>): nat
    requires |before| == |after|
  {
    if before == [] then 0
    else Changed(before[..|before| - 1], after[..|after| - 1])
         + (if before[|before| - 1] != after[|after| - 1] then 1 else 0)
  }

  /** The count the command reports is the number of rows the sweep changed. */
  lemma {:induction false} CountIsChanges(rows: seq<Announcement>, now: int)
    ensures DueCount(rows, now) == Changed(rows, Swept(rows, now))
    decreases |rows|
  {
    if rows != [] {
      var init := rows[..|rows| - 1];
      CountIsChanges(init, now);
      assert Swept(rows, now)[..|rows| - 1] == Swept(init, now);
    }
  }

  /** Nothing is left to publish after a sweep. */
  lemma {:induction false} NothingDueAfterSweep(rows: seq<Announcement>, now: int)
    ensures DueCount(Swept(rows, now), now) == 0
    decreases |rows|
  {
    if rows != [] {
      var init := rows[..|rows| - 1];
      NothingDueAfterSweep(init, now);
      assert Swept(rows, now)[..|rows| - 1] == Swept(init, now);
    }
  }

  /** A second sweep at the same time changes nothing. */
  lemma SweepIdempotent(rows: seq<Announcement>, now: int)
    ensures Swept(Swept(rows, now), now) == Swept(rows, now)
  {
  }

  /** `handle`: each due row is updated in turn and counted; the exit code is always
      `SUCCESS`. The table afterwards is `Swept`, and the count is `DueCount` of the table
      before. */
  method Handle(db: Database, now: int) returns (count: nat, exitCode: int)
    requires db.Valid()
    modifies db
    ensures db.Valid()
    ensures db.announcements == Swept(old(db.announcements), now)
    ensures count == DueCount(old(db.announcements), now)
    ensures exitCode == Success
    ensures db.categories == old(db.categories) && db.views == old(db.views) && db.likes == old(db.likes)
    ensures db.nextAnnouncementId == old(db.nextAnnouncementId) && db.nextCategoryId == old(db.nextCategoryId)
  {
    ghost var rows := db.announcements;
    count := 0;
    var i := 0;
    while i < |db.announcements|
      invariant 0 <= i <= |db.announcements| == |rows|
      invariant db.Valid()
      invariant forall j :: 0 <= j < i ==> db.announcements[j] == Promote(rows[j], now)
      invariant forall j :: i <= j < |rows| ==> db.announcements[j] == rows[j]
      invariant count == DueCount(rows[..i], now)
      invariant db.categories == old(db.categories) && db.views == old(db.views) && db.likes == old(db.likes)
      invariant db.nextAnnouncementId == old(db.nextAnnouncementId) && db.nextCategoryId == old(db.nextCategoryId)
    {
      assert rows[..i + 1][..i] == rows[..i];
      var a := db.announcements[i];
      if Due(a, now) {
        Save(db, i, a.(status := Published));
        count := count + 1;
      }
      i := i + 1;
    }
    assert rows[..i] == rows;
    exitCode := Success;
  }
}

=== FILE: schema.dfy ===
/** The four tables the addon keeps, as rows held in memory. Only the columns some rule of
    the model reads or writes are kept; body text, SEO text and timestamps of bookkeeping are
    not. */
module Schema {
  import opened Support

  /** `announcements.status`: the four values every validator accepts. */
  datatype Status = Draft | Published | Scheduled | Archived

  /** A row of `announcements`. `deleted` is the soft-delete marker (`deleted_at` set). */
  datatype Announcement = Announcement(
    id: int,
    title: string,
    slug: string,
    status: Status,
    publishedAt: Option<int>,
    featured: bool,
    position: int,
    categoryId: Option<int>,
    authorId: Option<int>,
    showAuthor: bool,
    coverImage: Option<string>,
    coverImageUrl: Option<string>,
    metaTitle: Option<string>,
    viewsCount: int,
    likesCount: int,
    deleted: bool)

  /** A row of `announcement_categories` (no soft deletes). */
  datatype Category = Category(
    id: int,
    name: string,
    slug: string,
    description: Option<string>,
    color: string,
    icon: Option<string>,
    position: int,
    isActive: bool)

  /** A row of `announcement_views`: digests of the IP and user agent, never the raw values. */
  datatype ViewRow = ViewRow(
    announcementId: int,
    userId: Option<UserId>,
    ipHash: Option<Digest>,
    userAgentHash: Option<Digest>,
    referer: Option<string>,
    viewedAt: int)

  /** A row of `announcement_likes`. */
  datatype LikeRow = LikeRow(
    announcementId: int,
    userId: Option<UserId>,
    ipHash: Option<Digest>,
    cookieId: Option<string>,
    createdAt: int)

  /** The store: one sequence per table, in insertion order, and the next auto-increment ids. */
  class Database {
    var announcements: seq<Announcement>
    var categories: seq<Category>
    var views: seq<ViewRow>
    var likes: seq<LikeRow>
    var nextAnnouncementId: int
    var nextCategoryId: int

    /** Auto-increment ids: every id in use is below the next one handed out. */
    ghost predicate Valid()
      reads this
    {
      && (forall a | a in announcements :: a.id < nextAnnouncementId)
      && (forall c | c in categories :: c.id < nextCategoryId)
    }

    constructor ()
      ensures Valid()
      ensures announcements == [] && categories == [] && views == [] && likes == []
    {
      announcements, categories, views, likes := [], [], [], [];
      nextAnnouncementId, nextCategoryId := 1, 1;
    }
  }

  /** Slugs the model hook checks: `withTrashed()`, so soft-deleted rows keep theirs reserved. */
  function AllSlugs(rows: seq<Announcement>): set<string>
  {
    set a | a in rows :: a.slug
  }

  /** Slugs the form request checks: default scope, soft-deleted rows excluded. */
  function LiveSlugs(rows: seq<Announcement>): set<string>
  {
    set a | a in rows && !a.deleted :: a.slug
  }

  function CategorySlugs(rows: seq<Category>): set<string>
  {
    set c | c in rows :: c.slug
  }
}

=== FILE: settings.dfy ===
/** The admin settings page's `update`: the validation of the seventeen setting keys and
    the loop that turns the validated input into the map of strings written to the settings
    store. */
module Settings {
  import opened Support
  import opened Slugs
  import AnnouncementModel
  import FrontController

  // ---------------------------------------------------------------- keys and rules

  const Enabled := "announcements_enabled"
  const LikesEnabled := "announcements_likes_enabled"
  const LikesModeKey := "announcements_likes_mode"
  const ShowViews := "announcements_show_views"
  const ShowAuthor := "announcements_show_author"
  const ShowDate := "announcements_show_date"
  const ShowFeatured := "announcements_show_featured"
  const SchedulingEnabled := "announcements_scheduling_enabled"
  const PerPage := "announcements_per_page"
  const DefaultOrder := "announcements_default_order"
  const SeoTitleTemplate := "announcements_seo_title_template"
  const DefaultMetaDescription := "announcements_default_meta_description"
  const DefaultOgImage := "announcements_default_og_image"
  const ViewMode := "announcements_view_mode"
  const ViewWindow := "announcements_view_window"
  const AnonymousName := "announcements_anonymous_name"
  const PublicUrl := "announcements_public_url"

  /** The keys written as `'1'` or `'0'`. */
  const CheckboxFields: set<string> :=
    {Enabled, LikesEnabled, ShowViews, ShowAuthor, ShowDate, ShowFeatured, SchedulingEnabled}

  /** Every key the validator knows; input under any other key is dropped. */
  const SettingKeys: set<string> := CheckboxFields +
    {LikesModeKey, PerPage, DefaultOrder, SeoTitleTemplate, DefaultMetaDescription, DefaultOgImage,
     ViewMode, ViewWindow, AnonymousName, PublicUrl}

  /** The rule on a non-null value; every key is `nullable`. */
  datatype Rule =
    | AnyValue                              // `nullable` alone
    | OneOf(choices: set<string>)           // `in:...`
    | IntegerIn(lo: int, hi: int)           // `integer|min|max`
    | TextUpTo(max: nat)                    // `string|max`
    | UrlSegmentUpTo(max: nat)              // `string|max|regex:/^[a-z0-9-]+$/`

  function RuleOf(key: string): Rule
  {
    if key == LikesModeKey then OneOf({"all", "authenticated", "ip"})
    else if key == PerPage then IntegerIn(1, 100)
    else if key == DefaultOrder then OneOf({"featured_position_date", "position_date", "date"})
    else if key in {SeoTitleTemplate, DefaultMetaDescription, DefaultOgImage} then TextUpTo(255)
    else if key == ViewMode then OneOf({"total", "unique", "authenticated"})
    else if key == ViewWindow then IntegerIn(1, 1440)
    else if key == AnonymousName then TextUpTo(50)
    else if key == PublicUrl then UrlSegmentUpTo(50)
    else AnyValue
  }

  /** `regex:/^[a-z0-9-]+$/` */
  predicate IsUrlSegment(s: string)
  {
    |s| > 0 && forall i :: 0 <= i < |s| ==> IsSlugAlnum(s[i]) || s[i] == '-'
  }

  /** Whether a submitted value passes its rule. A null passes every rule; `integerValue`
      is the validator's reading of a string as an integer. */
  predicate Accepts(rule: Rule, v: Option<string>, integerValue: string -> Option<int>)
  {
    match v
    case None => true
    case Some(s) =>
      match rule
      case AnyValue => true
      case OneOf(choices) => s in choices
      case IntegerIn(lo, hi) => integerValue(s).Some? && lo <= integerValue(s).value <= hi
      case TextUpTo(max) => |s| <= max
      case UrlSegmentUpTo(max) => |s| <= max && IsUrlSegment(s)
  }

  /** `$request->validate(...)`: the submitted keys the rules know, each with its value, or
      nothing when one of them breaks its rule. */
  function Validate(request: map<string, Option<string>>, integerValue: string -> Option<int>)
    : (r: Option<map<string, Option<string>>>)
    ensures r.Some? <==> forall k | k in request && k in SettingKeys :: Accepts(RuleOf(k), request[k], integerValue)
    ensures r.Some? ==> r.value.Keys == request.Keys * SettingKeys
    ensures r.Some? ==> forall k | k in r.value :: r.value[k] == request[k]
  {
    if forall k | k in request && k in SettingKeys :: Accepts(RuleOf(k), request[k], integerValue)
    then Some(map k | k in request && k in SettingKeys :: request[k])
    else None
  }

  // ---------------------------------------------------------------- accepted values

  /** Every accepted likes mode selects its own behaviour, and no two select the same one. */
  lemma AcceptedLikesModesAreDistinct(integerValue: string -> Option<int>)
    ensures forall s | Accepts(RuleOf(LikesModeKey), Some(s), integerValue) ::
              s in {"all", "authenticated", "ip"}
    ensures FrontController.LikesModeFromSetting("all") == FrontController.AllVisitors
    ensures FrontController.LikesModeFromSetting("authenticated") == FrontController.AuthenticatedOnly
    ensures FrontController.LikesModeFromSetting("ip") == FrontController.IpOnly
  {
  }

  /** Every accepted default order names one of the three orderings, each a different one. */
  lemma AcceptedOrdersAreDistinct(integerValue: string -> Option<int>)
    ensures forall s | Accepts(RuleOf(DefaultOrder), Some(s), integerValue) ::
              s in {"featured_position_date", "position_date", "date"}
    ensures AnnouncementModel.OrderFromSetting("featured_position_date") == AnnouncementModel.FeaturedPositionDate
    ensures AnnouncementModel.OrderFromSetting("position_date") == AnnouncementModel.PositionDate
    ensures AnnouncementModel.OrderFromSetting("date") == AnnouncementModel.ByDate
  {
  }

  /** The public URL rule is looser than the slug format: every well-formed slug of up to 50
      characters passes it, and so does a lone hyphen, which is no slug. */
  lemma PublicUrlAdmitsSlugs(s: string, integerValue: string -> Option<int>)
    ensures IsWellFormedSlug(s) && |s| <= 50 ==> Accepts(RuleOf(PublicUrl), Some(s), integerValue)
    ensures Accepts(RuleOf(PublicUrl), Some("-"), integerValue) && !IsWellFormedSlug("-")
  {
  }

  // ---------------------------------------------------------------- normalisation

  /** The value the loop writes for one validated key: a checkbox becomes `'1'` when the
      request has the key and `'0'` otherwise; any other key keeps its value, a null becoming
      the empty string. */
  function Normalised(key: string, value: Option<string>, request: map<string, Option<string>>): (s: string)
    ensures key in CheckboxFields ==> (s == "1" <==> key in request) && (s == "1" || s == "0")
    ensures key !in CheckboxFields && value.Some? ==> s == value.value
    ensures key !in CheckboxFields && value.None? ==> s == ""
  {
    if key in CheckboxFields then (if key in request then "1" else "0")
    else OrDefault(value, "")
  }

  /** The settings map built from the validated input. */
  function SettingsOf(validated: map<string, Option<string>>, request: map<string, Option<string>>)
    : (m: map<string, string>)
    ensures m.Keys == validated.Keys
  {
    map k | k in validated :: Normalised(k, validated[k], request)
  }

  /** Since only submitted keys are validated, a checkbox that is written is always `'1'`:
      the `'0'` branch is never taken. */
  lemma CheckboxesAreOn(request: map<string, Option<string>>, integerValue: string -> Option<int>)
    requires Validate(request, integerValue).Some?
    ensures var m := SettingsOf(Validate(request, integerValue).value, request);
            forall k | k in m && k in CheckboxFields :: m[k] == "1"
  {
  }

  /** A submitted key outside the rules never reaches the store, and an accepted value is
      written as it was submitted. */
  lemma WrittenKeysAreKnown(request: map<string, Option<string>>, integerValue: string -> Option<int>)
    requires Validate(request, integerValue).Some?
    ensures var m := SettingsOf(Validate(request, integerValue).value, request);
            m.Keys == request.Keys * SettingKeys
            && forall k | k in m && k !in CheckboxFields && request[k].Some? :: m[k] == request[k].value
  {
  }

  /** As written, no accepted submission turns a checkbox setting off: an unticked box is
      either left out of the request, and so not written, or sent, and so written `'1'`. */
  lemma UntickedStaysOnAsWritten(request: map<string, Option<string>>, integerValue: string -> Option<int>,
                                 stored: map<string, string>, key: string)
    requires Validate(request, integerValue).Some?
    requires key in CheckboxFields && key in stored && stored[key] == "1"
    ensures var m := stored + SettingsOf(Validate(request, integerValue).value, request);
            key in m && m[key] == "1"
  {
    CheckboxesAreOn(request, integerValue);
  }

  /** Whether the box for `key` was ticked: the key was sent with a truthy value. */
  predicate Ticked(key: string, request: map<string, Option<string>>)
  {
    key in request && Filled(request[key])
  }

  /** The corrected settings map: every checkbox is written, `'1'` exactly when its box was
      ticked, next to the other validated keys as `SettingsOf` writes them. */
  function CorrectedSettingsOf(validated: map<string, Option<string>>, request: map<string, Option<string>>)
    : (m: map<string, string>)
    ensures m.Keys == validated.Keys + CheckboxFields
    ensures forall k | k in CheckboxFields :: m[k] == (if Ticked(k, request) then "1" else "0")
    ensures forall k | k in validated && k !in CheckboxFields :: m[k] == SettingsOf(validated, request)[k]
  {
    map k | k in validated.Keys + CheckboxFields ::
      if k in CheckboxFields then (if Ticked(k, request) then "1" else "0") else OrDefault(validated[k], "")
  }

  /** With the correction, a checkbox setting is on after the save exactly when its box was
      ticked, whatever was stored before. */
  lemma CorrectedCheckboxesFollowTheForm(validated: map<string, Option<string>>, request: map<string, Option<string>>,
                                         stored: map<string, string>, key: string)
    requires key in CheckboxFields
    ensures var m := stored + CorrectedSettingsOf(validated, request);
            key in m && (m[key] == "1" <==> Ticked(key, request)) && (m[key] == "1" || m[key] == "0")
  {
    var c := CorrectedSettingsOf(validated, request);
    assert key in c.Keys;
    assert (stored + c)[key] == c[key];
  }

  // ---------------------------------------------------------------- the action

  datatype Outcome = Forbidden | Invalid | Saved(settings: map<string, string>)

  /** `update`: staff without the extension permission get 403; input that breaks a rule is
      sent back; otherwise the loop over the validated keys builds the settings, which are
      written over the stored ones. */
  method Update(allowed: bool, request: map<string, Option<string>>, integerValue: string -> Option<int>,
                stored: map<string, string>) returns (outcome: Outcome, newStored: map<string, string>)
    ensures !allowed ==> outcome == Forbidden && newStored == stored
    ensures allowed && Validate(request, integerValue).None? ==> outcome == Invalid && newStored == stored
    ensures allowed && Validate(request, integerValue).Some? ==>
              outcome == Saved(SettingsOf(Validate(request, integerValue).value, request))
              && newStored == stored + outcome.settings
  {
    if !allowed {
      return Forbidden, stored;
    }
    var validated := Validate(request, integerValue);
    if validated.None? {
      return Invalid, stored;
    }
    var input := validated.value;
    var settings: map<string, string> := map[];
    var remaining := input.Keys;
    while remaining != {}
      invariant remaining <= input.Keys
      invariant settings.Keys == input.Keys - remaining
      invariant forall k | k in settings :: settings[k] == Normalised(k, input[k], request)
      decreases remaining
    {
      ghost var some := NonEmptyHasMember(remaining);
      var key :| key in remaining;
      if key in CheckboxFields {
        settings := settings[key := if key in request then "1" else "0"];
      } else {
        settings := settings[key := OrDefault(input[key], "")];
      }
      remaining := remaining - {key};
    }
    assert settings == SettingsOf(input, request);
    return Saved(settings), stored + settings;
  }
}

=== FILE: slugs.dfy ===
/** Slugs: the format both request classes accept, and the numeric-suffix loop the model
    `creating` hooks and the announcement form request use to make a slug unused. */
module Slugs {
  import opened Support

  // ---------------------------------------------------------------- format

  predicate IsSlugAlnum(c: char)
  {
    ('a' <= c <= 'z') || ('0' <= c <= '9')
  }

  /** The regular expression `^[a-z0-9]+(?:-[a-z0-9]+)*$` run as its automaton: `AfterRun`
      is the state reached after at least one character of a run. */
  predicate MatchesSlugPattern(s: string)
  {
    |s| > 0 && IsSlugAlnum(s[0]) && AfterRun(s[1..])
  }

  predicate AfterRun(s: string)
    decreases |s|
  {
    if s == [] then true
    else if IsSlugAlnum(s[0]) then AfterRun(s[1..])
    else s[0] == '-' && |s| > 1 && IsSlugAlnum(s[1]) && AfterRun(s[2..])
  }

  /** The same language described by its characters: lower-case letters, digits and
      hyphens, starting and ending with a letter or digit, never two hyphens in a row. */
  predicate IsWellFormedSlug(s: string)
  {
    && |s| > 0
    && (forall i :: 0 <= i < |s| ==> IsSlugAlnum(s[i]) || s[i] == '-')
    && IsSlugAlnum(s[0])
    && IsSlugAlnum(s[|s| - 1])
    && (forall i :: 0 <= i < |s| - 1 && s[i] == '-' ==> s[i + 1] != '-')
  }

  /** `AfterRun(s)` holds exactly when `s` continues a run: every character is a letter,
      digit or hyphen, it does not end in a hyphen, and a hyphen is always followed by a
      letter or digit. */
  predicate Continues(s: string)
  {
    && (forall i :: 0 <= i < |s| ==> IsSlugAlnum(s[i]) || s[i] == '-')
    && (s == [] || IsSlugAlnum(s[|s| - 1]))
    && (forall i :: 0 <= i < |s| - 1 && s[i] == '-' ==> IsSlugAlnum(s[i + 1]))
  }

  lemma {:induction false} AfterRunIff(s: string)
    ensures AfterRun(s) <==> Continues(s)
    decreases |s|
  {
    if s == [] {
    } else if IsSlugAlnum(s[0]) {
      AfterRunIff(s[1..]);
      if Continues(s[1..]) {
        forall i | 0 <= i < |s| - 1 && s[i] == '-' ensures IsSlugAlnum(s[i + 1]) {
          assert s[1..][i - 1] == s[i];
        }
      }
    } else if s[0] == '-' && |s| > 1 && IsSlugAlnum(s[1]) {
      AfterRunIff(s[2..]);
      if Continues(s[2..]) {
        forall i | 0 <= i < |s| - 1 && s[i] == '-' ensures IsSlugAlnum(s[i + 1]) {
          if i > 0 { assert s[2..][i - 2] == s[i]; }
        }
        forall i | 0 <= i < |s| ensures IsSlugAlnum(s[i]) || s[i] == '-' {
          if i > 1 { assert s[2..][i - 2] == s[i]; }
        }
      }
      if Continues(s) {
        assert forall i :: 0 <= i < |s[2..]| ==> s[2..][i] == s[i + 2];
      }
    } else {
      assert !Continues(s) by {
        if |s| == 1 { assert !IsSlugAlnum(s[|s| - 1]); }
        else { assert !(IsSlugAlnum(s[0]) || s[0] == '-') || !IsSlugAlnum(s[1]); }
      }
    }
  }

  /** The slug rule of both request classes: the automaton of the regular expression
      accepts exactly the well-formed slugs. */
  lemma SlugPatternIff(s: string)
    ensures MatchesSlugPattern(s) <==> IsWellFormedSlug(s)
  {
    if |s| > 0 {
      AfterRunIff(s[1..]);
      assert forall i :: 0 <= i < |s[1..]| ==> s[1..][i] == s[i + 1];
      if IsWellFormedSlug(s) {
        assert Continues(s[1..]);
      }
    }
  }

  // ---------------------------------------------------------------- colour

  predicate IsHexDigit(c: char)
  {
    ('0' <= c <= '9') || ('a' <= c <= 'f') || ('A' <= c <= 'F')
  }

  /** `^#[0-9A-Fa-f]{6}$` (the API controller) and `^#[a-fA-F0-9]{6}$` (the form request):
      the two character classes are the same set. */
  predicate IsHexColour(s: string)
  {
    |s| == 7 && s[0] == '#' && forall i :: 1 <= i < 7 ==> IsHexDigit(s[i])
  }

  // ---------------------------------------------------------------- uniqueness

  /** `$originalSlug . '-' . $count` */
  function Suffixed(original: string, k: nat): string
  {
    original + "-" + NatToString(k)
  }

  /** The k-th slug the loop tries: the original first, then `original-1`, `original-2`, ... */
  function Candidate(original: string, k: nat): (s: string)
    ensures k == 0 ==> s == original
    ensures k >= 1 ==> s == Suffixed(original, k)
    ensures k >= 1 ==> |s| > |original| && |s| >= 2
  {
    if k == 0 then original else Suffixed(original, k)
  }

  lemma CandidateInjective(original: string, j: nat, k: nat)
    requires Candidate(original, j) == Candidate(original, k)
    ensures j == k
  {
    if j >= 1 && k >= 1 {
      var n := |original| + 1;
      assert NatToString(j) == Suffixed(original, j)[n..] == Suffixed(original, k)[n..] == NatToString(k);
      NatToStringInjective(j, k);
    }
  }

  /** The first `n` candidates. */
  function Tried(original: string, n: nat): set<string>
  {
    set k | 0 <= k < n :: Candidate(original, k)
  }

  lemma {:induction false} TriedSize(original: string, n: nat)
    ensures |Tried(original, n)| == n
  {
    if n > 0 {
      TriedSize(original, n - 1);
      assert Tried(original, n) == Tried(original, n - 1) + {Candidate(original, n - 1)};
      if Candidate(original, n - 1) in Tried(original, n - 1) {
        var k :| 0 <= k < n - 1 && Candidate(original, k) == Candidate(original, n - 1);
        CandidateInjective(original, k, n - 1);
      }
    }
  }

  /** The `while (... ->where('slug', $slug)->exists())` loop: tries the original slug, then
      `original-1`, `original-2`, ... and stops at the first one not in `taken`. The result is
      unused, and every candidate before it is in use; at most |taken| + 1 candidates are tried. */
  method UniqueSlug(taken: set<string>, original: string) returns (slug: string, attempts: nat)
    ensures slug !in taken
    ensures slug == Candidate(original, attempts)
    ensures forall k :: 0 <= k < attempts ==> Candidate(original, k) in taken
    ensures attempts <= |taken|
    ensures original !in taken ==> slug == original
    ensures original in taken ==> attempts >= 1 && slug == Suffixed(original, attempts)
  {
    slug := original;
    attempts := 0;
    while slug in taken
      invariant slug == Candidate(original, attempts)
      invariant Tried(original, attempts) <= taken
      invariant attempts <= |taken|
      decreases |taken| - attempts
    {
      TriedStep(taken, original, attempts);
      attempts := attempts + 1;
      slug := Suffixed(original, attempts);
    }
    forall k | 0 <= k < attempts ensures Candidate(original, k) in taken {
      assert Candidate(original, k) in Tried(original, attempts);
    }
    if attempts >= 1 {
      assert Candidate(original, 0) in Tried(original, attempts);
    }
  }

  /** One more taken candidate: the tried set stays inside `taken`, which therefore holds
      at least as many slugs as were tried. */
  lemma TriedStep(taken: set<string>, original: string, n: nat)
    requires Tried(original, n) <= taken && Candidate(original, n) in taken
    ensures Tried(original, n + 1) <= taken && n + 1 <= |taken|
  {
    assert Tried(original, n + 1) == Tried(original, n) + {Candidate(original, n)};
    TriedSize(original, n + 1);
    SubsetSize(Tried(original, n + 1), taken);
  }

  lemma SubsetSize(a: set<string>, b: set<string>)
    requires a <= b
    ensures |a| <= |b|
  {
    assert b == a + (b - a);
  }
}

=== FILE: sorting.dfy ===
/** `orderBy(...)` and `orderBy(...)->limit(k)` over in-memory rows: an insertion sort by a
    total preorder, and its prefix. Rows that compare equal keep no particular order in the
    database; the model fixes one, and every property below holds for any such choice. */
module Sorting {

  /** `le(a, b)`: `a` may come before `b`. */
  ghost predicate IsTotalPreorder<T(!new)>(le: (T, T) -> bool)
  {
    && (forall a, b :: le(a, b) || le(b, a))
    && (forall a, b, c :: le(a, b) && le(b, c) ==> le(a, c))
  }

  predicate SortedBy<T>(xs: seq<T>, le: (T, T) -> bool)
  {
    forall i, j :: 0 <= i < j < |xs| ==> le(xs[i], xs[j])
  }

  function InsertBy<T(!new)>(x: T, xs: seq<T>, le: (T, T) -> bool): (r: seq<T>)
    requires IsTotalPreorder(le) && SortedBy(xs, le)
    ensures SortedBy(r, le)
    ensures multiset(r) == multiset(xs) + multiset{x}
    ensures |r| == |xs| + 1
    ensures r[0] == x || (xs != [] && r[0] == xs[0])
    decreases |xs|
  {
    if xs == [] || le(x, xs[0]) then
      [x] + xs
    else
      var rest := InsertBy(x, xs[1..], le);
      assert xs == [xs[0]] + xs[1..];
      assert le(xs[0], rest[0]);
      [xs[0]] + rest
  }

  /** The rows in order, as a permutation of the input. */
  function SortBy<T(!new)>(xs: seq<T>, le: (T, T) -> bool): (r: seq<T>)
    requires IsTotalPreorder(le)
    ensures SortedBy(r, le)
    ensures multiset(r) == multiset(xs)
    ensures |r| == |xs|
    decreases |xs|
  {
    if xs == [] then []
    else
      assert xs == [xs[0]] + xs[1..];
      InsertBy(xs[0], SortBy(xs[1..], le), le)
  }

  function Min(a: nat, b: nat): nat
  {
    if a <= b then a else b
  }

  /** The first `k` rows in order. Nothing left out may come before anything kept, and
      every row is kept when there are at most `k`. */
  function TopK<T(!new)>(xs: seq<T>, le: (T, T) -> bool, k: nat): (r: seq<T>)
    requires IsTotalPreorder(le)
    ensures |r| == Min(k, |xs|)
    ensures SortedBy(r, le)
    ensures multiset(r) <= multiset(xs)
    ensures forall x :: x in multiset(xs) - multiset(r) ==> forall i :: 0 <= i < |r| ==> le(r[i], x)
    ensures |xs| <= k ==> multiset(r) == multiset(xs)
  {
    var sorted := SortBy(xs, le);
    var n := Min(k, |sorted|);
    PrefixComesFirst(sorted, le, n);
    assert n == |sorted| ==> sorted[..n] == sorted;
    sorted[..n]
  }

  /** `orderByDesc(score)`: `a` may come before `b` when it scores at least as high. */
  function ByScoreDesc<T>(score: T -> int): (T, T) -> bool
  {
    (a: T, b: T) => score(a) >= score(b)
  }

  predicate SortedDesc<T>(xs: seq<T>, score: T -> int)
  {
    forall i, j :: 0 <= i < j < |xs| ==> score(xs[i]) >= score(xs[j])
  }

  /** `orderByDesc(score)->limit(k)`: the `k` best-scoring rows, best first. Nothing left
      out scores higher than anything kept. */
  function TopByScore<T(!new)>(xs: seq<T>, score: T -> int, k: nat): (r: seq<T>)
    ensures |r| == Min(k, |xs|)
    ensures SortedDesc(r, score)
    ensures multiset(r) <= multiset(xs)
    ensures forall x :: x in multiset(xs) - multiset(r) ==> forall i :: 0 <= i < |r| ==> score(r[i]) >= score(x)
    ensures |xs| <= k ==> multiset(r) == multiset(xs)
  {
    var le := ByScoreDesc(score);
    assert IsTotalPreorder(le);
    TopK(xs, le, k)
  }

  /** In a sorted list, every row of a prefix may come before every row after it. */
  lemma PrefixComesFirst<T>(sorted: seq<T>, le: (T, T) -> bool, n: nat)
    requires SortedBy(sorted, le) && n <= |sorted|
    ensures SortedBy(sorted[..n], le)
    ensures multiset(sorted[..n]) <= multiset(sorted)
    ensures forall x :: x in multiset(sorted) - multiset(sorted[..n]) ==>
              forall i :: 0 <= i < n ==> le(sorted[i], x)
  {
    assert sorted == sorted[..n] + sorted[n..];
    assert multiset(sorted) == multiset(sorted[..n]) + multiset(sorted[n..]);
    forall x | x in multiset(sorted) - multiset(sorted[..n])
      ensures forall i :: 0 <= i < n ==> le(sorted[i], x)
    {
      assert x in multiset(sorted[n..]);
      var p :| 0 <= p < |sorted[n..]| && sorted[n..][p] == x;
      assert sorted[n + p] == x;
    }
  }

  /** Two positions holding the same value make that value occur twice. */
  lemma TwoPositions<T>(xs: seq<T>, i: nat, j: nat)
    requires i < j < |xs| && xs[i] == xs[j]
    ensures multiset(xs)[xs[i]] >= 2
  {
    assert xs == xs[..j] + xs[j..];
    assert xs[i] in multiset(xs[..j]);
    assert xs[j] in multiset(xs[j..]);
    assert multiset(xs) == multiset(xs[..j]) + multiset(xs[j..]);
  }

  /** `limit(n)`: the first `n` rows; a negative `n` sets no limit. Any row left out means
      the result is full. */
  function Limit<T>(xs: seq<T>, n: int): (r: seq<T>)
    ensures n >= 0 ==> |r| == Min(n, |xs|)
    ensures n < 0 ==> r == xs
    ensures r == xs[..|r|]
    ensures forall x :: x in xs && x !in r ==> n >= 0 && |r| == n
  {
    if 0 <= n < |xs| then xs[..n] else xs
  }

  // ---------------------------------------------------------------- string order

  /** `orderBy('name')`: code-point lexicographic order. */
  predicate LexLe(a: string, b: string)
    decreases |a|
  {
    a == [] || (b != [] && (a[0] < b[0] || (a[0] == b[0] && LexLe(a[1..], b[1..]))))
  }

  lemma {:induction false} LexLeTotal(a: string, b: string)
    ensures LexLe(a, b) || LexLe(b, a)
    decreases |a|
  {
    if a != [] && b != [] && a[0] == b[0] {
      LexLeTotal(a[1..], b[1..]);
    }
  }

  lemma {:induction false} LexLeTransitive(a: string, b: string, c: string)
    requires LexLe(a, b) && LexLe(b, c)
    ensures LexLe(a, c)
    decreases |a|
  {
    if a != [] && b != [] && c != [] && a[0] == b[0] == c[0] {
      LexLeTransitive(a[1..], b[1..], c[1..]);
    }
  }
}

=== FILE: stats.dfy ===
/** `AnnouncementStatsService`: the period codes and their day ranges, the zero-filled daily
    series of views and likes, distinct visitors, the referer ranking, the site-wide figures
    and the CSV export. Timestamps are minutes; a series entry carries its day index, and the
    `Y-m-d` rendering of a day is a parameter of the export. */
module Stats {
  import opened Support
  import opened Schema
  import opened Sorting
  import AnnouncementModel

  const TopReferersLimit: nat := 10
  const MostListedLimit: nat := 5
  /** `subYear()` is taken as 365 days. */
  const DaysPerYear: nat := 365

  // ---------------------------------------------------------------- periods

  /** How many days back a period code reaches; unknown codes behave as "30d". */
  function PeriodDays(period: string): (n: nat)
    ensures period == "7d" ==> n == 7
    ensures period == "90d" ==> n == 90
    ensures period == "1y" ==> n == DaysPerYear
    ensures period != "7d" && period != "90d" && period != "1y" ==> n == 30
  {
    match period
    case "7d" => 7
    case "30d" => 30
    case "90d" => 90
    case "1y" => DaysPerYear
    case _ => 30
  }

  lemma DayShift(t: int, i: int)
    ensures Day(t + i * MinutesPerDay) == Day(t) + i
  {
    DayBounds(t, Day(t));
    DayBounds(t + i * MinutesPerDay, Day(t) + i);
  }

  datatype Period = Period(start: int, end: int)

  /** `getPeriodDates`: from the start of the day `n` days before now to the end of today,
      so the range holds exactly `n + 1` calendar days and contains `now`. */
  function PeriodDates(period: string, now: int): (p: Period)
    ensures p.start == StartOfDay(Day(now) - PeriodDays(period))
    ensures p.end == EndOfDay(Day(now))
    ensures p.start <= now <= p.end
    ensures SeriesLength(p.start, p.end) == PeriodDays(period) + 1
  {
    var n := PeriodDays(period);
    DayShift(now, -(n as int));
    assert now - n * MinutesPerDay == now + (-(n as int)) * MinutesPerDay;
    DayBounds(now, Day(now));
    var p := Period(StartOfDay(Day(now - n * MinutesPerDay)), EndOfDay(Day(now)));
    DivBounds(p.end - p.start, n);
    DivBounds(p.end - p.start, n + 1);
    p
  }

  lemma DivBounds(a: int, q: int)
    ensures q * MinutesPerDay <= a ==> q <= a / MinutesPerDay
    ensures a < q * MinutesPerDay ==> a / MinutesPerDay < q
  {
  }

  // ---------------------------------------------------------------- daily series

  datatype DayCount = DayCount(day: int, count: nat)

  predicate InPeriod(t: int, start: int, end: int)
  {
    start <= t <= end
  }

  /** The grouped query: rows in `[start, end]` whose `DATE()` is day `d`. */
  function CountOn(times: seq<int>, start: int, end: int, d: int): nat
  {
    if times == [] then 0
    else
      var t := times[|times| - 1];
      CountOn(times[..|times| - 1], start, end, d) + (if InPeriod(t, start, end) && Day(t) == d then 1 else 0)
  }

  /** Rows in `[start, end]`. */
  function CountIn(times: seq<int>, start: int, end: int): nat
  {
    if times == [] then 0
    else
      var t := times[|times| - 1];
      CountIn(times[..|times| - 1], start, end) + (if InPeriod(t, start, end) then 1 else 0)
  }

  /** How many times the cursor loop runs: once per day-step from `start` while `<= end`. */
  function SeriesLength(start: int, end: int): nat
  {
    if start <= end then (end - start) / MinutesPerDay + 1 else 0
  }

  /** The first `n` entries of the zero-filled series: consecutive days from the day of
      `start`, each with its row count (0 when the grouped query has no row for it). */
  function Series(times: seq<int>, start: int, end: int, n: nat): (s: seq<DayCount>)
    ensures |s| == n
    ensures forall i :: 0 <= i < n ==> s[i].day == Day(start) + i
    ensures forall i :: 0 <= i < n ==> s[i].count == CountOn(times, start, end, Day(start) + i)
  {
    seq(n, i requires 0 <= i < n => DayCount(Day(start) + i, CountOn(times, start, end, Day(start) + i)))
  }

  /** The `while ($current <= $endDate)` loop of `getViewsByDay` / `getLikesByDay`. */
  method DailyCounts(times: seq<int>, start: int, end: int) returns (r: seq<DayCount>)
    ensures r == Series(times, start, end, SeriesLength(start, end))
  {
    r := [];
    var current := start;
    while current <= end
      invariant current == start + |r| * MinutesPerDay
      invariant |r| <= SeriesLength(start, end)
      invariant r == Series(times, start, end, |r|)
      decreases end - current
    {
      DayShift(start, |r|);
      DivBounds(end - start, |r|);
      var entry := DayCount(Day(current), CountOn(times, start, end, Day(current)));
      assert Series(times, start, end, |r| + 1) == r + [entry];
      r := r + [entry];
      current := current + MinutesPerDay;
    }
    DivBounds(end - start, |r|);
  }

  function SumCounts(s: seq<DayCount>): nat
  {
    if s == [] then 0 else SumCounts(s[..|s| - 1]) + s[|s| - 1].count
  }

  /** Counts over `n` consecutive days from `d`. */
  function SumOn(times: seq<int>, start: int, end: int, d: int, n: nat): nat
  {
    if n == 0 then 0 else SumOn(times, start, end, d, n - 1) + CountOn(times, start, end, d + n - 1)
  }

  lemma {:induction false} SumCountsIsSumOn(times: seq<int>, start: int, end: int, n: nat)
    ensures SumCounts(Series(times, start, end, n)) == SumOn(times, start, end, Day(start), n)
  {
    if n > 0 {
      var s := Series(times, start, end, n);
      assert s[..n - 1] == Series(times, start, end, n - 1);
      SumCountsIsSumOn(times, start, end, n - 1);
    }
  }

  /** Adding one row adds one to the day sum exactly when it falls in the period and on one
      of the `n` days. */
  lemma {:induction false} SumOnSnoc(times: seq<int>, t: int, start: int, end: int, d: int, n: nat)
    ensures SumOn(times + [t], start, end, d, n) ==
            SumOn(times, start, end, d, n) + (if InPeriod(t, start, end) && d <= Day(t) < d + n then 1 else 0)
  {
    assert (times + [t])[..|times|] == times;
    if n > 0 {
      SumOnSnoc(times, t, start, end, d, n - 1);
    }
  }

  lemma {:induction false} SumOnCovers(times: seq<int>, start: int, end: int, d: int, n: nat)
    requires forall t :: InPeriod(t, start, end) ==> d <= Day(t) < d + n
    ensures SumOn(times, start, end, d, n) == CountIn(times, start, end)
    decreases |times|
  {
    if times == [] {
      ZeroSum(start, end, d, n);
    } else {
      var init, t := times[..|times| - 1], times[|times| - 1];
      assert times == init + [t];
      SumOnCovers(init, start, end, d, n);
      SumOnSnoc(init, t, start, end, d, n);
    }
  }

  lemma {:induction false} ZeroSum(start: int, end: int, d: int, n: nat)
    ensures SumOn([], start, end, d, n) == 0
  {
    if n > 0 { ZeroSum(start, end, d, n - 1); }
  }

  /** The series counts add up to the number of rows in the period, when the period starts
      at midnight (as `startOfDay()` makes it). */
  lemma SeriesSum(times: seq<int>, start: int, end: int)
    requires start == StartOfDay(Day(start))
    ensures SumCounts(Series(times, start, end, SeriesLength(start, end))) == CountIn(times, start, end)
  {
    var n := SeriesLength(start, end);
    SumCountsIsSumOn(times, start, end, n);
    forall t | InPeriod(t, start, end) ensures Day(start) <= Day(t) < Day(start) + n {
      DayBounds(t, Day(t));
      DayBounds(start, Day(start));
      DivBounds(end - start, (end - start) / MinutesPerDay + 1);
      DivBounds(t - start, Day(t) - Day(start));
      DayShift(start, Day(t) - Day(start));
    }
    SumOnCovers(times, start, end, Day(start), n);
  }

  /** `viewed_at` of the announcement's view rows, in table order. */
  function ViewTimes(views: seq<ViewRow>, id: int): (r: seq<int>)
    ensures |r| <= |views|
  {
    if views == [] then []
    else
      var v := views[|views| - 1];
      ViewTimes(views[..|views| - 1], id) + (if v.announcementId == id then [v.viewedAt] else [])
  }

  /** `created_at` of the announcement's like rows, in table order. */
  function LikeTimes(likes: seq<LikeRow>, id: int): (r: seq<int>)
    ensures |r| <= |likes|
  {
    if likes == [] then []
    else
      var l := likes[|likes| - 1];
      LikeTimes(likes[..|likes| - 1], id) + (if l.announcementId == id then [l.createdAt] else [])
  }

  // ---------------------------------------------------------------- unique views

  /** Distinct non-null IP digests among the announcement's views since `start`. */
  function IpDigestsSince(views: seq<ViewRow>, id: int, start: int): set<Digest>
  {
    set v | v in views && v.announcementId == id && v.viewedAt >= start && v.ipHash.Some? :: v.ipHash.value
  }

  function CountSince(views: seq<ViewRow>, id: int, start: int): nat
  {
    if views == [] then 0
    else
      var v := views[|views| - 1];
      CountSince(views[..|views| - 1], id, start) + (if v.announcementId == id && v.viewedAt >= start then 1 else 0)
  }

  /** `getUniqueViews`: `COUNT(DISTINCT ip_hash)` over views since `start`, with no upper
      bound; never more than the number of those views. */
  function UniqueViews(views: seq<ViewRow>, id: int, start: int): (n: nat)
    ensures n <= CountSince(views, id, start)
  {
    UniqueAtMostViews(views, id, start);
    |IpDigestsSince(views, id, start)|
  }

  lemma {:induction false} UniqueAtMostViews(views: seq<ViewRow>, id: int, start: int)
    ensures |IpDigestsSince(views, id, start)| <= CountSince(views, id, start)
    decreases |views|
  {
    if views != [] {
      var init, v := views[..|views| - 1], views[|views| - 1];
      assert views == init + [v];
      UniqueAtMostViews(init, id, start);
      if v.announcementId == id && v.viewedAt >= start && v.ipHash.Some? {
        assert IpDigestsSince(views, id, start) == IpDigestsSince(init, id, start) + {v.ipHash.value};
      } else {
        assert IpDigestsSince(views, id, start) == IpDigestsSince(init, id, start);
      }
    }
  }

  /** A repeat visit from an already counted IP, or a view without an IP, leaves the
      distinct count as it is. */
  lemma UniqueViewsIgnoreRepeats(views: seq<ViewRow>, id: int, start: int, v: ViewRow)
    requires v.ipHash.None? || v.ipHash.value in IpDigestsSince(views, id, start)
    ensures UniqueViews(views + [v], id, start) == UniqueViews(views, id, start)
  {
    assert IpDigestsSince(views + [v], id, start) == IpDigestsSince(views, id, start);
  }

  // ---------------------------------------------------------------- top referers

  /** Non-null, non-empty referers of the announcement's views since `start`. */
  function ReferersSince(views: seq<ViewRow>, id: int, start: int): (r: seq<string>)
    ensures forall x :: x in r ==> x != ""
  {
    if views == [] then []
    else
      var v := views[|views| - 1];
      ReferersSince(views[..|views| - 1], id, start)
        + (if v.announcementId == id && v.viewedAt >= start && v.referer.Some? && v.referer.value != ""
           then [v.referer.value] else [])
  }

  function Occurrences(xs: seq<string>, k: string): nat
  {
    if xs == [] then 0 else Occurrences(xs[..|xs| - 1], k) + (if xs[|xs| - 1] == k then 1 else 0)
  }

  lemma {:induction false} OccursPositive(xs: seq<string>, k: string)
    requires k in xs
    ensures Occurrences(xs, k) >= 1
  {
    if xs[|xs| - 1] != k {
      assert k in xs[..|xs| - 1];
      OccursPositive(xs[..|xs| - 1], k);
    }
  }

  predicate Distinct<T(==)>(xs: seq<T>)
  {
    forall i, j :: 0 <= i < j < |xs| ==> xs[i] != xs[j]
  }

  /** The `GROUP BY` keys, in order of first appearance. */
  function DistinctKeys(xs: seq<string>): (d: seq<string>)
    ensures Distinct(d)
    ensures forall k :: k in d <==> k in xs
  {
    if xs == [] then []
    else
      var init := DistinctKeys(xs[..|xs| - 1]);
      assert forall k :: k in xs <==> k in xs[..|xs| - 1] || k == xs[|xs| - 1];
      if xs[|xs| - 1] in init then init else init + [xs[|xs| - 1]]
  }

  datatype RefererCount = RefererCount(referer: string, count: nat)

  function Groups(xs: seq<string>): (g: seq<RefererCount>)
    ensures |g| == |DistinctKeys(xs)|
    ensures forall i :: 0 <= i < |g| ==> g[i] == RefererCount(DistinctKeys(xs)[i], Occurrences(xs, DistinctKeys(xs)[i]))
  {
    var d := DistinctKeys(xs);
    seq(|d|, i requires 0 <= i < |d| => RefererCount(d[i], Occurrences(xs, d[i])))
  }

  lemma {:induction false} DistinctOnce<T>(xs: seq<T>, x: T)
    requires Distinct(xs)
    ensures multiset(xs)[x] <= 1
    decreases |xs|
  {
    if xs != [] {
      assert xs == [xs[0]] + xs[1..];
      DistinctOnce(xs[1..], x);
      if x == xs[0] {
        assert x !in xs[1..];
      }
    }
  }

  function RefererScore(e: RefererCount): int
  {
    e.count
  }

  /** `getTopReferers`: at most `limit` referers, each once, with its number of views since
      `start`, busiest first; a referer left out has no more views than any listed one, and
      one is left out only when the list is full. */
  function TopReferers(views: seq<ViewRow>, id: int, start: int, limit: nat): (r: seq<RefererCount>)
    ensures |r| <= limit
    ensures SortedDesc(r, RefererScore)
    ensures forall e :: e in r ==> e.referer != "" && e.count == Occurrences(ReferersSince(views, id, start), e.referer) >= 1
    ensures forall i, j :: 0 <= i < j < |r| ==> r[i].referer != r[j].referer
    ensures forall k :: k in ReferersSince(views, id, start) && (forall e :: e in r ==> e.referer != k) ==>
              |r| == limit && forall e :: e in r ==> e.count >= Occurrences(ReferersSince(views, id, start), k)
  {
    var xs := ReferersSince(views, id, start);
    var g := Groups(xs);
    var r := TopByScore(g, RefererScore, limit);
    TopReferersProps(xs, g, r, limit);
    r
  }

  lemma TopReferersProps(xs: seq<string>, g: seq<RefererCount>, r: seq<RefererCount>, limit: nat)
    requires (forall x :: x in xs ==> x != "") && g == Groups(xs) && r == TopByScore(g, RefererScore, limit)
    ensures forall e :: e in r ==> e.referer != "" && e.count == Occurrences(xs, e.referer) >= 1
    ensures forall i, j :: 0 <= i < j < |r| ==> r[i].referer != r[j].referer
    ensures forall k :: k in xs && (forall e :: e in r ==> e.referer != k) ==>
              |r| == limit && forall e :: e in r ==> e.count >= Occurrences(xs, k)
  {
    RankedCounts(xs, g, r, limit);
    RankedDistinct(xs, g, r, limit);
    RankedLeftOut(xs, g, r, limit);
  }

  lemma RankedCounts(xs: seq<string>, g: seq<RefererCount>, r: seq<RefererCount>, limit: nat)
    requires (forall x :: x in xs ==> x != "") && g == Groups(xs) && r == TopByScore(g, RefererScore, limit)
    ensures forall e :: e in r ==> e.referer != "" && e.count == Occurrences(xs, e.referer) >= 1
  {
    forall e | e in r ensures e.referer != "" && e.count == Occurrences(xs, e.referer) >= 1 {
      assert e in multiset(g);
      GroupEntry(xs, e);
    }
  }

  lemma RankedDistinct(xs: seq<string>, g: seq<RefererCount>, r: seq<RefererCount>, limit: nat)
    requires g == Groups(xs) && r == TopByScore(g, RefererScore, limit)
    ensures forall i, j :: 0 <= i < j < |r| ==> r[i].referer != r[j].referer
  {
    forall i, j | 0 <= i < j < |r| ensures r[i].referer != r[j].referer {
      RankedOnce(xs, g, r, limit, i, j);
    }
  }

  lemma RankedLeftOut(xs: seq<string>, g: seq<RefererCount>, r: seq<RefererCount>, limit: nat)
    requires g == Groups(xs) && r == TopByScore(g, RefererScore, limit)
    ensures forall k :: k in xs && (forall e :: e in r ==> e.referer != k) ==>
              |r| == limit && forall e :: e in r ==> e.count >= Occurrences(xs, k)
  {
    forall k | k in xs && (forall e :: e in r ==> e.referer != k)
      ensures |r| == limit && forall e :: e in r ==> e.count >= Occurrences(xs, k)
    {
      LeftOut(xs, g, r, limit, k);
    }
  }

  lemma GroupsDistinct(xs: seq<string>)
    ensures Distinct(Groups(xs))
  {
    var g, d := Groups(xs), DistinctKeys(xs);
    forall i, j | 0 <= i < j < |g| ensures g[i] != g[j] { assert g[i].referer == d[i]; }
  }

  /** Every group is its referer with that referer's number of occurrences. */
  lemma GroupEntry(xs: seq<string>, e: RefererCount)
    requires e in multiset(Groups(xs))
    ensures e.referer in xs && e.count == Occurrences(xs, e.referer) >= 1
  {
    var g, d := Groups(xs), DistinctKeys(xs);
    var i :| 0 <= i < |g| && g[i] == e;
    assert d[i] in xs;
    OccursPositive(xs, d[i]);
  }

  lemma RankedOnce(xs: seq<string>, g: seq<RefererCount>, r: seq<RefererCount>, limit: nat, i: nat, j: nat)
    requires g == Groups(xs) && r == TopByScore(g, RefererScore, limit) && 0 <= i < j < |r|
    ensures r[i].referer != r[j].referer
  {
    assert r[i] in multiset(g) && r[j] in multiset(g);
    GroupEntry(xs, r[i]);
    GroupEntry(xs, r[j]);
    if r[i].referer == r[j].referer {
      assert r[i] == r[j];
      TwoPositions(r, i, j);
      GroupsDistinct(xs);
      DistinctOnce(g, r[i]);
    }
  }

  /** The group of a referer that occurs. */
  lemma GroupOf(xs: seq<string>, k: string) returns (e: RefererCount)
    requires k in xs
    ensures e in Groups(xs) && e.referer == k && e.count == Occurrences(xs, k)
  {
    var d := DistinctKeys(xs);
    var p :| 0 <= p < |d| && d[p] == k;
    e := Groups(xs)[p];
  }

  /** A group the ranking leaves out means the ranking is full. */
  lemma FullWhenLeftOut(g: seq<RefererCount>, r: seq<RefererCount>, limit: nat, e: RefererCount)
    requires r == TopByScore(g, RefererScore, limit) && e in multiset(g) && e !in multiset(r)
    ensures |r| == limit
  {
    if |g| <= limit {
      assert false;
    }
  }

  /** A group the ranking leaves out scores no higher than any it keeps. */
  lemma OutranksLeftOut(g: seq<RefererCount>, r: seq<RefererCount>, limit: nat, e: RefererCount)
    requires r == TopByScore(g, RefererScore, limit) && e in multiset(g) && e !in multiset(r)
    ensures forall e' :: e' in r ==> e'.count >= e.count
  {
    assert e in multiset(g) - multiset(r);
    forall e' | e' in r ensures e'.count >= e.count {
      var i :| 0 <= i < |r| && r[i] == e';
      assert RefererScore(r[i]) >= RefererScore(e);
    }
  }

  lemma LeftOut(xs: seq<string>, g: seq<RefererCount>, r: seq<RefererCount>, limit: nat, k: string)
    requires g == Groups(xs) && r == TopByScore(g, RefererScore, limit)
    requires k in xs && forall e :: e in r ==> e.referer != k
    ensures |r| == limit && forall e :: e in r ==> e.count >= Occurrences(xs, k)
  {
    var e := GroupOf(xs, k);
    assert e !in r;
    FullWhenLeftOut(g, r, limit, e);
    OutranksLeftOut(g, r, limit, e);
  }

  // ---------------------------------------------------------------- per-announcement stats

  datatype AnnouncementStats = AnnouncementStats(
    totalViews: int,
    uniqueViews: nat,
    totalLikes: int,
    viewsByDay: seq<DayCount>,
    likesByDay: seq<DayCount>,
    topReferers: seq<RefererCount>,
    period: string,
    start: int,
    end: int)

  /** What `getStats` returns for an announcement, its view and like rows, a period code and
      the clock. */
  function StatsOf(a: Announcement, views: seq<ViewRow>, likes: seq<LikeRow>, period: string, now: int): AnnouncementStats
  {
    var p := PeriodDates(period, now);
    AnnouncementStats(
      a.viewsCount,
      UniqueViews(views, a.id, p.start),
      a.likesCount,
      Series(ViewTimes(views, a.id), p.start, p.end, SeriesLength(p.start, p.end)),
      Series(LikeTimes(likes, a.id), p.start, p.end, SeriesLength(p.start, p.end)),
      TopReferers(views, a.id, p.start, TopReferersLimit),
      period, p.start, p.end)
  }

  /** `getStats`: totals are the stored counters whatever the period; each daily series has
      one entry per day of the period (n + 1 for an `n`-day code); the two series are built
      by the cursor loop. */
  method GetStats(a: Announcement, views: seq<ViewRow>, likes: seq<LikeRow>, period: string, now: int)
    returns (s: AnnouncementStats)
    ensures s == StatsOf(a, views, likes, period, now)
    ensures s.totalViews == a.viewsCount && s.totalLikes == a.likesCount
    ensures |s.viewsByDay| == PeriodDays(period) + 1 && |s.likesByDay| == PeriodDays(period) + 1
    ensures |s.topReferers| <= TopReferersLimit
  {
    var p := PeriodDates(period, now);
    var viewsByDay := DailyCounts(ViewTimes(views, a.id), p.start, p.end);
    var likesByDay := DailyCounts(LikeTimes(likes, a.id), p.start, p.end);
    s := AnnouncementStats(a.viewsCount, UniqueViews(views, a.id, p.start), a.likesCount,
                           viewsByDay, likesByDay, TopReferers(views, a.id, p.start, TopReferersLimit),
                           period, p.start, p.end);
  }

  /** The views series of any period adds up to the announcement's views inside it. */
  lemma ViewsByDaySum(a: Announcement, views: seq<ViewRow>, likes: seq<LikeRow>, period: string, now: int)
    ensures var s := StatsOf(a, views, likes, period, now);
            SumCounts(s.viewsByDay) == CountIn(ViewTimes(views, a.id), s.start, s.end)
            && SumCounts(s.likesByDay) == CountIn(LikeTimes(likes, a.id), s.start, s.end)
  {
    var p := PeriodDates(period, now);
    DayOfStart(Day(now) - PeriodDays(period));
    SeriesSum(ViewTimes(views, a.id), p.start, p.end);
    SeriesSum(LikeTimes(likes, a.id), p.start, p.end);
  }

  // ---------------------------------------------------------------- site-wide stats

  datatype GlobalStats = GlobalStats(
    totalAnnouncements: nat,
    publishedAnnouncements: nat,
    totalViews: nat,
    totalLikes: int,
    mostViewed: seq<Announcement>,
    mostLiked: seq<Announcement>)

  function LiveCount(rows: seq<Announcement>): nat
  {
    if rows == [] then 0 else (if rows[0].deleted then 0 else 1) + LiveCount(rows[1..])
  }

  function LiveLikesSum(rows: seq<Announcement>): int
  {
    if rows == [] then 0 else (if rows[0].deleted then 0 else rows[0].likesCount) + LiveLikesSum(rows[1..])
  }

  /** All view rows since `start`, of any announcement. */
  function ViewsSince(views: seq<ViewRow>, start: int): nat
  {
    if views == [] then 0
    else ViewsSince(views[..|views| - 1], start) + (if views[|views| - 1].viewedAt >= start then 1 else 0)
  }

  function ViewsScore(a: Announcement): int
  {
    a.viewsCount
  }

  function LikesScore(a: Announcement): int
  {
    a.likesCount
  }

  /** `getGlobalStats`: the live and published counts, the views recorded since the period
      starts and the all-time likes total; and the five published announcements with the most
      views and with the most likes, highest counter first. A published announcement is left
      out of a ranking only when five are listed, each counting at least as many. */
  function GetGlobalStats(rows: seq<Announcement>, views: seq<ViewRow>, period: string, now: int): (g: GlobalStats)
    ensures g.totalAnnouncements == LiveCount(rows)
    ensures g.publishedAnnouncements == |AnnouncementModel.PublishedScope(rows, now)|
    ensures g.publishedAnnouncements <= g.totalAnnouncements
    ensures g.totalViews == ViewsSince(views, PeriodDates(period, now).start)
    ensures g.totalLikes == LiveLikesSum(rows)
    ensures |g.mostViewed| == Min(MostListedLimit, g.publishedAnnouncements) && SortedDesc(g.mostViewed, ViewsScore)
    ensures |g.mostLiked| == Min(MostListedLimit, g.publishedAnnouncements) && SortedDesc(g.mostLiked, LikesScore)
    ensures forall a :: a in g.mostViewed || a in g.mostLiked ==> a in rows && !a.deleted && AnnouncementModel.IsPublished(a, now)
    ensures forall a | a in rows && !a.deleted && AnnouncementModel.IsPublished(a, now) && a !in g.mostViewed ::
              |g.mostViewed| == MostListedLimit && forall i :: 0 <= i < |g.mostViewed| ==> g.mostViewed[i].viewsCount >= a.viewsCount
    ensures forall a | a in rows && !a.deleted && AnnouncementModel.IsPublished(a, now) && a !in g.mostLiked ::
              |g.mostLiked| == MostListedLimit && forall i :: 0 <= i < |g.mostLiked| ==> g.mostLiked[i].likesCount >= a.likesCount
  {
    var published := AnnouncementModel.PublishedScope(rows, now);
    PublishedAtMostLive(rows, now);
    var mostViewed := TopByScore(published, ViewsScore, MostListedLimit);
    var mostLiked := TopByScore(published, LikesScore, MostListedLimit);
    TopLeavesOutOnlyLower(published, ViewsScore);
    TopLeavesOutOnlyLower(published, LikesScore);
    GlobalStats(LiveCount(rows), |published|, ViewsSince(views, PeriodDates(period, now).start),
                LiveLikesSum(rows), mostViewed, mostLiked)
  }

  /** The top five of `pool`: every member is from the pool, and a pool row missing from it
      means five are listed, none scoring lower. */
  lemma TopLeavesOutOnlyLower(pool: seq<Announcement>, score: Announcement -> int)
    ensures var top := TopByScore(pool, score, MostListedLimit);
            && (forall a :: a in top ==> a in pool)
            && forall a | a in pool && a !in top ::
                 |top| == MostListedLimit && forall i :: 0 <= i < |top| ==> score(top[i]) >= score(a)
  {
    var top := TopByScore(pool, score, MostListedLimit);
    forall a | a in top ensures a in pool {
      assert a in multiset(top);
    }
    forall a | a in pool && a !in top
      ensures |top| == MostListedLimit && forall i :: 0 <= i < |top| ==> score(top[i]) >= score(a)
    {
      assert a in multiset(pool) && a !in multiset(top);
      assert a in multiset(pool) - multiset(top);
    }
  }

  lemma {:induction false} PublishedAtMostLive(rows: seq<Announcement>, now: int)
    ensures |AnnouncementModel.PublishedScope(rows, now)| <= LiveCount(rows)
    decreases |rows|
  {
    if rows != [] {
      PublishedAtMostLive(rows[1..], now);
    }
  }

  /** Only the views figure depends on the period: the counts and the likes total (summed
      over all time) do not. */
  lemma GlobalTotalsIgnorePeriod(rows: seq<Announcement>, views: seq<ViewRow>, p1: string, p2: string, now: int)
    ensures var g1, g2 := GetGlobalStats(rows, views, p1, now), GetGlobalStats(rows, views, p2, now);
            g1.totalAnnouncements == g2.totalAnnouncements && g1.totalLikes == g2.totalLikes
            && g1.publishedAnnouncements == g2.publishedAnnouncements
            && g1.mostViewed == g2.mostViewed && g1.mostLiked == g2.mostLiked
  {
  }

  // ---------------------------------------------------------------- CSV export

  const CsvHeader: string := "Date,Views,Likes\n"

  function CsvLine(date: string, views: nat, likes: nat): string
  {
    date + "," + NatToString(views) + "," + NatToString(likes) + "\n"
  }

  /** The rows: one line per series entry, in order, with the likes cell given by `likesOf`. */
  function CsvBody(viewsByDay: seq<DayCount>, likesOf: int -> nat, formatDay: int -> string): string
  {
    if viewsByDay == [] then ""
    else
      var e := viewsByDay[|viewsByDay| - 1];
      CsvBody(viewsByDay[..|viewsByDay| - 1], likesOf, formatDay) + CsvLine(formatDay(e.day), e.count, likesOf(e.day))
  }

  /** `keyBy('date')->get($date)['count'] ?? 0`: the last likes entry for the day, or 0. */
  function LikesOn(likesByDay: seq<DayCount>, day: int): nat
  {
    if likesByDay == [] then 0
    else if likesByDay[|likesByDay| - 1].day == day then likesByDay[|likesByDay| - 1].count
    else LikesOn(likesByDay[..|likesByDay| - 1], day)
  }

  /** The export as written: `?->count` on an array inside `??` yields null, so every likes
      cell is 0. */
  function CsvAsWritten(s: AnnouncementStats, formatDay: int -> string): string
  {
    CsvHeader + CsvBody(s.viewsByDay, _ => 0, formatDay)
  }

  /** The export as intended: each row carries the likes of the same day. */
  function Csv(s: AnnouncementStats, formatDay: int -> string): string
  {
    CsvHeader + CsvBody(s.viewsByDay, d => LikesOn(s.likesByDay, d), formatDay)
  }

  /** A day with one like and no view: the written export reports 0 likes, the intended
      one reports 1. */
  lemma CsvLikesLostAsWritten(formatDay: int -> string)
    ensures var s := AnnouncementStats(0, 0, 1, [DayCount(0, 0)], [DayCount(0, 1)], [], "30d", 0, 1439);
            CsvAsWritten(s, formatDay) == CsvHeader + formatDay(0) + ",0,0\n"
            && Csv(s, formatDay) == CsvHeader + formatDay(0) + ",0,1\n"
            && CsvAsWritten(s, formatDay) != Csv(s, formatDay)
  {
    var s := AnnouncementStats(0, 0, 1, [DayCount(0, 0)], [DayCount(0, 1)], [], "30d", 0, 1439);
    assert s.viewsByDay[..0] == [];
    assert NatToString(0) == "0" && NatToString(1) == "1";
    var w := CsvAsWritten(s, formatDay);
    var c := Csv(s, formatDay);
    var n := |CsvHeader + formatDay(0) + ",0,"|;
    assert w[n] == '0' && c[n] == '1';
  }

  function Newlines(s: string): nat
  {
    if s == [] then 0 else Newlines(s[..|s| - 1]) + (if s[|s| - 1] == '\n' then 1 else 0)
  }

  lemma {:induction false} NewlinesAppend(a: string, b: string)
    ensures Newlines(a + b) == Newlines(a) + Newlines(b)
    decreases |b|
  {
    if b == [] {
      assert a + b == a;
    } else {
      assert (a + b)[..|a + b| - 1] == a + b[..|b| - 1];
      NewlinesAppend(a, b[..|b| - 1]);
    }
  }

  lemma {:induction false} NoNewlines(s: string)
    requires '\n' !in s
    ensures Newlines(s) == 0
    decreases |s|
  {
    if s != [] {
      assert '\n' !in s[..|s| - 1];
      NoNewlines(s[..|s| - 1]);
    }
  }

  /** Every line of the body ends in the only newline it holds, so the export has one line
      per series entry plus the header. */
  lemma {:induction false} CsvLineCount(viewsByDay: seq<DayCount>, likesOf: int -> nat, formatDay: int -> string)
    requires forall i :: 0 <= i < |viewsByDay| ==> Newlines(formatDay(viewsByDay[i].day)) == 0
    ensures Newlines(CsvBody(viewsByDay, likesOf, formatDay)) == |viewsByDay|
    decreases |viewsByDay|
  {
    if viewsByDay != [] {
      var init, e := viewsByDay[..|viewsByDay| - 1], viewsByDay[|viewsByDay| - 1];
      CsvLineCount(init, likesOf, formatDay);
      var v, l := NatToString(e.count), NatToString(likesOf(e.day));
      NoNewlines(v);
      NoNewlines(l);
      NewlinesAppend(CsvBody(init, likesOf, formatDay), CsvLine(formatDay(e.day), e.count, likesOf(e.day)));
      NewlinesAppend(formatDay(e.day) + "," + v + "," + l, "\n");
      NewlinesAppend(formatDay(e.day) + "," + v + ",", l);
      NewlinesAppend(formatDay(e.day) + "," + v, ",");
      NewlinesAppend(formatDay(e.day) + ",", v);
      NewlinesAppend(formatDay(e.day), ",");
      assert Newlines(",") == 0 && Newlines("\n") == 1;
    }
  }

  /** The `foreach` of `exportToCsv` (as intended): the header, then one line per entry of
      `views_by_day`, in order. */
  method WriteCsv(s: AnnouncementStats, formatDay: int -> string) returns (csv: string)
    ensures csv == Csv(s, formatDay)
  {
    var likesOf := d => LikesOn(s.likesByDay, d);
    csv := CsvHeader;
    var i := 0;
    while i < |s.viewsByDay|
      invariant 0 <= i <= |s.viewsByDay|
      invariant csv == CsvHeader + CsvBody(s.viewsByDay[..i], likesOf, formatDay)
    {
      var e := s.viewsByDay[i];
      assert s.viewsByDay[..i + 1][..i] == s.viewsByDay[..i];
      csv := csv + CsvLine(formatDay(e.day), e.count, LikesOn(s.likesByDay, e.day));
      i := i + 1;
    }
    assert s.viewsByDay[..i] == s.viewsByDay;
  }

  /** `exportToCsv` (as intended) for a period code. */
  method ExportToCsv(a: Announcement, views: seq<ViewRow>, likes: seq<LikeRow>, period: string, now: int,
                     formatDay: int -> string) returns (csv: string)
    ensures csv == Csv(StatsOf(a, views, likes, period, now), formatDay)
  {
    var s := GetStats(a, views, likes, period, now);
    csv := WriteCsv(s, formatDay);
  }

  /** With a date format that writes no newline, the export has one line per series entry
      plus the header: `n + 2` lines for an `n`-day period. */
  lemma CsvNewlines(s: AnnouncementStats, formatDay: int -> string)
    requires forall d :: Newlines(formatDay(d)) == 0
    ensures Newlines(Csv(s, formatDay)) == |s.viewsByDay| + 1
  {
    var likesOf := d => LikesOn(s.likesByDay, d);
    CsvLineCount(s.viewsByDay, likesOf, formatDay);
    NewlinesAppend(CsvHeader, CsvBody(s.viewsByDay, likesOf, formatDay));
    var title := "Date,Views,Likes";
    assert CsvHeader == title + "\n";
    NoNewlines(title);
    NewlinesAppend(title, "\n");
  }
}

=== FILE: support.dfy ===
/** Shared vocabulary of the model: optional values, PHP string truthiness, decimal
    rendering, string trimming and truncation, the hash abstraction and the clock. */
module Support {

  datatype Option<+T> = None | Some(value: T)

  /** Identifiers handed out by the authentication guards are positive auto-increment ids,
      so a present user id is always truthy in PHP. */
  type UserId = x: int | x >= 1 witness 1

  /** `$value ?? $default` */
  function OrDefault<T>(o: Option<T>, d: T): T
  {
    if o.Some? then o.value else d
  }

  /** A field of a partial update: left alone when the key is absent. */
  datatype Patch<T> = Keep | Put(value: T)

  function Patched<T>(p: Patch<T>, current: T): T
  {
    if p.Put? then p.value else current
  }

  /** SHA-256 treated as an injective function: two digests are equal exactly when their
      inputs are. A digest is not a string, so a row that holds digests holds no raw input. */
  datatype Digest = Sha256(preimage: string)

  /** PHP truthiness of a nullable string (`if ($s)`, `!empty($s)`): null, "" and "0" are false. */
  predicate Filled(s: Option<string>)
  {
    s.Some? && s.value != "" && s.value != "0"
  }

  /** `$s ? hash('sha256', $s) : null` */
  function HashOf(s: Option<string>): (h: Option<Digest>)
    ensures h.Some? <==> Filled(s)
    ensures h.Some? ==> h.value.preimage == s.value
  {
    if Filled(s) then Some(Sha256(s.value)) else None
  }

  lemma {:induction false} HashOfInjective(a: Option<string>, b: Option<string>)
    requires Filled(a) && Filled(b)
    ensures HashOf(a) == HashOf(b) <==> a == b
  {
  }

  // ---------------------------------------------------------------- decimal text

  function DigitChar(d: nat): char
    requires d < 10
  {
    (48 + d) as char
  }

  /** Decimal rendering of a natural number, as PHP interpolates an int into a string. */
  function NatToString(n: nat): (s: string)
    ensures |s| >= 1
    ensures n >= 10 ==> |s| >= 2
    ensures forall i :: 0 <= i < |s| ==> '0' <= s[i] <= '9'
    decreases n
  {
    if n < 10 then [DigitChar(n)] else NatToString(n / 10) + [DigitChar(n % 10)]
  }

  lemma {:induction false} NatToStringInjective(a: nat, b: nat)
    requires NatToString(a) == NatToString(b)
    ensures a == b
    decreases a
  {
    var sa, sb := NatToString(a), NatToString(b);
    if a < 10 && b < 10 {
      assert sa[0] == DigitChar(a) && sb[0] == DigitChar(b);
    } else if a >= 10 && b >= 10 {
      assert sa == NatToString(a / 10) + [DigitChar(a % 10)];
      assert sb == NatToString(b / 10) + [DigitChar(b % 10)];
      assert sa[|sa| - 1] == DigitChar(a % 10) && sb[|sb| - 1] == DigitChar(b % 10);
      assert NatToString(a / 10) == sa[..|sa| - 1] == sb[..|sb| - 1] == NatToString(b / 10);
      NatToStringInjective(a / 10, b / 10);
    }
  }

  /** Strings that agree after a common prefix are equal. */
  lemma SamePrefixSameRest(pre: string, a: string, b: string)
    requires pre + a == pre + b
    ensures a == b
  {
    assert a == (pre + a)[|pre|..];
  }

  /** PHP's string form of an integer. */
  function IntToString(n: int): (s: string)
    ensures |s| >= 1
  {
    if n < 0 then "-" + NatToString(-n) else NatToString(n)
  }

  // ---------------------------------------------------------------- trimming

  /** The characters PHP's `trim`/`rtrim` strip by default: space, \t, \n, \r, \0, \x0B. */
  predicate IsTrimChar(c: char)
  {
    c == ' ' || c == '\t' || c == '\n' || c == '\r' || c == 0 as char || c == 11 as char
  }

  function RTrim(s: string): (r: string)
    ensures |r| <= |s| && r == s[..|r|]
    ensures r == [] || !IsTrimChar(r[|r| - 1])
    ensures forall i :: |r| <= i < |s| ==> IsTrimChar(s[i])
  {
    if s == [] || !IsTrimChar(s[|s| - 1]) then s else RTrim(s[..|s| - 1])
  }

  function LTrim(s: string): (r: string)
    ensures |r| <= |s| && r == s[|s| - |r|..]
    ensures r == [] || !IsTrimChar(r[0])
    ensures forall i :: 0 <= i < |s| - |r| ==> IsTrimChar(s[i])
  {
    if s == [] || !IsTrimChar(s[0]) then s else LTrim(s[1..])
  }

  /** `r` sits at offset `i` of `s` with only trim characters before and after it. */
  predicate TrimmedAt(s: string, i: int, r: string)
  {
    && 0 <= i <= |s| - |r| && r == s[i..i + |r|]
    && (forall j :: 0 <= j < i ==> IsTrimChar(s[j]))
    && (forall j :: i + |r| <= j < |s| ==> IsTrimChar(s[j]))
  }

  /** PHP `trim`: `s` with its leading and trailing run of trim characters removed. */
  function Trim(s: string): (r: string)
    ensures r == [] || (!IsTrimChar(r[0]) && !IsTrimChar(r[|r| - 1]))
    ensures |r| <= |s|
    ensures exists i :: TrimmedAt(s, i, r)
    ensures r == [] <==> forall j :: 0 <= j < |s| ==> IsTrimChar(s[j])
  {
    var l := LTrim(s);
    assert TrimmedAt(s, |s| - |l|, RTrim(l));
    RTrim(l)
  }

  /** Laravel `Str::limit($s, $limit)` with the default end marker "...": a string that fits is
      returned as it is, a longer one is cut to `limit` characters, right-trimmed, and "..." is
      appended. Display width is counted as one per character. */
  function StrLimit(s: string, limit: nat): (r: string)
    ensures |s| <= limit ==> r == s
    ensures |s| > limit ==> 3 <= |r| <= limit + 3 && r[|r| - 3..] == "..." && r[..|r| - 3] == s[..|r| - 3]
    ensures |s| > limit ==> forall i :: |r| - 3 <= i < limit ==> IsTrimChar(s[i])
    ensures |s| > limit ==> |r| == 3 || !IsTrimChar(s[|r| - 4])
  {
    if |s| <= limit then s else RTrim(s[..limit]) + "..."
  }

  // ---------------------------------------------------------------- clock

  /** Timestamps are integer minutes; a calendar day is 1440 of them. */
  const MinutesPerDay: int := 1440

  /** `DATE(t)` as a day index (floor division, so negative times fall on earlier days). */
  function Day(t: int): int
  {
    t / MinutesPerDay
  }

  /** `startOfDay()` of day `d`. */
  function StartOfDay(d: int): int
  {
    d * MinutesPerDay
  }

  /** `endOfDay()` of day `d`: its last minute. */
  function EndOfDay(d: int): int
  {
    d * MinutesPerDay + MinutesPerDay - 1
  }

  lemma DayBounds(t: int, d: int)
    ensures Day(t) == d <==> StartOfDay(d) <= t <= EndOfDay(d)
  {
  }

  lemma DayOfStart(d: int)
    ensures Day(StartOfDay(d)) == d && Day(EndOfDay(d)) == d
  {
    DayBounds(StartOfDay(d), d);
    DayBounds(EndOfDay(d), d);
  }

  /** A non-empty set has a member to pick; the lemma names one. */
  lemma NonEmptyHasMember<T>(s: set<T>) returns (x: T)
    requires s != {}
    ensures x in s
  {
    if forall y :: y !in s {
      assert false;
    }
    x :| x in s;
  }
}
